=== FILE: README.md ===
# SPDX license expressions in Dafny

This project models the core of the `spdx` Rust crate. That core is the
engine that reads SPDX license expressions such as
`Apache-2.0 WITH LLVM-exception OR MIT`, decides whether a set of licenses
the user holds satisfies them, and keeps a store of license texts.

The modelled parts are:

- the **identifier tables** with their binary-search lookups (`license_id`,
  `exception_id`, `imprecise_license_id`) and the GNU root mapping of
  `LicenseReq::from`;
- the **lexer**: whitespace skipping, the word classes, operators, identifiers,
  `LicenseRef-` references, and its three errors;
- the two **shunting-yard parsers**: `Expression::parse_mode` with its strict
  and lax modes, and the earlier `ValidExpression::parse`. Both produce
  postfix nodes; they are one step function with a dialect switch;
- the **evaluators**: `evaluate`, `evaluate_with_failures` and the earlier
  evaluator that reports the last failure;
- `Expression::canonicalize`;
- **licensees** and the earlier `AllowedLicense`: their three-token parsers
  and the two "or later" rules of `satisfies`;
- `minimized_requirements`;
- the license text **store** (`detection.rs`) and the word n-gram multiset
  (`detection/ngram.rs`);
- parse errors and their two-line caret rendering.

All operations are pure functions over immutable datatypes. The exceptions
are `Expression.EvaluateWithFailures`, `Expression.LegacyEvaluate`,
`Ngram.Analyze` and the binary searches: these are methods whose loops
mirror the source's loops, and they are proved equal to the functional
definitions. The identifier tables are a parameter (`Registry`).

The central results are these:

- `ParserFacts.ParseKeepsOperandOrder` and `Parser.Parse`: a successful
  parse is well-formed postfix and keeps every license operand in input
  order.
- `Expression.Evaluate` and `Expression.PostfixRoundTrip`: the stack
  evaluator computes the value of the syntax tree the postfix encodes.
- `Expression.EvaluateWithFailures`: `Ok` exactly when the expression is
  true; otherwise it reports exactly the failed requirements, and there is
  at least one.
- `ParserFacts.ParseAgree`: the two parsers agree on every input that
  names no GNU license.
- `Canon.CanonicalKeepsText`: canonicalization changes only whitespace,
  unless a `+` after a GNU identifier becomes `-or-later`.
- `Minimize.MinimizedRequirements` and `Minimize.FirstWorkingMask`:
  minimization returns a satisfying subset of the found licensees, picked
  by the first working bit mask. `Minimize.FallbackUnreachable` shows that
  the fallback path is never reached.

Modules: `Common` (Option/Result, string order, `split`), `Registry`,
`Items` (license items and requirements), `Errors`, `Lexer`, `Expression`
(nodes, evaluation, postfix and tree semantics), `Parser`, `ParserFacts`,
`ParseCases` (the parser on the source's example inputs), `Canon`,
`Licensees`, `Allowed`, `Minimize`, `Detection`, `Ngram`.

## Model

| member | source | states |
|---|---|---|
| Common.SplitJoin | src/detection/ngram.rs:34 | Splitting on a separator loses nothing: joining the pieces with it gives the input back |
| Common.StrLessTrichotomy | src/lib.rs:317 | The string order used by the table searches is total: exactly one of less, equal or greater holds |
| Registry.TrimEndPlus | src/lib.rs:316 | The trimmed name is a prefix of the name, does not end in `+`, and only `+` signs were removed |
| Registry.LookupLicense | src/lib.rs:315-329 | A license is found exactly when some table row carries the name with trailing `+` removed; the handle points at that row |
| Registry.LookupException | src/lib.rs:363-371 | An exception is found exactly when some row carries the exact name, with no trimming |
| Registry.BinarySearch | src/lib.rs:317-318 | On a strictly ascending table the binary search returns the same row as a linear scan for the key, or nothing when the key is absent |
| Registry.FindLicense | src/lib.rs:315-329 | `license_id` done by binary search agrees with the lookup's definition on every name |
| Registry.FindException | src/lib.rs:363-371 | `exception_id` done by binary search agrees with the lookup's definition on every name |
| Registry.LookupOwnName | src/lib.rs:315-329 | Looking up a handle's own name in a valid table returns that same handle |
| Registry.LookupOwnException | src/lib.rs:332-338 | Looking up an exception handle's own name in a valid table returns that same handle |
| Registry.SameLicenseIsEquality | src/lib.rs:39-44 | For handles taken from the table, comparing by row index is the same as full equality |
| Registry.LicenseCmpIsNameOrder | src/lib.rs:46-51 | Ordering handles by row index agrees with ordering their names, because the table is sorted |
| Registry.FirstImprecise | src/lib.rs:343-348 | Finds the first imprecise-table entry whose prefix matches the start of the name, ignoring ASCII case; none before it matches |
| Registry.ImpreciseFrom | src/lib.rs:342-355 | Only the first matching entry counts; the result is its paired identifier and the matched length, plus one for a following `+`; it is nothing when that identifier is missing |
| Items.ItemCmp | src/lib.rs:250-271 | SPDX items sort before references; SPDX items compare by row, ignoring "or later"; references compare by document reference, then license reference |
| Items.ItemCmpAntisymmetric | src/lib.rs:250-271 | Swapping the operands of the item comparison reverses its answer |
| Items.ItemCmpTransitive | src/lib.rs:250-271 | The item comparison is transitive |
| Items.ItemEqEquivalence | src/lib.rs:273-281 | Item equality (the comparison says `Equal`) is an equivalence and does not see the "or later" flag |
| Items.ReqEqEquivalence | src/lib.rs:164-171 | Requirement equality is an equivalence |
| Items.ReqFromId | src/lib.rs:173-202 | A GNU identifier becomes its root, with "or later" set exactly for `-or-later`; any other identifier is kept without "or later"; the root always exists in a valid table |
| Items.ReqFromIdGnuSuffix | src/lib.rs:173-202 | Root plus `-or-later` or `-only`, chosen by the flag, spells the suffixed GNU identifier the requirement came from |
| Items.ItemTextPlus | src/lib.rs:283-305 | For an identifier not ending in `+`, the item's text ends in `+` exactly when it is "or later", and an "or later" text begins with the identifier |
| Errors.QuotedListContains | src/error.rs:74-81 | Every expected term appears in backticks in the comma-separated list, at a position the proof names |
| Errors.UnexpectedNamesEveryTerm | src/error.rs:74-87 | The `Unexpected` message names each expected term in backticks, whether one or several are listed |
| Errors.CaretLineLocatesSpan | src/error.rs:40-63 | The rendering is the original text, a newline and `start` spaces; then one `^` per spanned position, or a single `-` for unclosed and `^` for unopened parentheses; then a space and the reason's text to the end |
| Lexer.TokenText | src/lexer.rs:23-40 | A token's text has exactly the length `Token::len` moves the cursor by |
| Lexer.SkipWhitespace | src/lexer.rs:83-89 | Everything skipped is whitespace, and the character reached is not |
| Lexer.WordEnd | src/lexer.rs:75 | The word is the longest run of `[-a-zA-Z0-9.:]` from the cursor |
| Lexer.MatchDocRef | src/lexer.rs:113-117 | Matches exactly when the word starts `DocumentRef-`, a non-empty run of `[-a-zA-Z0-9.]`, `:LicenseRef-` and another such character; the parts are the two longest runs, and their token text is a prefix of the word |
| Lexer.MatchLicRef | src/lexer.rs:118-122 | Matches exactly when the word starts `LicenseRef-` followed by a character of `[-a-zA-Z0-9.]`; the part is the longest run of such characters, and its token text is a prefix of the word |
| Lexer.Classify | src/lexer.rs:100-126 | Exact upper-case operators first, then license ids, exception ids, the document-and-license reference and the license reference, in that order, each giving the token with the captured parts; unknown exactly when none applies; a token's text begins the word |
| Lexer.Next | src/lexer.rs:73-143 | Ends exactly on all-whitespace input; an emitted token follows whitespace and spells its span; `+` after whitespace is the separated-plus error; other errors are invalid characters running to the end, or an unknown term |
| Lexer.NextCases | src/lexer.rs:83-99 | After the whitespace, a `+` right at the cursor is the plus token and one after whitespace is the separated-plus error over that whitespace; a parenthesis is its one-character token; anything else is read as a word |
| Lexer.LexWord | src/lexer.rs:100-142 | At a word position: a token starting there and spelling its text, or an invalid-characters error to the end of input, or an unknown term over the word |
| Lexer.LexWordCases | src/lexer.rs:100-126 | No word at the position is exactly the invalid-characters error to the end of input; otherwise the longest word is classified, an unknown word is the unknown-term error over the word, and a known one gives its token |
| Lexer.NextOneWord | src/lexer.rs:73-143 | A text that is one word spelling its own token lexes to that token over the whole text, and then ends |
| Lexer.NextWithWords | src/lexer.rs:73-143 | `a WITH b`, for words spelling their own tokens, lexes to the three tokens at 0, `|a| + 1` and `|a| + 6`, and then ends |
| Lexer.ClassifyOwnLicense | src/lexer.rs:100-110 | A listed license whose name is a word other than an operator is classified as its own handle |
| Lexer.ClassifyOwnException | src/lexer.rs:100-112 | A listed exception whose name is a word, neither an operator nor a license name, is classified as its own handle |
| Lexer.LexFrom | src/lexer.rs:70-143 | Driving the iterator gives placed tokens; without an error only whitespace follows them; no tokens and no error exactly when the rest is blank |
| Lexer.PlacedOrdered | src/lexer.rs:129-142 | Lexed tokens are in increasing, non-overlapping positions, and each spells its own text |
| Lexer.SlashIsInvalid | tests/lexer.rs:111-123 | `MIT/Apache-2.0` lexes `MIT` at 0..3, then invalid characters over 3..14 |
| Lexer.LowerCaseIsNotOperator | src/lexer.rs:103-108 | `and`, `or` and `with` are never operator tokens |
| Expression.TreeFoldSound | src/expression.rs:137-165 | When no prefix empties the stack, the evaluator never fails an `unwrap`, and its stack holds exactly the values of the subtrees the nodes so far encode |
| Expression.TreeOf | src/expression.rs:107-122 | Every well-formed postfix sequence is the postfix encoding of one syntax tree |
| Expression.PostfixRoundTrip | src/expression.rs:107-122 | A tree's postfix is well formed, and decoding it gives the same tree back |
| Expression.Evaluate | src/expression.rs:137-165 | The stack evaluator returns the value of the tree the postfix encodes, with AND as conjunction and OR as disjunction |
| Expression.EvaluatePostfix | src/expression.rs:137-165 | Evaluating a tree's postfix gives that tree's value |
| Expression.FoldLeavesOne | src/expression.rs:137-165 | On well-formed input exactly one value is left for the final `pop().unwrap()`, and it is the result |
| Expression.Requirements | src/expression.rs:100-105 | The requirements are exactly the requirement nodes, in node order |
| Expression.RequirementsAppend | src/expression.rs:100-105 | The requirements of a concatenation are those of the parts, in order |
| Expression.Failed | src/expression.rs:181-187 | The failures are exactly the requirements the predicate rejects |
| Expression.FalseHasFailedReq | src/expression.rs:169-209 | A false expression has at least one rejected requirement |
| Expression.EvaluatorStep | src/expression.rs:143-162 | Each step of the loop succeeds on well-formed input, and operators find two values to pop |
| Expression.EvaluateWithFailures | src/expression.rs:169-209 | `Ok` exactly when `evaluate` is true; otherwise the error lists exactly the failed requirements in order, and at least one |
| Expression.LastFailedWhenFalse | src/parser.rs:37-77 | When the expression is false some requirement failed, so the earlier evaluator's `failed.unwrap()` succeeds |
| Expression.LegacyEvaluate | src/parser.rs:37-77 | `Ok` exactly when the expression is true; otherwise the error is the last rejected requirement in node order |
| Expression.ExprEqSameFold | src/expression.rs:249-260 | Pairwise-equal node lists, where spans do not count, evaluate identically under any predicate that respects requirement equality |
| Expression.ExprEqSameValue | src/expression.rs:23-27 | Equal expressions have equal values under such a predicate |
| Expression.DebugTextAppend | src/expression.rs:218-234 | The debug rendering of a concatenation is the two renderings joined by one space |
| Parser.TighterStart | src/expression/parser.rs:230-246 | Pops exactly the operators above the topmost `(` that bind tighter than the new one; the one left below is `(` or binds at least as loosely |
| Parser.TopOpen | src/expression/parser.rs:273-290 | Finds the topmost `(`; when there is none, every stacked operator is AND or OR |
| Parser.OperandReq | src/expression/parser.rs:163-186 | A license token gives an SPDX requirement, a reference token its reference, and neither has an addition |
| Parser.Feed | src/expression/parser.rs:160-307 | A step fails as unexpected exactly when the token may not follow the previous one, naming that token's expected list; GNU-plus and unopened-paren errors exactly in their cases, at the token |
| Parser.FeedKeepsInv | src/expression/parser.rs:160-307 | Every step keeps the queue a postfix prefix whose height matches the stacked operators and open parentheses |
| Parser.Run | src/expression/parser.rs:160-307 | Feeding a stream stops at the first error, keeps the invariant, and records the last token |
| Parser.Finish | src/expression/parser.rs:309-348 | No tokens gives an empty-expression error over the whole input; ending after an operator is unexpected at the end; an unclosed `(` is reported at its span; otherwise well-formed postfix |
| Parser.ParseTokens | src/expression/parser.rs:160-161 | A successful parse of the token stream is well-formed postfix, and it is only possible when the lexer reported no error |
| Parser.Parse | src/expression/parser.rs:104-349 | A successful parse is well-formed postfix, keeps the original text and had no lexer error; blank input is an empty-expression error |
| ParserFacts.FeedSpans | src/expression/parser.rs:163-186 | A step queues one span for a license or reference token and keeps the spans already queued |
| ParserFacts.ParseKeepsOperandOrder | src/expression/parser.rs:163-186 | After a successful parse the requirements' spans are those of the license and reference tokens, in input order |
| ParserFacts.FeedIgnoresDialect | src/expression/parser.rs:160-307 | Only license and `+` tokens behave differently across modes and parsers |
| ParserFacts.FeedAgree | src/parser.rs:183-318 | Without GNU identifiers the earlier parser takes the same step as the current one in either mode |
| ParserFacts.ParseAgree | src/parser.rs:121-358 | On input naming no GNU license, the earlier parser and the current one, in either mode, give the same result |
| ParseCases.AndBindsTighterThanOr | src/expression/parser.rs:230-251 | `A OR B AND C` becomes `A B C AND OR` and evaluates to `A or (B and C)` |
| ParseCases.EmptyParens | tests/validation.rs:55 | `()` is an unexpected token at 1..2, expecting a license or `(` |
| ParseCases.LoneOperator | tests/validation.rs:59 | `AND` alone is an unexpected token at 0..3, expecting a license or `(` |
| ParseCases.UnclosedParen | src/expression/parser.rs:329-338 | An operand left inside an open `(` is reported as unclosed parentheses at the `(` |
| ParseCases.GnuPlusByMode | tests/check.rs:187-195 | `GPL-2.0+`: the strict mode reports the `+` as GNU-plus, and the lax mode sets "or later" on `GPL-2.0` |
| ParseCases.GnuPlusRejected | src/expression/parser.rs:196-204 | Where the mode forbids `+` on GNU identifiers, the `+` is the error, at its own span |
| ParseCases.GnuPlusAccepted | src/expression/parser.rs:206 | In the lax mode and in the earlier parser, the `+` sets "or later" on the queued identifier and the parse succeeds |
| ParseCases.EmptyIffBlank | tests/validation.rs:52-54 | The parse fails as an empty expression exactly when the input is blank, and then the span covers the whole input |
| Canon.Canonicalize | src/expression/parser.rs:49-92 | A lexer error passes through unchanged; otherwise the canonical text is returned exactly when it differs from the input |
| Canon.RenderSqueeze | src/expression/parser.rs:60-87 | Every token other than `+` is written as its own text, with at most spaces added |
| Canon.PlacedSqueeze | src/lexer.rs:83-142 | Lexed tokens carry every non-blank character of the input, in order |
| Canon.CanonSqueeze | src/expression/parser.rs:57-89 | Writing a token stream out changes only whitespace unless a `+` follows a GNU identifier |
| Canon.CanonicalKeepsText | src/expression/parser.rs:49-92 | With no `+` after a GNU identifier, the canonical text and the input have the same non-blank characters, in the same order |
| Canon.PlusAfterLicense | src/expression/parser.rs:61-74 | `+` after a GNU identifier is written `-or-later`, after any other identifier it stays `+` |
| Canon.OperatorSpacing | src/expression/parser.rs:65-66 | An operator between two identifiers is written with exactly one space on each side, whatever the input spacing |
| Licensees.New | src/licensee.rs:43-51 | The requirement handed back by `into_req` is the license and addition given |
| Licensees.FirstItem | src/licensee.rs:98-124 | The first token must be a license (rejected when deprecated, unless the mode allows it) or a reference; otherwise an error at that token |
| Licensees.AfterWith | src/licensee.rs:132-152 | After `WITH`, an exception or addition reference is accepted; end of input is an empty error at the `WITH`; any other token is unexpected |
| Licensees.ParseLicensee | src/licensee.rs:88-168 | Empty input is an empty error over the whole text; the license comes from the first token and is never "or later"; a lexer error on either token is returned as is; a second token must be `WITH`, and then the result is the license with the addition read after it, or that read's error (an empty error at the `WITH`, or an unexpected non-addition) |
| Licensees.ParseLicenseeOfName | src/licensee.rs:88-168 | Round trip: a listed license's name (not deprecated, unless the mode allows it) parses back to a licensee holding that license, without "or later" and without an addition |
| Licensees.ParseLicenseeOfNameWith | src/licensee.rs:88-168 | Round trip: `<license> WITH <exception>` parses back to a licensee holding that license with that exception as its addition |
| Licensees.LaterVersionIff | src/licensee.rs:195-216 | The component walk accepts exactly equal-length lists whose pairs are equal, or both versions with the held one greater as text |
| Licensees.SatisfiesOwnReq | src/licensee.rs:187-240 | A licensee satisfies the requirement it holds |
| Licensees.SatisfiesExactIff | src/licensee.rs:187-240 | Without "or later", satisfaction is the same row (or the same reference parts) and an equal addition |
| Licensees.OrLaterWidens | src/licensee.rs:187-240 | Turning on "or later" never loses a satisfying licensee |
| Licensees.OrLaterByComponents | src/licensee.rs:189-221 | For different rows under "or later", satisfaction is exactly acceptance by the component walk over the `-`-separated names |
| Licensees.LaterGplSatisfies | src/licensee.rs:195-216 | Example: `GPL-3.0` passes the component walk against `GPL-2.0` |
| Licensees.VersionsCompareAsText | src/licensee.rs:191-205 | Components compare as text, so `10.0` is not accepted for `9.0`, while `9.0` is accepted for `10.0` |
| Allowed.ExceptionAfter | src/allowed.rs:48-64 | After `WITH` only an exception is accepted; end of input is an empty error at the `WITH` |
| Allowed.ParseAllowed | src/allowed.rs:21-78 | Needs a license-id token first (a reference token is refused), taken without "or later"; end of input is an empty error over the whole text; a lexer error on either token is returned as is; a second token must be `WITH`, and then the result is the license with the exception read after it, or that read's error (an empty error at the `WITH`, or an unexpected non-exception) |
| Allowed.ParseAllowedOfName | src/allowed.rs:21-78 | Round trip: a listed license's name parses back to that license with no exception |
| Allowed.ParseAllowedOfNameWith | src/allowed.rs:21-78 | Round trip: `<license> WITH <exception>` parses back to that license with that exception |
| Allowed.LastDash | src/allowed.rs:92-93 | Finds the position of the last `-`, or none when there is no `-` |
| Allowed.BaseName | src/allowed.rs:92-93 | The base is the name up to its last `-`, or the whole name when it has none |
| Allowed.OrLaterIff | src/allowed.rs:84-101 | For different rows under "or later", satisfaction is equal bases and a held name at or after the required one as text |
| Allowed.ExactIff | src/allowed.rs:82-121 | Without "or later", satisfaction is the same row (or the same reference parts) and an equal exception |
| Allowed.BaseNameOfVersioned | src/allowed.rs:92-93 | The base of `p-v`, where `v` has no `-`, is `p` |
| Allowed.LaterApacheSatisfies | src/allowed.rs:84-101 | Example: `Apache-2.0` held satisfies `Apache-1.1` with "or later" |
| Minimize.FoundSet | src/expression/minimize.rs:41-50 | The found set keeps the accepted licensees' order, holds only ones satisfying some requirement, has no two equal, and every relevant accepted licensee has an equal one in it |
| Minimize.FoundSetStep | src/expression/minimize.rs:44-49 | The last accepted licensee is added exactly when it is relevant and not already present |
| Minimize.ValueMonotone | src/expression/minimize.rs:58 | Making more requirements true never makes an expression false |
| Minimize.Select | src/expression/minimize.rs:79-89 | A requirement is selected exactly when it belongs to a found licensee whose mask bit is set |
| Minimize.SelectSubseq | src/expression/minimize.rs:79-89 | A mask's selection is a part of the found set, in found-set order |
| Minimize.SelectMeansMask | src/expression/minimize.rs:68-76 | Holding the selected requirements satisfies the same requirements as the masked licensees |
| Minimize.AllMeansAny | src/expression/minimize.rs:94 | Holding all found requirements satisfies the same requirements as the whole found set |
| Minimize.Search | src/expression/minimize.rs:67-91 | Returns the smallest mask in range under which the expression is true, or reports that none works |
| Minimize.MinimizedRequirements | src/expression/minimize.rs:37-95 | Too many exactly when more than 64 found; unmet exactly when the whole found set fails; on success, an in-order part of the found set under which the expression is true |
| Minimize.FallbackUnreachable | src/expression/minimize.rs:93-94 | Once the sanity check passes, the all-ones mask is in range and works, so the search always succeeds |
| Minimize.FirstWorkingMask | src/expression/minimize.rs:67-90 | The result is the selection of the first working mask: no numerically smaller mask makes the expression true |
| Detection.NewEntry | src/detection.rs:31-38 | A new entry keeps the original text and has no aliases, headers or alternates |
| Detection.New | src/detection.rs:57-61 | A new store is empty and knows no license |
| Detection.IsEmptyIffNoLicenses | src/detection.rs:68-76 | A store is empty exactly when its count is zero |
| Detection.Licenses | src/detection.rs:80-82 | As many names are listed as the store counts |
| Detection.GetOriginal | src/detection.rs:86-88 | An original text exists exactly for the listed names |
| Detection.Aliases | src/detection.rs:140-144 | Aliases exist exactly for the listed names |
| Detection.InsertEntry | src/detection.rs:102-104 | The name maps to the given entry and every other entry is unchanged; the count grows only for a new name |
| Detection.AddLicense | src/detection.rs:95-98 | The name gets the text with no variants or aliases, replacing any earlier entry; the names grow by that one name, and every other entry is unchanged |
| Detection.AddVariant | src/detection.rs:112-136 | An unknown name fails first, even for an original; an original variant is refused; otherwise only that entry's headers or alternates grow by the text |
| Detection.SetAliases | src/detection.rs:148-155 | An unknown name fails and changes nothing; otherwise only that entry's aliases are replaced |
| Detection.SetAliasesRoundTrip | src/detection.rs:140-155 | Reading aliases back after setting them gives the list that was set, with the original and the count unchanged |
| Detection.AddVariantKeepsNamesAndTexts | src/detection.rs:112-136 | Adding a variant never changes the count, any original text or any alias list |
| Detection.AddLicenseResetsVariants | src/detection.rs:90-98 | Re-adding a license drops the variants and aliases it had collected |
| Ngram.New | src/detection/ngram.rs:18-24 | A new set has the given gram length, size zero and no counts |
| Ngram.EmptyMeansNoCounts | src/detection/ngram.rs:81-84 | When the size equals the sum of the counts, an empty set has no gram with a count |
| Ngram.AddGram | src/detection/ngram.rs:61-65 | Adding a gram raises its count and the size by one, leaves other counts alone, and keeps the size equal to the sum of the counts and every stored count positive |
| Ngram.AddAllCounts | src/detection/ngram.rs:61-65 | Adding a list of grams adds its length to the size, and to each count the number of that gram's occurrences |
| Ngram.WindowsShape | src/detection/ngram.rs:33-58 | For `n >= 1` there are `k - n + 1` grams of `k` words, and gram `i` is words `i` to `i + n - 1` joined by spaces |
| Ngram.QueueStep | src/detection/ngram.rs:36-56 | The queue fills to `n` exactly when a window ends at the current word, and then holds that window |
| Ngram.AnalyzeTurn | src/detection/ngram.rs:37-56 | One turn of the loop keeps the queue the last words of no full window, and the set the grams of the words seen so far |
| Ngram.Analyze | src/detection/ngram.rs:33-58 | The queue loop adds exactly the windows of the space-split text, and keeps the size equal to the sum of the counts |
| Ngram.FromStr | src/detection/ngram.rs:27-31 | A set built from a text holds exactly that text's windows |
| Ngram.AnalyzeSize | src/detection/ngram.rs:33-58 | Analysing `k` words adds `k - n + 1` grams when `1 <= n <= k`, and none otherwise |
| Ngram.EmptyTextHasNoGrams | src/detection/ngram.rs:141-148 | The empty text is one empty word, so for `n >= 2` it gives no gram |
| Ngram.EqualIffSameCounts | src/detection/ngram.rs:115-119 | On sets whose size is the sum of their counts and that store no zero count, equality holds exactly when the gram lengths are equal and every gram has the same count |

## Left out

- The lexer is the strict one of `src/lexer.rs`. The parse mode's lax lexing is not part of this model, because that lexer's source is not shown: slashes, lower-case operators and imprecise names are not lexed. `ParseMode` reaches only the parsers and `Licensee`.
- Canon.Canonicalize: uses the strict lexer, while the source lexes with `ParseMode::LAX`. Lax-only inputs such as `Apache-2.0/MIT` therefore give the lexer's error here, instead of a canonical text.
- The token type follows the parser and the licensee parser. In `src/lexer.rs:5-15` an identifier token carries the matched text (`Token::License(&str)`). `src/parser.rs:167` and `src/licensee.rs:113-141` instead use a token that carries the identifier handle, plus an `AdditionRef` token. The model's `License` and `Exception` tokens carry the handle the lookup found, and the lexer never emits `AdditionRef`.
- Allowed.ParseAllowed: `src/allowed.rs:31-32` puts the payload of `Token::License` directly into a `LicenseItem`, a type that can also hold a reference, so the function does not fit either token type above. The model takes the handle as a `LicenseItem::Spdx` without "or later". A reference lexes to `LicenseRef`, which is refused as unexpected, so `LicenseRef-` input is never accepted.
- `AdditionRef-` tokens are never produced by the lexer shown; the parser, the licensee parser and the item types still handle them.
- Text is a sequence of characters, and spans count characters. The source counts bytes. Tokens are ASCII, so the two measures agree while everything before a span is ASCII. They differ once non-ASCII whitespace comes before a token (the lexer skips any Unicode `White_Space`, so `MIT\u{3000}AND Apache-2.0` places `AND` at character 4 but byte 6), or once an invalid-characters span runs over non-ASCII text to the end of input.
- The identifier tables of `src/identifiers.rs` are a parameter, not data. Their sortedness and the presence of every GNU root are the `Registry.Valid` precondition.
- The GNU family is decided by the name-prefix rule the table generator uses. The flag bit itself is not modelled.
- Minimize.Search: masks are natural numbers searched over `1..=2^n`. The source computes `(1 << found_set.len()) as u64`, and that shift is not wider than 32 bits for `n` of 31 and above. Masks above 2^31 are therefore not modelled as the source computes them.
- Minimize.MinimizedRequirements: returns the numerically first working mask, as the source does. It does not claim the fewest licensees.
- Ngram.AddGram: counts are unbounded natural numbers; the `u32` counts of the source could overflow after 2^32 additions of one gram.
- `NgramSet::dice`: left out, because it works in `f32`.
- The iteration order of the store's and the n-gram set's hash maps is not modelled: names are a set.
- The cache (`detection/cache.rs`), I/O, `Display`/`Debug` of identifiers and of `MinimizeError`, and `Error::description` (which panics) are not modelled.
- The `PartialOrd` of `Licensee` and `AllowedLicense`, used only for sorting, is not modelled beyond the item order.
- The texts of the GNU-plus and deprecated-identifier reasons: their `Display` arms are missing from the error source shown, so the model supplies its own wording.
- The text data of the store (`TextData`) is a type parameter; normalisation and matching of license texts are not part of this model.

=== FILE: allowed.dfy ===
/** The earlier licensee type: a license with an optional exception, with
    its own parser and a simpler "or later" rule that compares base names
    and then whole names as text (src/allowed.rs). */
module Allowed {
  import opened Common
  import opened Registry
  import opened Items
  import opened Errors
  import opened Lexer
  import opened Parser

  datatype AllowedLicense = AllowedLicense(license: LicenseItem, exception: Option<ExceptionId>)

  /** The exception part, read after a `WITH` token `w`: the next token must
      be an exception; the end of the input is reported as an empty
      expression at the `WITH`. */
  function ExceptionAfter(reg: Registry, original: string, w: LexerToken): (r: Result<ExceptionId, ParseError>)
    requires w.end <= |original|
    ensures var s := Next(reg, original, w.end);
      && (s.Done? ==> r == Err(ParseError(original, TokenSpan(w), Empty)))
      && (s.Fail? ==> r == Err(s.err))
      && (s.Emit? ==> (r.Ok? <==> s.lt.token.Exception?))
      && (s.Emit? && r.Ok? ==> r.value == s.lt.token.exc)
      && (s.Emit? && r.Err? ==> r.error == ParseError(original, TokenSpan(s.lt), Unexpected(["<exception>"])))
  {
    match Next(reg, original, w.end)
    case Done => Err(ParseError(original, TokenSpan(w), Empty))
    case Fail(e) => Err(e)
    case Emit(lt) =>
      if lt.token.Exception? then Ok(lt.token.exc)
      else Err(ParseError(original, TokenSpan(lt), Unexpected(["<exception>"])))
  }

  /** `AllowedLicense::parse`: a license identifier, then optionally `WITH`
      and an exception. References are not accepted, and nothing after the
      third token is looked at. */
  function ParseAllowed(reg: Registry, original: string): (r: Result<AllowedLicense, ParseError>)
    ensures var s0 := Next(reg, original, 0);
      && (s0.Done? ==> r == Err(ParseError(original, Span(0, |original|), Empty)))
      && (s0.Fail? ==> r == Err(s0.err))
      && (s0.Emit? && !s0.lt.token.License? ==>
            r == Err(ParseError(original, TokenSpan(s0.lt), Unexpected(["<license>"]))))
      && (r.Ok? ==> s0.Emit? && s0.lt.token.License? && r.value.license == Spdx(s0.lt.token.id, false))
    ensures r.Ok? ==> var s0 := Next(reg, original, 0);
      var s1 := Next(reg, original, s0.lt.end);
      (r.value.exception.Some? <==> s1.Emit?) && (s1.Emit? ==> s1.lt.token.With?)
    ensures var s0 := Next(reg, original, 0);
      s0.Emit? && s0.lt.token.License? ==>
        var s1 := Next(reg, original, s0.lt.end);
        && (s1.Done? ==> r == Ok(AllowedLicense(Spdx(s0.lt.token.id, false), None)))
        && (s1.Fail? ==> r == Err(s1.err))
        && (s1.Emit? && !s1.lt.token.With? ==> r == Err(ParseError(original, TokenSpan(s1.lt), Unexpected(["WITH"]))))
        && (s1.Emit? && s1.lt.token.With? ==>
              r == match ExceptionAfter(reg, original, s1.lt)
                   case Err(e) => Err(e)
                   case Ok(exc) => Ok(AllowedLicense(Spdx(s0.lt.token.id, false), Some(exc))))
  {
    match Next(reg, original, 0)
    case Done => Err(ParseError(original, Span(0, |original|), Empty))
    case Fail(e) => Err(e)
    case Emit(lt) =>
      if !lt.token.License? then Err(ParseError(original, TokenSpan(lt), Unexpected(["<license>"])))
      else
        var license := Spdx(lt.token.id, false);
        match Next(reg, original, lt.end)
        case Done => Ok(AllowedLicense(license, None))
        case Fail(e) => Err(e)
        case Emit(w) =>
          if !w.token.With? then Err(ParseError(original, TokenSpan(w), Unexpected(["WITH"])))
          else
            match ExceptionAfter(reg, original, w)
            case Err(e) => Err(e)
            case Ok(exc) => Ok(AllowedLicense(license, Some(exc)))
  }

  /** Round trip: the name of a listed license parses back to that license
      with no exception. */
  lemma ParseAllowedOfName(reg: Registry, id: LicenseId)
    requires reg.Valid() && reg.HasLicense(id)
    requires IsWord(id.name) && id.name !in {"WITH", "AND", "OR"}
    ensures ParseAllowed(reg, id.name) == Ok(AllowedLicense(Spdx(id, false), None))
  {
    ClassifyOwnLicense(reg, id);
    NextOneWord(reg, id.name, License(id));
  }

  /** Round trip: `<license> WITH <exception>` parses back to that license
      with that exception. */
  lemma ParseAllowedOfNameWith(reg: Registry, id: LicenseId, exc: ExceptionId)
    requires reg.Valid() && reg.HasLicense(id) && reg.HasException(exc)
    requires IsWord(id.name) && id.name !in {"WITH", "AND", "OR"}
    requires IsWord(exc.name) && exc.name !in {"WITH", "AND", "OR"} && LookupLicense(reg, exc.name).None?
    ensures ParseAllowed(reg, id.name + " WITH " + exc.name) == Ok(AllowedLicense(Spdx(id, false), Some(exc)))
  {
    ClassifyOwnLicense(reg, id);
    ClassifyOwnException(reg, exc);
    NextWithWords(reg, id.name, exc.name, License(id), Exception(exc));
  }

  /** Position of the last `-` in `s`, if any (`str::rfind`). */
  function LastDash(s: string): (r: Option<nat>)
    ensures r.Some? ==> r.value < |s| && s[r.value] == '-' && forall k :: r.value < k < |s| ==> s[k] != '-'
    ensures r.None? ==> forall k :: 0 <= k < |s| ==> s[k] != '-'
    decreases |s|
  {
    if |s| == 0 then None
    else if s[|s| - 1] == '-' then Some(|s| - 1)
    else LastDash(s[..|s| - 1])
  }

  /** A name up to its last `-`, or the whole name when it has none. */
  function BaseName(s: string): (r: string)
    ensures StartsWith(s, r)
    ensures r == s || (|r| < |s| && s[|r|] == '-' && '-' !in s[|r| + 1..])
  {
    match LastDash(s)
    case None => s
    case Some(i) => s[..i]
  }

  /** The exception equality of the earlier requirement type (handles
      compare by table row); a user-defined addition never matches. */
  predicate ExceptionMatches(required: Option<AdditionItem>, held: Option<ExceptionId>) {
    match (required, held)
    case (None, None) => true
    case (Some(AddSpdx(a)), Some(b)) => SameException(a, b)
    case _ => false
  }

  /** `AllowedLicense::satisfies`: identifiers match by table row or, when
      the requirement allows later versions, by equal base names and a held
      name that is not smaller as text; references match by both parts; the
      exceptions must then be equal. */
  predicate Satisfies(a: AllowedLicense, req: LicenseReq) {
    match (a.license, req.license)
    case (Spdx(x, _), Spdx(y, orLater)) =>
      (SameLicense(x, y) || (orLater && BaseName(x.name) == BaseName(y.name) && !StrLess(x.name, y.name)))
      && ExceptionMatches(req.addition, a.exception)
    case (Other(da, la), Other(db, lb)) => da == db && la == lb && ExceptionMatches(req.addition, a.exception)
    case _ => false
  }

  /** With "or later" and different rows, an allowed identifier is accepted
      exactly when the names share their base and the held one sorts at or
      after the required one. */
  lemma OrLaterIff(x: LicenseId, y: LicenseId, exception: Option<ExceptionId>)
    requires !SameLicense(x, y)
    ensures Satisfies(AllowedLicense(Spdx(x, false), exception), LicenseReq(Spdx(y, true), None))
      <==> exception.None? && BaseName(x.name) == BaseName(y.name) && (x.name == y.name || StrLess(y.name, x.name))
  {
    StrLessTrichotomy(x.name, y.name);
  }

  /** Without "or later", only the same row (or the same reference) with an
      equal exception satisfies. */
  lemma ExactIff(a: AllowedLicense, req: LicenseReq)
    requires !(req.license.Spdx? && req.license.orLater)
    ensures Satisfies(a, req) <==>
      && a.license.Spdx? == req.license.Spdx?
      && (req.license.Spdx? ==> SameLicense(a.license.id, req.license.id))
      && (req.license.Other? ==> a.license.docRef == req.license.docRef && a.license.licRef == req.license.licRef)
      && ExceptionMatches(req.addition, a.exception)
  {
  }

  /** The base of `p-v`, where `v` has no `-`, is `p`. */
  lemma {:induction false} BaseNameOfVersioned(p: string, v: string)
    requires '-' !in v
    ensures BaseName(p + ['-'] + v) == p
    decreases |v|
  {
    var s := p + ['-'] + v;
    if |v| == 0 {
      assert s[..|s| - 1] == p;
    } else {
      var w := v[..|v| - 1];
      assert v == w + [v[|v| - 1]];
      assert s[..|s| - 1] == p + ['-'] + w;
      assert s[|s| - 1] == v[|v| - 1];
      BaseNameOfVersioned(p, w);
    }
  }

  /** `Apache-2.0` allowed satisfies `Apache-1.1+`: both names have the base
      `Apache`, and `Apache-2.0` sorts after `Apache-1.1`. */
  lemma LaterApacheSatisfies(x: LicenseId, y: LicenseId)
    requires x.name == "Apache-2.0" && y.name == "Apache-1.1" && !SameLicense(x, y)
    ensures Satisfies(AllowedLicense(Spdx(x, false), None), LicenseReq(Spdx(y, true), None))
  {
    ApacheBase();
    assert StrLess("Apache-1.1", "Apache-2.0");
    OrLaterIff(x, y, None);
  }

  lemma ApacheBase()
    ensures BaseName("Apache-2.0") == BaseName("Apache-1.1")
  {
    assert "Apache-2.0" == "Apache" + ['-'] + "2.0";
    assert "Apache-1.1" == "Apache" + ['-'] + "1.1";
    BaseNameOfVersioned("Apache", "2.0");
    BaseNameOfVersioned("Apache", "1.1");
  }
}

=== FILE: canon.dfy ===
/** `Expression::canonicalize` (src/expression/parser.rs): the lexed tokens
    are written back out with single spaces around the operators, every
    identifier spelled as the table spells it, and a `+` after a GNU
    identifier turned into `-or-later`. The result is empty when nothing
    changed. */
module Canon {
  import opened Common
  import opened Registry
  import opened Errors
  import opened Lexer

  /** How one token is written out. `lastGnu` says whether the most recent
      license identifier was a GNU one. */
  function Render(t: Token, lastGnu: bool): string {
    match t
    case License(id) => id.name
    case And => " " + "AND" + " "
    case Or => " " + "OR" + " "
    case With => " " + "WITH" + " "
    case Plus => if lastGnu then "-or-later" else "+"
    case OpenParen => "("
    case CloseParen => ")"
    case Exception(exc) => exc.name
    case LicenseRef(_, _) => TokenText(t)
    case AdditionRef(_, _) => TokenText(t)
  }

  /** Apart from `+`, a token is written as its own text, with at most some
      whitespace added around it. */
  lemma RenderSqueeze(t: Token, lastGnu: bool)
    requires !t.Plus?
    ensures Squeeze(Render(t, lastGnu)) == Squeeze(TokenText(t))
  {
    if t.And? || t.Or? || t.With? {
      assert Render(t, lastGnu) == " " + TokenText(t) + " ";
      SqueezeAppend(" " + TokenText(t), " ");
      SqueezeAppend(" ", TokenText(t));
      assert Squeeze(" ") == "";
    }
  }

  /** The GNU flag after a token: set by every license identifier, kept by
      everything else. */
  function GnuAfter(t: Token, lastGnu: bool): bool {
    if t.License? then t.id.IsGnu() else lastGnu
  }

  /** The written-out form of a token stream. */
  function CanonFrom(toks: seq<LexerToken>, lastGnu: bool): string
    decreases |toks|
  {
    if |toks| == 0 then ""
    else Render(toks[0].token, lastGnu) + CanonFrom(toks[1..], GnuAfter(toks[0].token, lastGnu))
  }

  /** The canonical text of `original`, whether or not it differs. */
  function CanonicalText(reg: Registry, original: string): string {
    CanonFrom(Lex(reg, original).tokens, false)
  }

  /** `Expression::canonicalize`: the first lexer error is returned as is;
      otherwise the canonical text, or nothing when it equals the input. */
  function Canonicalize(reg: Registry, original: string): (r: Result<Option<string>, ParseError>)
    ensures r.Err? <==> Lex(reg, original).error.Some?
    ensures r.Err? ==> r.error == Lex(reg, original).error.value
    ensures r.Ok? && r.value.Some? ==> r.value.value != original
    ensures r.Ok? && r.value.Some? ==> r.value.value == CanonicalText(reg, original)
    ensures r.Ok? && r.value.None? ==> CanonicalText(reg, original) == original
  {
    var lexed := Lex(reg, original);
    if lexed.error.Some? then Err(lexed.error.value)
    else
      var can := CanonFrom(lexed.tokens, false);
      if can != original then Ok(Some(can)) else Ok(None)
  }

  /** The characters of `s` that are not whitespace, in order. */
  function Squeeze(s: string): (r: string)
    ensures |r| <= |s|
    decreases |s|
  {
    if |s| == 0 then ""
    else (if IsWhitespace(s[0]) then "" else [s[0]]) + Squeeze(s[1..])
  }

  lemma {:induction false} SqueezeAppend(a: string, b: string)
    ensures Squeeze(a + b) == Squeeze(a) + Squeeze(b)
    decreases |a|
  {
    if |a| > 0 {
      var h := if IsWhitespace(a[0]) then "" else [a[0]];
      assert (a + b)[0] == a[0];
      assert (a + b)[1..] == a[1..] + b;
      SqueezeAppend(a[1..], b);
      assert Squeeze(a + b) == h + (Squeeze(a[1..]) + Squeeze(b));
      assert Squeeze(a) == h + Squeeze(a[1..]);
      assert h + (Squeeze(a[1..]) + Squeeze(b)) == (h + Squeeze(a[1..])) + Squeeze(b);
    } else {
      assert a + b == b;
    }
  }

  lemma {:induction false} SqueezeBlank(s: string)
    requires AllWhitespace(s, 0, |s|)
    ensures Squeeze(s) == ""
    decreases |s|
  {
    if |s| > 0 {
      assert IsWhitespace(s[0]);
      SqueezeBlank(s[1..]);
    }
  }

  /** The token texts of a stream, side by side. */
  function Texts(toks: seq<LexerToken>): string
    decreases |toks|
  {
    if |toks| == 0 then "" else TokenText(toks[0].token) + Texts(toks[1..])
  }

  /** No `+` in the stream is written as `-or-later`. */
  predicate NoGnuPlus(toks: seq<LexerToken>, lastGnu: bool)
    decreases |toks|
  {
    |toks| == 0
    || (!(toks[0].token.Plus? && lastGnu) && NoGnuPlus(toks[1..], GnuAfter(toks[0].token, lastGnu)))
  }

  /** Dropping a blank run in front of `text[start..]`. */
  lemma SqueezeGap(text: string, offset: nat, start: nat, end: nat)
    requires offset <= start <= end <= |text| && AllWhitespace(text, offset, start)
    ensures Squeeze(text[offset..]) == Squeeze(text[start..end]) + Squeeze(text[end..])
  {
    var gap, word, rest := text[offset..start], text[start..end], text[end..];
    assert text[offset..] == gap + (word + rest);
    assert AllWhitespace(gap, 0, |gap|);
    SqueezeAppend(gap, word + rest);
    SqueezeAppend(word, rest);
    SqueezeBlank(gap);
  }

  /** Tokens placed by the lexer, with only whitespace after them, carry
      every non-blank character of the text they were cut from. */
  lemma {:induction false} PlacedSqueeze(reg: Registry, text: string, offset: nat, toks: seq<LexerToken>)
    requires offset <= |text| && Placed(reg, text, offset, toks)
    requires EndOf(offset, toks) <= |text| && AllWhitespace(text, EndOf(offset, toks), |text|)
    ensures Squeeze(text[offset..]) == Squeeze(Texts(toks))
    decreases |toks|
  {
    if |toks| == 0 {
      assert AllWhitespace(text[offset..], 0, |text| - offset);
      SqueezeBlank(text[offset..]);
    } else {
      var t := toks[0];
      assert EndOf(t.end, toks[1..]) == EndOf(offset, toks);
      PlacedSqueeze(reg, text, t.end, toks[1..]);
      SqueezeGap(text, offset, t.start, t.end);
      SqueezeAppend(TokenText(t.token), Texts(toks[1..]));
    }
  }

  /** Writing a stream out changes only whitespace, unless a `+` becomes
      `-or-later`. */
  lemma {:induction false} CanonSqueeze(toks: seq<LexerToken>, lastGnu: bool)
    requires NoGnuPlus(toks, lastGnu)
    ensures Squeeze(CanonFrom(toks, lastGnu)) == Squeeze(Texts(toks))
    decreases |toks|
  {
    if |toks| > 0 {
      var t := toks[0].token;
      CanonSqueeze(toks[1..], GnuAfter(t, lastGnu));
      if !t.Plus? {
        RenderSqueeze(t, lastGnu);
      }
      SqueezeAppend(Render(t, lastGnu), CanonFrom(toks[1..], GnuAfter(t, lastGnu)));
      SqueezeAppend(TokenText(t), Texts(toks[1..]));
    }
  }

  /** Canonicalization only moves whitespace around when no `+` follows a
      GNU identifier: the canonical text and the input have the same
      non-blank characters in the same order. */
  lemma CanonicalKeepsText(reg: Registry, original: string)
    requires Lex(reg, original).error.None? && NoGnuPlus(Lex(reg, original).tokens, false)
    ensures Canonicalize(reg, original).Ok?
    ensures Squeeze(CanonicalText(reg, original)) == Squeeze(original)
  {
    var toks := Lex(reg, original).tokens;
    PlacedSqueeze(reg, original, 0, toks);
    CanonSqueeze(toks, false);
    assert original[0..] == original;
  }

  /** `+` after a GNU identifier becomes `-or-later`, after any other
      identifier it stays (`gpl-3.0+` in the source's own example). */
  lemma PlusAfterLicense(id: LicenseId, s: nat, e: nat)
    ensures CanonFrom([LexerToken(License(id), s, e), LexerToken(Plus, e, e + 1)], false)
      == id.name + (if id.IsGnu() then "-or-later" else "+")
  {
    var toks := [LexerToken(License(id), s, e), LexerToken(Plus, e, e + 1)];
    assert toks[1..] == [LexerToken(Plus, e, e + 1)];
    assert toks[1..][1..] == [];
    assert CanonFrom(toks[1..], id.IsGnu()) == Render(Plus, id.IsGnu()) + "";
  }

  /** Three tokens are written one after the other. */
  lemma CanonThree(x: LexerToken, y: LexerToken, z: LexerToken, g: bool)
    ensures var g1 := GnuAfter(x.token, g);
      CanonFrom([x, y, z], g) == Render(x.token, g) + Render(y.token, g1) + Render(z.token, GnuAfter(y.token, g1))
  {
    var toks := [x, y, z];
    var g1 := GnuAfter(x.token, g);
    var g2 := GnuAfter(y.token, g1);
    assert toks[1..] == [y, z];
    assert [y, z][1..] == [z];
    assert [z][1..] == [];
    assert CanonFrom([z], g2) == Render(z.token, g2);
  }

  /** Operators are written with exactly one space on each side, whatever
      spacing the input had. */
  lemma OperatorSpacing(a: LicenseId, b: LicenseId, op: Token, p: nat, q: nat, r: nat, s: nat, t: nat, u: nat)
    requires op.And? || op.Or?
    ensures CanonFrom([LexerToken(License(a), p, q), LexerToken(op, r, s), LexerToken(License(b), t, u)], false)
      == a.name + (if op.And? then " AND " else " OR ") + b.name
  {
    CanonThree(LexerToken(License(a), p, q), LexerToken(op, r, s), LexerToken(License(b), t, u), false);
  }
}

=== FILE: common.dfy ===
/** Small shared vocabulary: optional values, results, and the string
    predicates (prefix, suffix, byte-wise ordering, splitting) that the
    license-expression engine uses. Strings are sequences of characters;
    Rust compares `str` byte by byte, and UTF-8 preserves code-point order,
    so comparing characters by code point is the same order. */
module Common {

  datatype Option<T> = None | Some(value: T)

  datatype Result<T, E> = Ok(value: T) | Err(error: E)

  datatype Ordering = Less | Equal | Greater

  function Reverse(o: Ordering): Ordering {
    match o
    case Less => Greater
    case Equal => Equal
    case Greater => Less
  }

  predicate StartsWith(s: string, prefix: string) {
    |prefix| <= |s| && s[..|prefix|] == prefix
  }

  predicate EndsWith(s: string, suffix: string) {
    |suffix| <= |s| && s[|s| - |suffix|..] == suffix
  }

  /** Strict lexicographic order on strings (Rust's `str` ordering). */
  predicate StrLess(a: string, b: string)
    decreases |a|
  {
    if |a| == 0 then |b| > 0
    else if |b| == 0 then false
    else if a[0] != b[0] then a[0] < b[0]
    else StrLess(a[1..], b[1..])
  }

  predicate StrLessEq(a: string, b: string) {
    a == b || StrLess(a, b)
  }

  /** Three-way comparison of strings, `Ord::cmp` for `str`. */
  function StrCmp(a: string, b: string): (r: Ordering)
    ensures r == Less <==> StrLess(a, b)
    ensures r == Greater <==> StrLess(b, a)
    ensures r == Equal <==> a == b
  {
    StrLessTrichotomy(a, b);
    if StrLess(a, b) then Less else if a == b then Equal else Greater
  }

  /** `Ord::cmp` for `Option<String>`: `None` sorts before every `Some`. */
  function OptStrCmp(a: Option<string>, b: Option<string>): (r: Ordering)
    ensures r == Equal <==> a == b
    ensures r == Less <==> (a.None? && b.Some?) || (a.Some? && b.Some? && StrLess(a.value, b.value))
  {
    match (a, b)
    case (None, None) => Equal
    case (None, Some(_)) => Less
    case (Some(_), None) => Greater
    case (Some(x), Some(y)) => StrCmp(x, y)
  }

  lemma {:induction false} StrLessIrreflexive(a: string)
    ensures !StrLess(a, a)
    decreases |a|
  {
    if |a| > 0 {
      StrLessIrreflexive(a[1..]);
    }
  }

  /** Exactly one of `a < b`, `a == b`, `b < a` holds. */
  lemma {:induction false} StrLessTrichotomy(a: string, b: string)
    ensures StrLess(a, b) || a == b || StrLess(b, a)
    ensures !(StrLess(a, b) && StrLess(b, a))
    ensures StrLess(a, b) ==> a != b
    decreases |a|
  {
    if |a| > 0 && |b| > 0 && a[0] == b[0] {
      StrLessTrichotomy(a[1..], b[1..]);
      if a[1..] == b[1..] {
        assert a == [a[0]] + a[1..] && b == [b[0]] + b[1..];
      }
    }
  }

  lemma {:induction false} StrLessTransitive(a: string, b: string, c: string)
    requires StrLess(a, b) && StrLess(b, c)
    ensures StrLess(a, c)
    decreases |a|
  {
    if |a| > 0 && a[0] == b[0] && b[0] == c[0] {
      StrLessTransitive(a[1..], b[1..], c[1..]);
    }
  }

  /** Rust's `str::split(sep)`: the pieces between separators, always at
      least one (splitting the empty string yields one empty piece). */
  function Split(s: string, sep: char): (parts: seq<string>)
    ensures |parts| >= 1
    ensures forall i :: 0 <= i < |parts| ==> sep !in parts[i]
    decreases |s|
  {
    if |s| == 0 then [""]
    else if s[0] == sep then [""] + Split(s[1..], sep)
    else
      var rest := Split(s[1..], sep);
      [[s[0]] + rest[0]] + rest[1..]
  }

  /** The inverse of `Split`: the pieces glued back with the separator. */
  function Join(parts: seq<string>, sep: char): string
    decreases |parts|
  {
    if |parts| == 0 then ""
    else if |parts| == 1 then parts[0]
    else parts[0] + [sep] + Join(parts[1..], sep)
  }

  /** Splitting loses nothing: joining the pieces restores the input. */
  lemma {:induction false} SplitJoin(s: string, sep: char)
    ensures Join(Split(s, sep), sep) == s
    decreases |s|
  {
    if |s| == 0 {
    } else if s[0] == sep {
      SplitJoin(s[1..], sep);
      assert s == [sep] + s[1..];
    } else {
      SplitJoin(s[1..], sep);
      var rest := Split(s[1..], sep);
      if |rest| == 1 {
        assert s == [s[0]] + rest[0];
      } else {
        var parts := Split(s, sep);
        assert parts[1..] == rest[1..];
        assert Join(rest, sep) == rest[0] + [sep] + Join(rest[1..], sep);
        assert s == [s[0]] + s[1..];
      }
    }
  }

  /** `Join` of single words separated by a character they avoid is undone by `Split`. */
  lemma {:induction false} JoinSplit(parts: seq<string>, sep: char)
    requires |parts| >= 1
    requires forall i :: 0 <= i < |parts| ==> sep !in parts[i]
    ensures Split(Join(parts, sep), sep) == parts
    decreases |parts|
  {
    if |parts| == 1 {
      SplitNoSep(parts[0], sep);
    } else {
      JoinSplit(parts[1..], sep);
      SplitPrefix(parts[0], sep, Join(parts[1..], sep));
      assert [parts[0]] + parts[1..] == parts;
    }
  }

  lemma {:induction false} SplitNoSep(s: string, sep: char)
    requires sep !in s
    ensures Split(s, sep) == [s]
    decreases |s|
  {
    if |s| > 0 {
      SplitNoSep(s[1..], sep);
      assert s == [s[0]] + s[1..];
    }
  }

  lemma {:induction false} SplitPrefix(w: string, sep: char, t: string)
    requires sep !in w
    ensures Split(w + [sep] + t, sep) == [w] + Split(t, sep)
    decreases |w|
  {
    if |w| == 0 {
      assert w + [sep] + t == [sep] + t;
      assert (w + [sep] + t)[1..] == t;
    } else {
      SplitPrefix(w[1..], sep, t);
      assert (w + [sep] + t)[1..] == w[1..] + [sep] + t;
      assert w == [w[0]] + w[1..];
    }
  }

  /** A sequence of two or more is its front with its last two appended. */
  lemma LastTwo<T>(s: seq<T>)
    requires |s| >= 2
    ensures s == s[..|s| - 2] + [s[|s| - 2]] + [s[|s| - 1]]
  {
    var t := s[..|s| - 2] + [s[|s| - 2]] + [s[|s| - 1]];
    forall i | 0 <= i < |s|
      ensures t[i] == s[i]
    {
    }
  }

  /** A non-empty sequence is its front with its last element appended. */
  lemma LastOne<T>(s: seq<T>)
    requires |s| >= 1
    ensures s == s[..|s| - 1] + [s[|s| - 1]]
  {
    var t := s[..|s| - 1] + [s[|s| - 1]];
    forall i | 0 <= i < |s|
      ensures t[i] == s[i]
    {
    }
  }
}

=== FILE: detection.dfy ===
/** The license text store (src/detection.rs): license names mapped to an
    entry holding the original text, aliases, headers and alternate texts.
    The text type is a parameter: how texts are normalised and compared is
    not part of this model. */
module Detection {
  import opened Common

  /** Which kind of text `add_variant` is given. */
  datatype LicenseType = Original | Header | Alternate

  datatype StoreError = UnknownLicense | OriginalInvalidForVariant

  datatype LicenseEntry<T> = LicenseEntry(original: T, aliases: seq<string>, headers: seq<T>, alternates: seq<T>)

  datatype Store<T> = Store(licenses: map<string, LicenseEntry<T>>)

  /** The store after a fallible update, with the update's result. */
  datatype Update<T> = Update(store: Store<T>, result: Result<(), StoreError>)

  /** `LicenseEntry::new`: an entry with no variants and no aliases. */
  function NewEntry<T>(original: T): (e: LicenseEntry<T>)
    ensures e.original == original
    ensures |e.aliases| + |e.headers| + |e.alternates| == 0
  {
    LicenseEntry(original, [], [], [])
  }

  /** `Store::new`: no license is known. */
  function New<T>(): (s: Store<T>)
    ensures Len(s) == 0 && IsEmpty(s)
    ensures forall name :: GetOriginal(s, name).None?
  {
    Store(map[])
  }

  /** `Store::len`: the number of license names; variants and aliases are
      not counted. */
  function Len<T>(s: Store<T>): nat {
    |s.licenses|
  }

  /** `Store::is_empty`. */
  predicate IsEmpty<T>(s: Store<T>) {
    s.licenses == map[]
  }

  /** A store is empty exactly when it counts no license. */
  lemma IsEmptyIffNoLicenses<T>(s: Store<T>)
    ensures IsEmpty(s) <==> Len(s) == 0
  {
    if Len(s) == 0 {
      assert s.licenses.Keys == {};
    }
  }

  /** `Store::licenses`: the names, as a set (the iteration order of the
      hash map is not modelled). */
  function Licenses<T>(s: Store<T>): (names: set<string>)
    ensures |names| == Len(s)
  {
    s.licenses.Keys
  }

  /** `Store::get_original`. */
  function GetOriginal<T>(s: Store<T>, name: string): (r: Option<T>)
    ensures r.Some? <==> name in Licenses(s)
  {
    if name in s.licenses then Some(s.licenses[name].original) else None
  }

  /** `Store::aliases`. */
  function Aliases<T>(s: Store<T>, name: string): (r: Option<seq<string>>)
    ensures r.Some? <==> name in Licenses(s)
  {
    if name in s.licenses then Some(s.licenses[name].aliases) else None
  }

  /** `Store::insert_entry`: the entry under `name` is `entry`, whatever was
      there before; every other name keeps its entry. */
  function InsertEntry<T>(s: Store<T>, name: string, entry: LicenseEntry<T>): (s': Store<T>)
    ensures Licenses(s') == Licenses(s) + {name}
    ensures s'.licenses[name] == entry
    ensures forall other :: other in s.licenses && other != name ==> s'.licenses[other] == s.licenses[other]
    ensures Len(s') == if name in Licenses(s) then Len(s) else Len(s) + 1
  {
    var s' := Store(s.licenses[name := entry]);
    assert Licenses(s') == Licenses(s) + {name};
    s'
  }

  /** `Store::add_license`: a fresh entry replaces any earlier one, with all
      of its variants and aliases. */
  function AddLicense<T>(s: Store<T>, name: string, data: T): (s': Store<T>)
    ensures GetOriginal(s', name) == Some(data)
    ensures Aliases(s', name) == Some([])
    ensures s'.licenses[name].headers == [] && s'.licenses[name].alternates == []
    ensures forall other :: other != name ==> GetOriginal(s', other) == GetOriginal(s, other)
    ensures Licenses(s') == Licenses(s) + {name}
    ensures forall other :: other in s.licenses && other != name ==> s'.licenses[other] == s.licenses[other]
    ensures Len(s') == if name in Licenses(s) then Len(s) else Len(s) + 1
  {
    InsertEntry(s, name, NewEntry(data))
  }

  /** `Store::add_variant`. The name is looked up first, so an unknown name
      is reported as such even for an original text; the store changes only
      on success. */
  function AddVariant<T>(s: Store<T>, name: string, variant: LicenseType, data: T): (u: Update<T>)
    ensures name !in Licenses(s) ==> u == Update(s, Err(UnknownLicense))
    ensures name in Licenses(s) && variant == Original ==> u == Update(s, Err(OriginalInvalidForVariant))
    ensures u.result.Ok? <==> name in Licenses(s) && variant != Original
    ensures u.result.Ok? ==> Licenses(u.store) == Licenses(s)
    ensures u.result.Ok? ==>
      var e, e' := s.licenses[name], u.store.licenses[name];
      && e'.original == e.original && e'.aliases == e.aliases
      && e'.headers == e.headers + (if variant == Header then [data] else [])
      && e'.alternates == e.alternates + (if variant == Alternate then [data] else [])
      && forall other :: other in s.licenses && other != name ==> u.store.licenses[other] == s.licenses[other]
  {
    if name !in s.licenses then Update(s, Err(UnknownLicense))
    else
      var e := s.licenses[name];
      match variant
      case Alternate => Update(InsertEntry(s, name, e.(alternates := e.alternates + [data])), Ok(()))
      case Header => Update(InsertEntry(s, name, e.(headers := e.headers + [data])), Ok(()))
      case Original => Update(s, Err(OriginalInvalidForVariant))
  }

  /** `Store::set_aliases`: fails on an unknown name; otherwise replaces
      that entry's aliases and nothing else. */
  function SetAliases<T>(s: Store<T>, name: string, aliases: seq<string>): (u: Update<T>)
    ensures name !in Licenses(s) ==> u == Update(s, Err(UnknownLicense))
    ensures u.result.Ok? <==> name in Licenses(s)
    ensures u.result.Ok? ==> Licenses(u.store) == Licenses(s)
    ensures u.result.Ok? ==>
      var e, e' := s.licenses[name], u.store.licenses[name];
      && e' == e.(aliases := aliases)
      && forall other :: other in s.licenses && other != name ==> u.store.licenses[other] == s.licenses[other]
  {
    if name !in s.licenses then Update(s, Err(UnknownLicense))
    else Update(InsertEntry(s, name, s.licenses[name].(aliases := aliases)), Ok(()))
  }

  /** Setting aliases and reading them back gives the list that was set;
      the original text and the count of licenses are untouched. */
  lemma SetAliasesRoundTrip<T>(s: Store<T>, name: string, aliases: seq<string>)
    requires name in Licenses(s)
    ensures var s' := SetAliases(s, name, aliases).store;
      Aliases(s', name) == Some(aliases) && GetOriginal(s', name) == GetOriginal(s, name) && Len(s') == Len(s)
  {
  }

  /** Adding a variant never changes the number of licenses, nor any
      original text or alias list. */
  lemma AddVariantKeepsNamesAndTexts<T>(s: Store<T>, name: string, variant: LicenseType, data: T)
    ensures var s' := AddVariant(s, name, variant, data).store;
      Len(s') == Len(s) && forall other :: GetOriginal(s', other) == GetOriginal(s, other) && Aliases(s', other) == Aliases(s, other)
  {
    var s' := AddVariant(s, name, variant, data).store;
    assert Licenses(s') == Licenses(s);
  }

  /** Re-adding a license drops the variants and aliases gathered for it. */
  lemma AddLicenseResetsVariants<T>(s: Store<T>, name: string, variant: LicenseType, v: T, data: T)
    ensures var s' := AddLicense(AddVariant(s, name, variant, v).store, name, data);
      s'.licenses[name] == NewEntry(data)
      && Len(s') == Len(s) + (if name in Licenses(s) then 0 else 1)
  {
    AddVariantKeepsNamesAndTexts(s, name, variant, v);
  }
}

=== FILE: errors.dfy ===
/** Parse errors: the offending span of the original text, the reason, and
    the two-line caret rendering (src/error.rs). */
module Errors {
  import opened Common

  /** A half-open range `start..end` of character positions. */
  datatype Span = Span(start: nat, end: nat)

  datatype Reason =
    | UnknownLicense
    | UnknownException
    | InvalidCharacters
    | UnclosedParens
    | UnopenedParens
    | Empty
    | Unexpected(expected: seq<string>)
    | SeparatedPlus
    | UnknownTerm
    | GnuNoPlus
    | DeprecatedLicenseId

  datatype ParseError = ParseError(original: string, span: Span, reason: Reason)

  function Repeat(c: char, n: nat): (r: string)
    ensures |r| == n
    ensures forall i :: 0 <= i < n ==> r[i] == c
  {
    if n == 0 then "" else [c] + Repeat(c, n - 1)
  }

  /** The expected terms, each in backticks, separated by `, `. */
  function QuotedList(items: seq<string>): string
    decreases |items|
  {
    if |items| == 0 then ""
    else if |items| == 1 then "`" + items[0] + "`"
    else "`" + items[0] + "`, " + QuotedList(items[1..])
  }

  /** `t` occurs in `s` at position `i`. */
  predicate OccursAt(s: string, t: string, i: nat) {
    i + |t| <= |s| && s[i..i + |t|] == t
  }

  ghost predicate Contains(s: string, t: string) {
    exists i: nat :: OccursAt(s, t, i)
  }

  /** `Display` for `Reason`. */
  function ReasonText(r: Reason): string {
    match r
    case UnknownLicense => "unknown license id"
    case UnknownException => "unknown exception id"
    case InvalidCharacters => "invalid character(s)"
    case UnclosedParens => "unclosed parens"
    case UnopenedParens => "unopened parens"
    case Empty => "empty expression"
    case Unexpected(expected) =>
      if |expected| > 1 then "expected one of " + QuotedList(expected) + " here"
      else if |expected| == 1 then "expected a `" + expected[0] + "` here"
      else "the term was not expected here"
    case SeparatedPlus => "`+` must not follow whitespace"
    case UnknownTerm => "unknown term"
    case GnuNoPlus => "a GNU license was followed by a `+`"
    case DeprecatedLicenseId => "a deprecated license identifier was used"
  }

  /** `Display` for `ParseError`: the original text, a newline, `start`
      spaces, then a marker and the reason. Mismatched parentheses get a
      single `-` or `^`; every other reason one `^` per spanned position. */
  function ErrorText(e: ParseError): string {
    var marker :=
      if e.reason.UnclosedParens? then "-"
      else if e.reason.UnopenedParens? then "^"
      else Repeat('^', if e.span.end >= e.span.start then e.span.end - e.span.start else 0);
    e.original + "\n" + Repeat(' ', e.span.start) + marker + " " + ReasonText(e.reason)
  }

  /** An occurrence survives putting text in front of and behind it. */
  lemma OccursShift(p: string, s: string, q: string, t: string, i: nat)
    requires OccursAt(s, t, i)
    ensures OccursAt(p + s + q, t, |p| + i)
  {
    assert (p + s + q)[|p| + i..|p| + i + |t|] == s[i..i + |t|];
  }

  /** Every listed term appears, in backticks, in the rendered list; the
      position is returned. */
  lemma {:induction false} QuotedListContains(items: seq<string>, k: nat) returns (i: nat)
    requires k < |items|
    ensures OccursAt(QuotedList(items), "`" + items[k] + "`", i)
    decreases |items|
  {
    var q := "`" + items[0] + "`";
    if k == 0 {
      i := 0;
      if |items| == 1 {
        OccursShift([], q, [], q, 0);
      } else {
        OccursShift([], q, ", " + QuotedList(items[1..]), q, 0);
      }
    } else {
      var j := QuotedListContains(items[1..], k - 1);
      assert items[1..][k - 1] == items[k];
      OccursShift(q + ", ", QuotedList(items[1..]), [], "`" + items[k] + "`", j);
      i := |q + ", "| + j;
    }
  }

  /** The `Unexpected` message names every expected term. */
  lemma UnexpectedNamesEveryTerm(expected: seq<string>, k: nat)
    requires k < |expected|
    ensures Contains(ReasonText(Unexpected(expected)), "`" + expected[k] + "`")
  {
    var t := "`" + expected[k] + "`";
    var text := ReasonText(Unexpected(expected));
    if |expected| > 1 {
      var i := QuotedListContains(expected, k);
      OccursShift("expected one of ", QuotedList(expected), " here", t, i);
      assert OccursAt(text, t, 16 + i);
    } else {
      OccursShift("expected a ", t, " here", t, 0);
      assert text == "expected a " + t + " here";
      assert OccursAt(text, t, 11);
    }
  }

  /** The caret line can be read back: it is the text after the first
      `original.len() + 1` characters and starts with `span.start` spaces;
      for a reason other than the two parenthesis reasons exactly
      `end - start` carets follow; the parenthesis reasons put their single
      marker, `-` for an unclosed and `^` for an unopened one, right after
      the spaces. In every case one space and the reason's text end it. */
  lemma CaretLineLocatesSpan(e: ParseError)
    requires e.span.start <= e.span.end
    ensures var t := ErrorText(e);
      && t[..|e.original|] == e.original && t[|e.original|] == '\n'
      && t[|e.original| + 1..|e.original| + 1 + e.span.start] == Repeat(' ', e.span.start)
      && (e.span.start < e.span.end || e.reason.UnclosedParens? || e.reason.UnopenedParens? ==>
            t[|e.original| + 1 + e.span.start] != ' ')
    ensures var t := ErrorText(e); var base := |e.original| + 1 + e.span.start;
      !e.reason.UnclosedParens? && !e.reason.UnopenedParens? ==>
        t[base..e.span.end + |e.original| + 1] == Repeat('^', e.span.end - e.span.start)
        && t[base + (e.span.end - e.span.start)] == ' '
    ensures var t := ErrorText(e); var base := |e.original| + 1 + e.span.start;
      !e.reason.UnclosedParens? && !e.reason.UnopenedParens? ==>
        t[base + (e.span.end - e.span.start) + 1..] == ReasonText(e.reason)
    ensures e.reason.UnclosedParens? ==> ErrorText(e)[|e.original| + 1 + e.span.start] == '-'
    ensures var t := ErrorText(e); var base := |e.original| + 1 + e.span.start;
      && (e.reason.UnopenedParens? ==> t[base] == '^' && t[base + 1] == ' ')
      && (e.reason.UnclosedParens? ==> t[base + 1] == ' ')
      && (e.reason.UnclosedParens? || e.reason.UnopenedParens? ==> t[base + 2..] == ReasonText(e.reason))
  {
    var t := ErrorText(e);
    var pre := e.original + "\n" + Repeat(' ', e.span.start);
    var marker :=
      if e.reason.UnclosedParens? then "-"
      else if e.reason.UnopenedParens? then "^"
      else Repeat('^', e.span.end - e.span.start);
    assert t == pre + marker + " " + ReasonText(e.reason);
    assert |marker| > 0 ==> t[|pre|] == marker[0];
    assert t[|pre| + |marker|] == ' ';
    assert t[|pre| + |marker| + 1..] == ReasonText(e.reason);
  }
}

=== FILE: expression.dfy ===
/** A parsed license expression: its requirements and operators in postfix
    order, plus the original text, and the stack evaluator over it
    (src/expression.rs, and the earlier `evaluate` of src/parser.rs). */
module Expression {
  import opened Common
  import opened Registry
  import opened Items
  import opened Errors

  datatype Operator = And | Or

  /** A requirement with the span of the text it was parsed from. */
  datatype ExpressionReq = ExpressionReq(req: LicenseReq, span: Span)

  datatype ExprNode = Op(op: Operator) | Req(er: ExpressionReq)

  datatype Expression = Expression(nodes: seq<ExprNode>, original: string)

  /** Requirements pushed minus operators applied: the height of the
      evaluator's stack after running `nodes`. */
  function Depth(nodes: seq<ExprNode>): int
    decreases |nodes|
  {
    if |nodes| == 0 then 0
    else Depth(nodes[..|nodes| - 1]) + (if nodes[|nodes| - 1].Req? then 1 else -1)
  }

  /** Every prefix longer than `from` leaves at least `d` values on the
      stack (`AboveMeans` states it with a quantifier). */
  predicate Above(nodes: seq<ExprNode>, from: nat, d: int)
    decreases |nodes|
  {
    |nodes| <= from || (Above(nodes[..|nodes| - 1], from, d) && Depth(nodes) >= d)
  }

  /** Every non-empty prefix leaves at least one value on the stack. */
  predicate PrefixesPositive(nodes: seq<ExprNode>) {
    Above(nodes, 0, 1)
  }

  /** Well-formed postfix: no operator lacks operands and exactly one value
      remains at the end. */
  predicate WellFormed(nodes: seq<ExprNode>) {
    PrefixesPositive(nodes) && Depth(nodes) == 1
  }

  /** One evaluator step: a requirement pushes its verdict, an operator pops
      two values and pushes their disjunction or conjunction. `None` is the
      failed `unwrap` on an empty stack. */
  function Apply(stack: seq<bool>, node: ExprNode, pred: LicenseReq -> bool): Option<seq<bool>> {
    match node
    case Req(er) => Some(stack + [pred(er.req)])
    case Op(op) =>
      if |stack| < 2 then None
      else
        var a := stack[|stack| - 1];
        var b := stack[|stack| - 2];
        Some(stack[..|stack| - 2] + [if op == Or then a || b else a && b])
  }

  /** The evaluator's stack after running `nodes` from an empty stack. */
  function Fold(nodes: seq<ExprNode>, pred: LicenseReq -> bool): Option<seq<bool>>
    decreases |nodes|
  {
    if |nodes| == 0 then Some([])
    else match Fold(nodes[..|nodes| - 1], pred)
      case None => None
      case Some(st) => Apply(st, nodes[|nodes| - 1], pred)
  }

  /** The syntax tree a postfix sequence encodes: the reference semantics
      the evaluator is measured against. */
  datatype Tree = Leaf(er: ExpressionReq) | Node(op: Operator, left: Tree, right: Tree)

  function Postfix(t: Tree): seq<ExprNode> {
    match t
    case Leaf(er) => [Req(er)]
    case Node(op, l, r) => Postfix(l) + Postfix(r) + [Op(op)]
  }

  function Value(t: Tree, pred: LicenseReq -> bool): bool {
    match t
    case Leaf(er) => pred(er.req)
    case Node(Or, l, r) => Value(l, pred) || Value(r, pred)
    case Node(And, l, r) => Value(l, pred) && Value(r, pred)
  }

  /** The same fold as `Fold`, building trees instead of truth values. */
  function TreeFold(nodes: seq<ExprNode>): Option<seq<Tree>>
    decreases |nodes|
  {
    if |nodes| == 0 then Some([])
    else match TreeFold(nodes[..|nodes| - 1])
      case None => None
      case Some(st) =>
        match nodes[|nodes| - 1]
        case Req(er) => Some(st + [Leaf(er)])
        case Op(op) =>
          if |st| < 2 then None
          else Some(st[..|st| - 2] + [Node(op, st[|st| - 2], st[|st| - 1])])
  }

  function Flatten(ts: seq<Tree>): seq<ExprNode>
    decreases |ts|
  {
    if |ts| == 0 then [] else Flatten(ts[..|ts| - 1]) + Postfix(ts[|ts| - 1])
  }

  function Values(ts: seq<Tree>, pred: LicenseReq -> bool): (r: seq<bool>)
    ensures |r| == |ts|
    decreases |ts|
  {
    if |ts| == 0 then [] else Values(ts[..|ts| - 1], pred) + [Value(ts[|ts| - 1], pred)]
  }

  lemma FlattenSnoc(ts: seq<Tree>, t: Tree)
    ensures Flatten(ts + [t]) == Flatten(ts) + Postfix(t)
  {
    assert (ts + [t])[..|ts|] == ts;
  }

  lemma ValuesSnoc(ts: seq<Tree>, t: Tree, pred: LicenseReq -> bool)
    ensures Values(ts + [t], pred) == Values(ts, pred) + [Value(t, pred)]
  {
    assert (ts + [t])[..|ts|] == ts;
  }

  /** `Above` is the quantified statement about prefixes. */
  lemma {:induction false} AboveMeans(nodes: seq<ExprNode>, from: nat, d: int)
    ensures Above(nodes, from, d) <==> forall k :: from < k <= |nodes| ==> Depth(nodes[..k]) >= d
    decreases |nodes|
  {
    if |nodes| > from {
      var init := nodes[..|nodes| - 1];
      AboveMeans(init, from, d);
      assert nodes[..|nodes|] == nodes;
      forall k | from < k <= |init|
        ensures init[..k] == nodes[..k]
      {
      }
    }
  }

  /** A prefix of a sequence with the property keeps it. */
  lemma {:induction false} AboveInit(nodes: seq<ExprNode>, from: nat, d: int, j: nat)
    requires Above(nodes, from, d) && j <= |nodes|
    ensures Above(nodes[..j], from, d)
    decreases |nodes|
  {
    if j < |nodes| {
      AboveInit(nodes[..|nodes| - 1], from, d, j);
      assert nodes[..|nodes| - 1][..j] == nodes[..j];
    } else {
      assert nodes[..j] == nodes;
    }
  }

  /** The property holds from `from` when it holds from `from` up to `|x|`
      and from `|x|` on. */
  lemma {:induction false} AboveConcat(x: seq<ExprNode>, y: seq<ExprNode>, from: nat, d: int)
    requires Above(x, from, d) && Above(x + y, |x|, d)
    ensures Above(x + y, from, d)
    decreases |y|
  {
    if |y| == 0 {
      assert x + y == x;
    } else {
      assert (x + y)[..|x + y| - 1] == x + y[..|y| - 1];
      AboveConcat(x, y[..|y| - 1], from, d);
    }
  }

  /** A stronger bound implies a weaker one. */
  lemma {:induction false} AboveWeaken(nodes: seq<ExprNode>, from: nat, d: int, d': int)
    requires Above(nodes, from, d) && d' <= d
    ensures Above(nodes, from, d')
    decreases |nodes|
  {
    if |nodes| > from {
      AboveWeaken(nodes[..|nodes| - 1], from, d, d');
    }
  }

  lemma PrefixesPositiveInit(nodes: seq<ExprNode>, j: nat)
    requires PrefixesPositive(nodes) && j <= |nodes|
    ensures PrefixesPositive(nodes[..j])
  {
    AboveInit(nodes, 0, 1, j);
  }

  /** Replacing the top two trees by their combination appends the
      operator to the flattening. */
  lemma FlattenCombine(pre: seq<Tree>, l: Tree, r: Tree, op: Operator)
    ensures Flatten(pre + [Node(op, l, r)]) == Flatten(pre + [l] + [r]) + [Op(op)]
  {
    FlattenSnoc(pre, l);
    FlattenSnoc(pre + [l], r);
    FlattenSnoc(pre, Node(op, l, r));
  }

  /** An operator step of the tree fold combines the top two trees and
      keeps the flattening equal to the nodes consumed. */
  lemma TreeFoldOpStep(init: seq<ExprNode>, op: Operator, st: seq<Tree>)
    requires TreeFold(init) == Some(st) && |st| >= 2 && Flatten(st) == init
    ensures TreeFold(init + [Op(op)])
      == Some(st[..|st| - 2] + [Node(op, st[|st| - 2], st[|st| - 1])])
    ensures Flatten(st[..|st| - 2] + [Node(op, st[|st| - 2], st[|st| - 1])]) == init + [Op(op)]
  {
    var nodes := init + [Op(op)];
    assert nodes[..|nodes| - 1] == init;
    var pre := st[..|st| - 2];
    LastTwo(st);
    FlattenCombine(pre, st[|st| - 2], st[|st| - 1], op);
  }

  /** An operator step of the evaluator pushes the value of the combined
      tree when its stack held the values of the trees. */
  lemma FoldOpStep(init: seq<ExprNode>, op: Operator, st: seq<Tree>, pred: LicenseReq -> bool)
    requires |st| >= 2 && Fold(init, pred) == Some(Values(st, pred))
    ensures Fold(init + [Op(op)], pred)
      == Some(Values(st[..|st| - 2] + [Node(op, st[|st| - 2], st[|st| - 1])], pred))
  {
    var nodes := init + [Op(op)];
    assert nodes[..|nodes| - 1] == init;
    var l, r := st[|st| - 2], st[|st| - 1];
    var pre := st[..|st| - 2];
    var vs := Values(st, pred);
    assert Fold(nodes, pred) == Apply(vs, Op(op), pred);
    ValuesTop(st, pred);
    ValuesSnoc(pre, Node(op, l, r), pred);
  }

  /** The values of a stack of two or more trees: the values below, then
      those of the top two. */
  lemma ValuesTop(st: seq<Tree>, pred: LicenseReq -> bool)
    requires |st| >= 2
    ensures var vs := Values(st, pred);
      && vs[..|vs| - 2] == Values(st[..|st| - 2], pred)
      && vs[|vs| - 2] == Value(st[|st| - 2], pred)
      && vs[|vs| - 1] == Value(st[|st| - 1], pred)
  {
    var l, r := st[|st| - 2], st[|st| - 1];
    var pre := st[..|st| - 2];
    LastTwo(st);
    ValuesSnoc(pre, l, pred);
    ValuesSnoc(pre + [l], r, pred);
    var vs := Values(st, pred);
    assert vs == Values(pre, pred) + [Value(l, pred)] + [Value(r, pred)];
  }

  /** A requirement step of both folds pushes a leaf and its value. */
  lemma FoldReqStep(init: seq<ExprNode>, er: ExpressionReq, st: seq<Tree>, pred: LicenseReq -> bool)
    requires TreeFold(init) == Some(st) && Flatten(st) == init
    requires Fold(init, pred) == Some(Values(st, pred))
    ensures TreeFold(init + [Req(er)]) == Some(st + [Leaf(er)])
    ensures Flatten(st + [Leaf(er)]) == init + [Req(er)]
    ensures Fold(init + [Req(er)], pred) == Some(Values(st + [Leaf(er)], pred))
  {
    var nodes := init + [Req(er)];
    assert nodes[..|nodes| - 1] == init;
    FlattenSnoc(st, Leaf(er));
    ValuesSnoc(st, Leaf(er), pred);
  }

  /** On any sequence whose non-empty prefixes keep the stack non-empty,
      both folds succeed, the stack of trees re-flattens to the input, and
      the evaluator's stack holds exactly the trees' values. */
  lemma {:induction false} TreeFoldSound(nodes: seq<ExprNode>, pred: LicenseReq -> bool)
    requires PrefixesPositive(nodes)
    ensures TreeFold(nodes).Some? && Fold(nodes, pred).Some?
    ensures |TreeFold(nodes).value| == Depth(nodes)
    ensures Flatten(TreeFold(nodes).value) == nodes
    ensures Fold(nodes, pred).value == Values(TreeFold(nodes).value, pred)
    decreases |nodes|
  {
    if |nodes| > 0 {
      PrefixesPositiveInit(nodes, |nodes| - 1);
      TreeFoldSound(nodes[..|nodes| - 1], pred);
      TreeFoldSoundStep(nodes, pred);
    }
  }

  /** The last node of `TreeFoldSound`: the facts for all but the last node
      carry over to all of them when the stack stays non-empty. */
  lemma TreeFoldSoundStep(nodes: seq<ExprNode>, pred: LicenseReq -> bool)
    requires |nodes| > 0 && Depth(nodes) >= 1
    requires var init := nodes[..|nodes| - 1];
      && TreeFold(init).Some? && Fold(init, pred).Some?
      && |TreeFold(init).value| == Depth(init)
      && Flatten(TreeFold(init).value) == init
      && Fold(init, pred).value == Values(TreeFold(init).value, pred)
    ensures TreeFold(nodes).Some? && Fold(nodes, pred).Some?
    ensures |TreeFold(nodes).value| == Depth(nodes)
    ensures Flatten(TreeFold(nodes).value) == nodes
    ensures Fold(nodes, pred).value == Values(TreeFold(nodes).value, pred)
  {
    var init := nodes[..|nodes| - 1];
    LastOne(nodes);
    var st := TreeFold(init).value;
    match nodes[|nodes| - 1]
    case Req(er) =>
      FoldReqStep(init, er, st, pred);
    case Op(op) =>
      TreeFoldOpStep(init, op, st);
      FoldOpStep(init, op, st, pred);
  }

  /** The tree a well-formed postfix sequence encodes. */
  function TreeOf(nodes: seq<ExprNode>): (t: Tree)
    requires WellFormed(nodes)
    ensures Postfix(t) == nodes
  {
    TreeFoldSound(nodes, _ => true);
    var st := TreeFold(nodes).value;
    assert st == [] + [st[0]];
    assert Flatten(st) == Postfix(st[0]);
    st[0]
  }

  lemma TreeFoldLeaf(x: seq<ExprNode>, er: ExpressionReq)
    ensures TreeFold(x + [Req(er)]) ==
      (if TreeFold(x).Some? then Some(TreeFold(x).value + [Leaf(er)]) else None)
  {
    assert (x + [Req(er)])[..|x|] == x;
  }

  lemma TreeFoldNode(body: seq<ExprNode>, pre: seq<Tree>, op: Operator, l: Tree, r: Tree)
    requires TreeFold(body) == Some(pre + [l] + [r])
    ensures TreeFold(body + [Op(op)]) == Some(pre + [Node(op, l, r)])
  {
    assert (body + [Op(op)])[..|body|] == body;
    var st := pre + [l] + [r];
    assert st[..|st| - 2] == pre;
  }

  lemma TreeFoldStuck(body: seq<ExprNode>, n: ExprNode)
    requires TreeFold(body).None?
    ensures TreeFold(body + [n]).None?
  {
    assert (body + [n])[..|body|] == body;
  }

  /** Running a tree's postfix on top of a prefix pushes exactly the tree. */
  lemma {:induction false} TreeFoldPostfix(s: seq<ExprNode>, t: Tree)
    ensures TreeFold(s + Postfix(t)) ==
      (if TreeFold(s).Some? then Some(TreeFold(s).value + [t]) else None)
    decreases t
  {
    match t
    case Leaf(er) =>
      TreeFoldLeaf(s, er);
    case Node(op, l, r) =>
      var sl := s + Postfix(l);
      var body := sl + Postfix(r);
      TreeFoldPostfix(s, l);
      TreeFoldPostfix(sl, r);
      assert s + Postfix(t) == body + [Op(op)];
      if TreeFold(s).Some? {
        TreeFoldNode(body, TreeFold(s).value, op, l, r);
      } else {
        TreeFoldStuck(body, Op(op));
      }
  }

  /** A tree's postfix raises the depth by one, and never dips to or below
      the depth it started from. */
  lemma {:induction false} DepthPostfix(s: seq<ExprNode>, t: Tree)
    ensures Depth(s + Postfix(t)) == Depth(s) + 1
    ensures Above(s + Postfix(t), |s|, Depth(s) + 1)
    decreases t
  {
    var whole := s + Postfix(t);
    match t
    case Leaf(er) =>
      assert whole == s + [Req(er)];
      assert whole[..|s|] == s;
    case Node(op, l, r) =>
      var sl := s + Postfix(l);
      DepthPostfix(s, l);
      DepthPostfix(sl, r);
      AboveWeaken(sl + Postfix(r), |sl|, Depth(s) + 2, Depth(s) + 1);
      AboveConcat(sl, Postfix(r), |s|, Depth(s) + 1);
      var body := sl + Postfix(r);
      assert whole == body + [Op(op)];
      assert whole[..|whole| - 1] == body;
      assert Depth(whole) == Depth(body) - 1;
  }

  /** Every tree's postfix is well formed, and decoding it gives the tree
      back: postfix encoding and `TreeOf` are inverse. */
  lemma PostfixRoundTrip(t: Tree)
    ensures WellFormed(Postfix(t))
    ensures TreeOf(Postfix(t)) == t
  {
    TreeFoldPostfix([], t);
    DepthPostfix([], t);
    assert [] + Postfix(t) == Postfix(t);
  }

  /** `Expression::evaluate`: runs the stack evaluator and returns the value
      on top. It never fails on well-formed postfix, and it computes the
      value of the encoded tree. */
  function Evaluate(nodes: seq<ExprNode>, pred: LicenseReq -> bool): (r: bool)
    requires WellFormed(nodes)
    ensures r == Value(TreeOf(nodes), pred)
  {
    TreeFoldSound(nodes, pred);
    var st := Fold(nodes, pred).value;
    st[|st| - 1]
  }

  /** Evaluating the postfix of a tree computes the tree's value. */
  lemma EvaluatePostfix(t: Tree, pred: LicenseReq -> bool)
    ensures WellFormed(Postfix(t)) && Evaluate(Postfix(t), pred) == Value(t, pred)
  {
    PostfixRoundTrip(t);
  }

  /** On well-formed input the evaluator ends with exactly one value, the
      one `Evaluate` returns. */
  lemma FoldLeavesOne(nodes: seq<ExprNode>, pred: LicenseReq -> bool)
    requires WellFormed(nodes)
    ensures Fold(nodes, pred).Some? && |Fold(nodes, pred).value| == 1
    ensures Fold(nodes, pred).value[0] == Evaluate(nodes, pred)
  {
    TreeFoldSound(nodes, pred);
  }

  /** The requirement nodes of `nodes`, in order (`requirements()`/`licenses()`). */
  function Requirements(nodes: seq<ExprNode>): (r: seq<ExpressionReq>)
    ensures forall er :: er in r <==> Req(er) in nodes
    ensures |r| <= |nodes|
    decreases |nodes|
  {
    if |nodes| == 0 then []
    else
      var init := Requirements(nodes[..|nodes| - 1]);
      assert nodes == nodes[..|nodes| - 1] + [nodes[|nodes| - 1]];
      match nodes[|nodes| - 1]
      case Req(er) => init + [er]
      case Op(_) => init
  }

  /** The requirements of a concatenation are those of its parts, in order. */
  lemma {:induction false} RequirementsAppend(a: seq<ExprNode>, b: seq<ExprNode>)
    ensures Requirements(a + b) == Requirements(a) + Requirements(b)
    decreases |b|
  {
    if |b| == 0 {
      assert a + b == a;
    } else {
      var b' := b[..|b| - 1];
      assert (a + b)[..|a + b| - 1] == a + b';
      RequirementsAppend(a, b');
    }
  }

  /** The requirements whose predicate is false, in order. */
  function Failed(reqs: seq<ExpressionReq>, pred: LicenseReq -> bool): (r: seq<ExpressionReq>)
    ensures forall er :: er in r <==> er in reqs && !pred(er.req)
    decreases |reqs|
  {
    if |reqs| == 0 then []
    else
      var init := Failed(reqs[..|reqs| - 1], pred);
      var last := reqs[|reqs| - 1];
      assert reqs == reqs[..|reqs| - 1] + [last];
      if pred(last.req) then init else init + [last]
  }

  /** If every requirement of a tree holds, so does the tree: AND and OR
      are monotone, so a false expression always has a false requirement. */
  lemma {:induction false} FalseHasFailedReq(t: Tree, pred: LicenseReq -> bool)
    requires !Value(t, pred)
    ensures |Failed(Requirements(Postfix(t)), pred)| > 0
    decreases t
  {
    match t
    case Leaf(er) =>
      assert er in Failed(Requirements(Postfix(t)), pred);
    case Node(op, l, r) =>
      var side := if !Value(l, pred) then l else r;
      FalseHasFailedReq(side, pred);
      var f := Failed(Requirements(Postfix(side)), pred);
      var er := f[0];
      assert er in f;
      assert Req(er) in Postfix(side);
      assert Req(er) in Postfix(t);
      assert er in Failed(Requirements(Postfix(t)), pred);
  }

  /** The requirements of one more node: the old ones, plus that node if
      it is a requirement. */
  lemma RequirementsStep(nodes: seq<ExprNode>, i: nat)
    requires i < |nodes|
    ensures Requirements(nodes[..i + 1])
      == Requirements(nodes[..i]) + (if nodes[i].Req? then [nodes[i].er] else [])
  {
    assert nodes[..i + 1][..i] == nodes[..i];
  }

  lemma FailedSnoc(reqs: seq<ExpressionReq>, er: ExpressionReq, pred: LicenseReq -> bool)
    ensures Failed(reqs + [er], pred) == Failed(reqs, pred) + (if pred(er.req) then [] else [er])
  {
    assert (reqs + [er])[..|reqs|] == reqs;
  }

  /** The failed requirements of one more node: the old ones, plus that
      node if it is a requirement whose predicate is false. */
  lemma FailedStep(nodes: seq<ExprNode>, i: nat, pred: LicenseReq -> bool)
    requires i < |nodes|
    ensures Failed(Requirements(nodes[..i + 1]), pred)
      == Failed(Requirements(nodes[..i]), pred)
         + (if nodes[i].Req? && !pred(nodes[i].er.req) then [nodes[i].er] else [])
  {
    RequirementsStep(nodes, i);
    var reqs := Requirements(nodes[..i]);
    if nodes[i].Req? {
      FailedSnoc(reqs, nodes[i].er, pred);
    } else {
      assert reqs + [] == reqs;
      assert Failed(reqs, pred) + [] == Failed(reqs, pred);
    }
  }

  /** Step `i` of the evaluator loop on well-formed input: the stack so
      far exists, an operator finds two operands, and the next stack is one
      `Apply` away. */
  lemma EvaluatorStep(nodes: seq<ExprNode>, i: nat, pred: LicenseReq -> bool)
    requires PrefixesPositive(nodes) && i < |nodes|
    ensures Fold(nodes[..i], pred).Some?
    ensures nodes[i].Op? ==> |Fold(nodes[..i], pred).value| >= 2
    ensures Fold(nodes[..i + 1], pred) == Apply(Fold(nodes[..i], pred).value, nodes[i], pred)
  {
    PrefixesPositiveInit(nodes, i);
    PrefixesPositiveInit(nodes, i + 1);
    TreeFoldSound(nodes[..i], pred);
    assert nodes[..i + 1][..i] == nodes[..i];
  }

  /** `evaluate_with_failures`: `Ok` exactly when `evaluate` is true; on
      `Err`, every requirement whose predicate was false, in node order, and
      at least one of them. */
  method EvaluateWithFailures(nodes: seq<ExprNode>, pred: LicenseReq -> bool)
    returns (r: Result<(), seq<ExpressionReq>>)
    requires WellFormed(nodes)
    ensures r.Ok? <==> Evaluate(nodes, pred)
    ensures r.Err? ==> r.error == Failed(Requirements(nodes), pred) && |r.error| > 0
  {
    var stack: seq<bool> := [];
    var failures: seq<ExpressionReq> := [];
    var i := 0;
    while i < |nodes|
      invariant 0 <= i <= |nodes|
      invariant Fold(nodes[..i], pred) == Some(stack)
      invariant failures == Failed(Requirements(nodes[..i]), pred)
    {
      EvaluatorStep(nodes, i, pred);
      FailedStep(nodes, i, pred);
      match nodes[i]
      {
        case Req(er) =>
          var allowed := pred(er.req);
          stack := stack + [allowed];
          if !allowed {
            failures := failures + [er];
          }
        case Op(op) =>
          var a := stack[|stack| - 1];
          var b := stack[|stack| - 2];
          stack := stack[..|stack| - 2] + [if op == Or then a || b else a && b];
      }
      i := i + 1;
    }
    assert nodes[..|nodes|] == nodes;
    FoldLeavesOne(nodes, pred);
    if stack[|stack| - 1] == false {
      var t := TreeOf(nodes);
      FalseHasFailedReq(t, pred);
      return Err(failures);
    }
    return Ok(());
  }

  /** The last failed requirement, in node order, if any. */
  function LastFailed(nodes: seq<ExprNode>, pred: LicenseReq -> bool): Option<LicenseReq> {
    var f := Failed(Requirements(nodes), pred);
    if |f| == 0 then None else Some(f[|f| - 1].req)
  }

  lemma LastFailedStep(nodes: seq<ExprNode>, i: nat, pred: LicenseReq -> bool)
    requires i < |nodes|
    ensures LastFailed(nodes[..i + 1], pred) ==
      if nodes[i].Req? && !pred(nodes[i].er.req) then Some(nodes[i].er.req)
      else LastFailed(nodes[..i], pred)
  {
    FailedStep(nodes, i, pred);
    var f0 := Failed(Requirements(nodes[..i]), pred);
    var f1 := Failed(Requirements(nodes[..i + 1]), pred);
    if nodes[i].Req? && !pred(nodes[i].er.req) {
      assert f1 == f0 + [nodes[i].er];
    } else {
      assert f0 + [] == f0;
      assert f1 == f0;
    }
  }

  /** When the expression is false, some requirement failed, and the last
      one to fail did so. */
  lemma LastFailedWhenFalse(nodes: seq<ExprNode>, pred: LicenseReq -> bool)
    requires WellFormed(nodes) && !Evaluate(nodes, pred)
    ensures LastFailed(nodes, pred).Some? && !pred(LastFailed(nodes, pred).value)
  {
    var t := TreeOf(nodes);
    FalseHasFailedReq(t, pred);
    var f := Failed(Requirements(nodes), pred);
    assert f[|f| - 1] in f;
  }

  /** The earlier `ValidExpression::evaluate`: `Err` carries the last
      requirement, in node order, whose predicate was false; the `unwrap`
      of it never fails. */
  method LegacyEvaluate(nodes: seq<ExprNode>, pred: LicenseReq -> bool)
    returns (r: Result<(), LicenseReq>)
    requires WellFormed(nodes)
    ensures r.Ok? <==> Evaluate(nodes, pred)
    ensures r.Err? ==> LastFailed(nodes, pred) == Some(r.error) && !pred(r.error)
  {
    var stack: seq<bool> := [];
    var failed: Option<LicenseReq> := None;
    var i := 0;
    while i < |nodes|
      invariant 0 <= i <= |nodes|
      invariant Fold(nodes[..i], pred) == Some(stack)
      invariant failed == LastFailed(nodes[..i], pred)
    {
      EvaluatorStep(nodes, i, pred);
      LastFailedStep(nodes, i, pred);
      match nodes[i]
      {
        case Req(er) =>
          var allowed := pred(er.req);
          stack := stack + [allowed];
          if !allowed {
            failed := Some(er.req);
          }
        case Op(op) =>
          var a := stack[|stack| - 1];
          var b := stack[|stack| - 2];
          stack := stack[..|stack| - 2] + [if op == Or then a || b else a && b];
      }
      i := i + 1;
    }
    assert nodes[..|nodes|] == nodes;
    FoldLeavesOne(nodes, pred);
    if stack[|stack| - 1] == false {
      LastFailedWhenFalse(nodes, pred);
      return Err(failed.value);
    }
    return Ok(());
  }

  /** `PartialEq` of `ExprNode`: operators by kind, requirements by
      requirement only (spans are ignored). */
  predicate NodeEq(a: ExprNode, b: ExprNode) {
    match (a, b)
    case (Op(x), Op(y)) => x == y
    case (Req(x), Req(y)) => ReqEq(x.req, y.req)
    case _ => false
  }

  /** `PartialEq` of `Expression`: the same number of nodes, pairwise equal;
      the original text plays no part. */
  predicate ExprEq(a: Expression, b: Expression) {
    |a.nodes| == |b.nodes| && forall i :: 0 <= i < |a.nodes| ==> NodeEq(a.nodes[i], b.nodes[i])
  }

  /** A predicate that cannot tell equal requirements apart. */
  ghost predicate RespectsReqEq(pred: LicenseReq -> bool) {
    forall a, b :: ReqEq(a, b) ==> pred(a) == pred(b)
  }

  /** Equal expressions evaluate alike under any such predicate. */
  lemma {:induction false} ExprEqSameFold(a: seq<ExprNode>, b: seq<ExprNode>, pred: LicenseReq -> bool)
    requires RespectsReqEq(pred)
    requires |a| == |b| && forall i :: 0 <= i < |a| ==> NodeEq(a[i], b[i])
    ensures Fold(a, pred) == Fold(b, pred)
    ensures Depth(a) == Depth(b)
    decreases |a|
  {
    if |a| > 0 {
      ExprEqSameFold(a[..|a| - 1], b[..|b| - 1], pred);
      var x, y := a[|a| - 1], b[|b| - 1];
      assert NodeEq(x, y);
      if x.Req? {
        assert pred(x.er.req) == pred(y.er.req);
      }
    }
  }

  lemma ExprEqSameValue(a: Expression, b: Expression, pred: LicenseReq -> bool)
    requires RespectsReqEq(pred) && ExprEq(a, b)
    requires WellFormed(a.nodes) && WellFormed(b.nodes)
    ensures Evaluate(a.nodes, pred) == Evaluate(b.nodes, pred)
  {
    ExprEqSameFold(a.nodes, b.nodes, pred);
    TreeFoldSound(a.nodes, pred);
    TreeFoldSound(b.nodes, pred);
  }

  /** `Display` and `AsRef<str>`: the original text, unchanged. */
  function Display(e: Expression): string {
    e.original
  }

  function NodeText(n: ExprNode): string {
    match n
    case Req(er) => ReqText(er.req)
    case Op(And) => "AND"
    case Op(Or) => "OR"
  }

  /** `Debug`: the nodes rendered and separated by single spaces. */
  function DebugText(nodes: seq<ExprNode>): string
    decreases |nodes|
  {
    if |nodes| == 0 then ""
    else if |nodes| == 1 then NodeText(nodes[0])
    else DebugText(nodes[..|nodes| - 1]) + " " + NodeText(nodes[|nodes| - 1])
  }

  /** `Debug` is compositional: rendering a concatenation joins the two
      renderings with one space. */
  lemma {:induction false} DebugTextAppend(a: seq<ExprNode>, b: seq<ExprNode>)
    requires |a| > 0 && |b| > 0
    ensures DebugText(a + b) == DebugText(a) + " " + DebugText(b)
    decreases |b|
  {
    if |b| == 1 {
      assert (a + b)[..|a + b| - 1] == a;
    } else {
      var b' := b[..|b| - 1];
      assert (a + b)[..|a + b| - 1] == a + b';
      DebugTextAppend(a, b');
    }
  }
}

=== FILE: items.dfy ===
/** License requirements: the license item (an SPDX identifier, possibly
    "or later", or a user-defined `LicenseRef-`), the optional addition
    (an SPDX exception or a user-defined `AdditionRef-`), their comparison
    and their rendering (src/lib.rs). */
module Items {
  import opened Common
  import opened Registry

  datatype LicenseItem =
    | Spdx(id: LicenseId, orLater: bool)
    | Other(docRef: Option<string>, licRef: string)
  {
    /** `LicenseItem::id`: the identifier of an SPDX item, nothing for a reference. */
    function Id(): (r: Option<LicenseId>)
      ensures r.Some? <==> this.Spdx?
      ensures r.Some? ==> r.value == this.id
    {
      match this
      case Spdx(id, _) => Some(id)
      case Other(_, _) => None
    }
  }

  datatype AdditionItem =
    | AddSpdx(exc: ExceptionId)
    | AddOther(addDocRef: Option<string>, addRef: string)

  datatype LicenseReq = LicenseReq(license: LicenseItem, addition: Option<AdditionItem>)

  /** `PartialOrd` for `LicenseItem`: every SPDX item sorts before every
      reference; SPDX items compare by table index only (so `orLater` is
      ignored); references compare by document reference, then by license
      reference. */
  function ItemCmp(a: LicenseItem, b: LicenseItem): (r: Ordering)
    ensures a.Spdx? && b.Other? ==> r == Less
    ensures a.Other? && b.Spdx? ==> r == Greater
    ensures a.Spdx? && b.Spdx? ==> r == LicenseCmp(a.id, b.id)
    ensures a.Other? && b.Other? ==>
      (r == Equal <==> a.docRef == b.docRef && a.licRef == b.licRef)
    ensures a.Other? && b.Other? ==>
      (r == Less <==> (OptStrCmp(a.docRef, b.docRef) == Less
                       || (a.docRef == b.docRef && StrLess(a.licRef, b.licRef))))
  {
    match (a, b)
    case (Spdx(x, _), Spdx(y, _)) => LicenseCmp(x, y)
    case (Spdx(_, _), Other(_, _)) => Less
    case (Other(_, _), Spdx(_, _)) => Greater
    case (Other(ad, al), Other(bd, bl)) =>
      var c := OptStrCmp(ad, bd);
      if c == Equal then StrCmp(al, bl) else c
  }

  /** `PartialEq` for `LicenseItem`: the comparison answers `Equal`. */
  predicate ItemEq(a: LicenseItem, b: LicenseItem) {
    ItemCmp(a, b) == Equal
  }

  /** Derived `PartialEq` of `AdditionItem`; exception handles compare by index. */
  predicate AdditionEq(a: AdditionItem, b: AdditionItem) {
    match (a, b)
    case (AddSpdx(x), AddSpdx(y)) => SameException(x, y)
    case (AddOther(d1, r1), AddOther(d2, r2)) => d1 == d2 && r1 == r2
    case _ => false
  }

  predicate OptAdditionEq(a: Option<AdditionItem>, b: Option<AdditionItem>) {
    match (a, b)
    case (None, None) => true
    case (Some(x), Some(y)) => AdditionEq(x, y)
    case _ => false
  }

  /** Derived `PartialEq` of `LicenseReq`: field by field, through the
      item and addition equalities above. */
  predicate ReqEq(a: LicenseReq, b: LicenseReq) {
    ItemEq(a.license, b.license) && OptAdditionEq(a.addition, b.addition)
  }

  /** The comparison is antisymmetric: swapping the operands reverses it. */
  lemma ItemCmpAntisymmetric(a: LicenseItem, b: LicenseItem)
    ensures ItemCmp(b, a) == Reverse(ItemCmp(a, b))
  {
    match (a, b)
    case (Spdx(_, _), Spdx(_, _)) =>
    case (Spdx(_, _), Other(_, _)) =>
    case (Other(_, _), Spdx(_, _)) =>
    case (Other(ad, al), Other(bd, bl)) =>
      StrLessTrichotomy(al, bl);
      if ad.Some? && bd.Some? {
        StrLessTrichotomy(ad.value, bd.value);
      }
  }

  /** The comparison is transitive on `Less`. */
  lemma ItemCmpTransitive(a: LicenseItem, b: LicenseItem, c: LicenseItem)
    requires ItemCmp(a, b) == Less && ItemCmp(b, c) == Less
    ensures ItemCmp(a, c) == Less
  {
    if a.Other? && b.Other? && c.Other? {
      if a.docRef.Some? && b.docRef.Some? && c.docRef.Some? {
        if StrLess(a.docRef.value, b.docRef.value) && StrLess(b.docRef.value, c.docRef.value) {
          StrLessTransitive(a.docRef.value, b.docRef.value, c.docRef.value);
        }
      }
      if a.docRef == b.docRef == c.docRef {
        StrLessTransitive(a.licRef, b.licRef, c.licRef);
      }
    }
  }

  /** Item equality is an equivalence that ignores `orLater`. */
  lemma ItemEqEquivalence(a: LicenseItem, b: LicenseItem, c: LicenseItem)
    ensures ItemEq(a, a)
    ensures ItemEq(a, b) ==> ItemEq(b, a)
    ensures ItemEq(a, b) && ItemEq(b, c) ==> ItemEq(a, c)
    ensures a.Spdx? ==> ItemEq(a, Spdx(a.id, !a.orLater))
  {
  }

  /** Requirement equality is an equivalence. */
  lemma ReqEqEquivalence(a: LicenseReq, b: LicenseReq, c: LicenseReq)
    ensures ReqEq(a, a)
    ensures ReqEq(a, b) ==> ReqEq(b, a)
    ensures ReqEq(a, b) && ReqEq(b, c) ==> ReqEq(a, c)
  {
  }

  /** `LicenseReq::from`: a GNU identifier is replaced by its root, the
      `-or-later` form turning into the root with `orLater` set; any other
      identifier is kept with `orLater` unset. The addition is always empty.
      In a valid registry the root always exists. */
  function ReqFromId(reg: Registry, id: LicenseId): (r: LicenseReq)
    requires reg.Valid() && reg.HasLicense(id)
    ensures r.addition.None? && r.license.Spdx?
    ensures reg.HasLicense(r.license.id)
    ensures !id.IsGnu() ==> r.license == Spdx(id, false)
    ensures id.IsGnu() ==> r.license.orLater == EndsWith(id.name, "-or-later")
    ensures id.IsGnu() ==> r.license.id.name == TrimEndPlus(GnuRoot(id.name))
  {
    if id.IsGnu() then
      var orLater := EndsWith(id.name, "-or-later");
      var root := GnuRoot(id.name);
      assert Names(reg.licenses)[id.index] == id.name;
      LicenseReq(Spdx(LookupLicense(reg, root).value, orLater), None)
    else
      LicenseReq(Spdx(id, false), None)
  }

  /** Rendering the result of `ReqFromId` the way the canonical form does
      for GNU licenses (`-or-later` for the flag, `-only` otherwise) gives
      back the identifier it came from, whenever that identifier carried a
      suffix and its root has no trailing `+`. */
  lemma ReqFromIdGnuSuffix(reg: Registry, id: LicenseId)
    requires reg.Valid() && reg.HasLicense(id) && id.IsGnu()
    requires EndsWith(id.name, "-or-later") || EndsWith(id.name, "-only")
    requires GnuRoot(id.name) == TrimEndPlus(GnuRoot(id.name))
    ensures var r := ReqFromId(reg, id);
      r.license.id.name + (if r.license.orLater then "-or-later" else "-only") == id.name
  {
    var r := ReqFromId(reg, id);
    if EndsWith(id.name, "-or-later") {
      assert id.name == id.name[..|id.name| - 9] + id.name[|id.name| - 9..];
    } else {
      assert id.name == id.name[..|id.name| - 5] + id.name[|id.name| - 5..];
    }
  }

  /** `Display` for `LicenseItem`. */
  function ItemText(item: LicenseItem): string {
    match item
    case Spdx(id, orLater) => id.name + (if orLater then "+" else "")
    case Other(Some(d), l) => "DocumentRef-" + d + ":LicenseRef-" + l
    case Other(None, l) => "LicenseRef-" + l
  }

  /** Rendering of an addition: an exception by its short identifier, a
      user-defined addition with the `AdditionRef-` syntax. */
  function AdditionText(a: AdditionItem): string {
    match a
    case AddSpdx(e) => e.name
    case AddOther(Some(d), r) => "DocumentRef-" + d + ":AdditionRef-" + r
    case AddOther(None, r) => "AdditionRef-" + r
  }

  /** `Display` for `LicenseReq`: the item, then ` WITH ` and the addition. */
  function ReqText(r: LicenseReq): string {
    ItemText(r.license) + (if r.addition.Some? then " WITH " + AdditionText(r.addition.value) else "")
  }

  /** An SPDX item's rendering ends in `+` exactly when it is "or later",
      provided the identifier itself does not end in `+` (no table entry
      does: `license_id` strips them before looking up). */
  lemma ItemTextPlus(id: LicenseId, orLater: bool)
    requires |id.name| == 0 || id.name[|id.name| - 1] != '+'
    ensures var t := ItemText(Spdx(id, orLater));
      (|t| > 0 && t[|t| - 1] == '+') <==> orLater
    ensures orLater ==> ItemText(Spdx(id, orLater))[..|id.name|] == id.name
  {
  }
}

=== FILE: lexer.dfy ===
/** The tokenizer for license expressions (src/lexer.rs). It skips
    whitespace, then reads one token: `+`, a parenthesis, or a word made of
    `[-a-zA-Z0-9.:]` that is classified as an operator, a license
    identifier, an exception identifier, or a `LicenseRef-`. */
module Lexer {
  import opened Common
  import opened Registry
  import opened Errors

  datatype Token =
    | License(id: LicenseId)
    | Exception(exc: ExceptionId)
    | LicenseRef(docRef: Option<string>, licRef: string)
    | AdditionRef(addDocRef: Option<string>, addRef: string)
    | Plus
    | OpenParen
    | CloseParen
    | With
    | And
    | Or

  /** `Token::len`: how far the cursor moves past a token. A reference's
      length is rebuilt from its prefixes and captured parts. */
  function TokenLen(t: Token): nat {
    match t
    case License(id) => |id.name|
    case Exception(e) => |e.name|
    case LicenseRef(d, l) => (if d.Some? then |"DocumentRef-"| + |d.value| + 1 else 0) + |"LicenseRef-"| + |l|
    case AdditionRef(d, a) => (if d.Some? then |"DocumentRef-"| + |d.value| + 1 else 0) + |"AdditionRef-"| + |a|
    case With => 4
    case And => 3
    case Or => 2
    case Plus => 1
    case OpenParen => 1
    case CloseParen => 1
  }

  /** The text a token stands for; its length is exactly `TokenLen`. */
  function TokenText(t: Token): (r: string)
    ensures |r| == TokenLen(t)
  {
    match t
    case License(id) => id.name
    case Exception(e) => e.name
    case LicenseRef(d, l) => (if d.Some? then "DocumentRef-" + d.value + ":" else "") + "LicenseRef-" + l
    case AdditionRef(d, a) => (if d.Some? then "DocumentRef-" + d.value + ":" else "") + "AdditionRef-" + a
    case With => "WITH"
    case And => "AND"
    case Or => "OR"
    case Plus => "+"
    case OpenParen => "("
    case CloseParen => ")"
  }

  /** Unicode `White_Space`, the set `char::is_whitespace` tests. */
  predicate IsWhitespace(c: char) {
    ('\U{9}' <= c <= '\U{D}') || c == ' ' || c == '\U{85}' || c == '\U{A0}' || c == '\U{1680}'
    || ('\U{2000}' <= c <= '\U{200A}') || c == '\U{2028}' || c == '\U{2029}' || c == '\U{202F}'
    || c == '\U{205F}' || c == '\U{3000}'
  }

  predicate IsRefChar(c: char) {
    ('a' <= c <= 'z') || ('A' <= c <= 'Z') || ('0' <= c <= '9') || c == '-' || c == '.'
  }

  /** A character of a word, `[-a-zA-Z0-9.:]`. */
  predicate IsWordChar(c: char) {
    IsRefChar(c) || c == ':'
  }

  predicate AllWhitespace(text: string, i: nat, j: nat)
    requires i <= j <= |text|
  {
    forall k :: i <= k < j ==> IsWhitespace(text[k])
  }

  /** Index of the first non-whitespace character at or after `i`. */
  function SkipWhitespace(text: string, i: nat): (j: nat)
    requires i <= |text|
    ensures i <= j <= |text|
    ensures AllWhitespace(text, i, j)
    ensures j < |text| ==> !IsWhitespace(text[j])
    decreases |text| - i
  {
    if i == |text| || !IsWhitespace(text[i]) then i else SkipWhitespace(text, i + 1)
  }

  /** End of the maximal run of word characters starting at `i`. */
  function WordEnd(text: string, i: nat): (j: nat)
    requires i <= |text|
    ensures i <= j <= |text|
    ensures forall k :: i <= k < j ==> IsWordChar(text[k])
    ensures j < |text| ==> !IsWordChar(text[j])
    decreases |text| - i
  {
    if i == |text| || !IsWordChar(text[i]) then i else WordEnd(text, i + 1)
  }

  /** End of the maximal run of `[-a-zA-Z0-9.]` starting at `i`. */
  function RefEnd(text: string, i: nat): (j: nat)
    requires i <= |text|
    ensures i <= j <= |text|
    ensures forall k :: i <= k < j ==> IsRefChar(text[k])
    ensures j < |text| ==> !IsRefChar(text[j])
    decreases |text| - i
  {
    if i == |text| || !IsRefChar(text[i]) then i else RefEnd(text, i + 1)
  }

  lemma DocRefText(w: string, e: nat, e2: nat)
    requires 12 < e < |w| && e + 12 < e2 <= |w|
    requires w[..12] == "DocumentRef-" && w[e] == ':' && w[e + 1..e + 12] == "LicenseRef-"
    ensures w[..e2] == TokenText(LicenseRef(Some(w[12..e]), w[e + 12..e2]))
  {
    assert w[..e2] == w[..12] + w[12..e] + [w[e]] + w[e + 1..e + 12] + w[e + 12..e2];
  }

  /** The `DocumentRef-(d):LicenseRef-(l)` pattern at the start of a word,
      each part a non-empty maximal run of `[-a-zA-Z0-9.]`. */
  function MatchDocRef(w: string): (r: Option<(string, string)>)
    ensures r.Some? <==> (StartsWith(w, "DocumentRef-")
      && var e := RefEnd(w, 12);
         12 < e < |w| && w[e] == ':' && StartsWith(w[e + 1..], "LicenseRef-")
         && e + 12 < |w| && IsRefChar(w[e + 12]))
    ensures r.Some? ==> var e := RefEnd(w, 12);
      r.value == (w[12..e], w[e + 12..RefEnd(w, e + 12)])
    ensures r.Some? ==> StartsWith(w, TokenText(LicenseRef(Some(r.value.0), r.value.1)))
    ensures r.Some? ==> |r.value.0| > 0 && |r.value.1| > 0
  {
    if StartsWith(w, "DocumentRef-") then
      var e := RefEnd(w, 12);
      if 12 < e < |w| && w[e] == ':' && StartsWith(w[e + 1..], "LicenseRef-") then
        var s := e + 12;
        var e2 := RefEnd(w, s);
        if e2 > s then
          DocRefText(w, e, e2);
          Some((w[12..e], w[s..e2]))
        else None
      else None
    else None
  }

  /** The `LicenseRef-(l)` pattern at the start of a word. */
  function MatchLicRef(w: string): (r: Option<string>)
    ensures r.Some? <==> StartsWith(w, "LicenseRef-") && |w| > 11 && IsRefChar(w[11])
    ensures r.Some? ==> r.value == w[11..RefEnd(w, 11)]
    ensures r.Some? ==> StartsWith(w, TokenText(LicenseRef(None, r.value))) && |r.value| > 0
  {
    if StartsWith(w, "LicenseRef-") then
      var e := RefEnd(w, 11);
      if e > 11 then
        assert w[..e] == w[..11] + w[11..e];
        Some(w[11..e])
      else None
    else None
  }

  /** Classification of a word, in the source's order: the exact upper-case
      operators, a license identifier, an exception identifier, a document
      and license reference, a license reference; `None` is an unknown term. */
  function Classify(reg: Registry, w: string): (r: Option<Token>)
    requires |w| > 0
    requires forall k :: 0 <= k < |w| ==> IsWordChar(w[k])
    ensures r == Some(With) <==> w == "WITH"
    ensures r == Some(And) <==> w == "AND"
    ensures r == Some(Or) <==> w == "OR"
    ensures r.Some? && r.value.License? <==>
      w !in {"WITH", "AND", "OR"} && LookupLicense(reg, w).Some?
    ensures r.Some? && r.value.License? ==> r.value.id == LookupLicense(reg, w).value
    ensures r.Some? && r.value.Exception? <==>
      w !in {"WITH", "AND", "OR"} && LookupLicense(reg, w).None? && LookupException(reg, w).Some?
    ensures r.Some? && r.value.LicenseRef? ==>
      w !in {"WITH", "AND", "OR"} && LookupLicense(reg, w).None? && LookupException(reg, w).None?
    ensures (w !in {"WITH", "AND", "OR"} && LookupLicense(reg, w).None? && LookupException(reg, w).None?
             && MatchDocRef(w).Some?) ==>
      r == Some(LicenseRef(Some(MatchDocRef(w).value.0), MatchDocRef(w).value.1))
    ensures (w !in {"WITH", "AND", "OR"} && LookupLicense(reg, w).None? && LookupException(reg, w).None?
             && MatchDocRef(w).None? && MatchLicRef(w).Some?) ==>
      r == Some(LicenseRef(None, MatchLicRef(w).value))
    ensures r.None? <==>
      w !in {"WITH", "AND", "OR"} && LookupLicense(reg, w).None? && LookupException(reg, w).None?
      && MatchDocRef(w).None? && MatchLicRef(w).None?
    ensures r.Some? ==> StartsWith(w, TokenText(r.value)) && TokenLen(r.value) > 0
    ensures r.Some? && !r.value.LicenseRef? ==> TokenText(r.value) == w
    ensures r.Some? ==> !r.value.AdditionRef? && !r.value.Plus? && !r.value.OpenParen? && !r.value.CloseParen?
  {
    if w == "WITH" then Some(With)
    else if w == "AND" then Some(And)
    else if w == "OR" then Some(Or)
    else if LookupLicense(reg, w).Some? then
      assert TrimEndPlus(w) == w by { assert !IsWordChar('+'); }
      Some(License(LookupLicense(reg, w).value))
    else if LookupException(reg, w).Some? then Some(Exception(LookupException(reg, w).value))
    else if MatchDocRef(w).Some? then
      var m := MatchDocRef(w).value;
      Some(LicenseRef(Some(m.0), m.1))
    else if MatchLicRef(w).Some? then Some(LicenseRef(None, MatchLicRef(w).value))
    else None
  }

  /** A token with its position: `text[start..end]`. */
  datatype LexerToken = LexerToken(token: Token, start: nat, end: nat)

  /** One call of the iterator: no more tokens, a token, or an error. */
  datatype Step = Done | Emit(lt: LexerToken) | Fail(err: ParseError)

  /** `Lexer::next` with the cursor at `offset`. */
  function Next(reg: Registry, text: string, offset: nat): (r: Step)
    requires offset <= |text|
    ensures r.Done? <==> AllWhitespace(text, offset, |text|)
    ensures r.Emit? ==> (offset <= r.lt.start < r.lt.end <= |text|
      && AllWhitespace(text, offset, r.lt.start)
      && text[r.lt.start..r.lt.end] == TokenText(r.lt.token)
      && r.lt.end - r.lt.start == TokenLen(r.lt.token))
    ensures r.Emit? && r.lt.token.Plus? ==> r.lt.start == offset
    ensures r.Emit? ==> ValidToken(reg, r.lt.token)
    ensures r.Fail? ==> r.err.original == text && r.err.span.start <= r.err.span.end <= |text|
    ensures r.Fail? ==> r.err.reason in {SeparatedPlus, InvalidCharacters, UnknownTerm}
    ensures var j := SkipWhitespace(text, offset);
      (r.Fail? && r.err.reason == SeparatedPlus) <==> (j < |text| && text[j] == '+' && offset < j)
    ensures r.Fail? && r.err.reason == InvalidCharacters ==>
      (r.err.span.start < r.err.span.end == |text| && !IsWordChar(text[r.err.span.start]))
  {
    var j := SkipWhitespace(text, offset);
    if j == |text| then Done
    else if text[j] == '+' then
      if j != offset then Fail(ParseError(text, Span(offset, j), SeparatedPlus))
      else Emit(LexerToken(Plus, j, j + 1))
    else if text[j] == '(' then Emit(LexerToken(OpenParen, j, j + 1))
    else if text[j] == ')' then Emit(LexerToken(CloseParen, j, j + 1))
    else LexWord(reg, text, j)
  }

  /** The word case of `Lexer::next`, at a position holding neither
      whitespace, `+` nor a parenthesis. */
  function LexWord(reg: Registry, text: string, j: nat): (r: Step)
    requires j < |text|
    ensures !r.Done?
    ensures r.Emit? ==> (r.lt.start == j < r.lt.end <= |text|
      && text[r.lt.start..r.lt.end] == TokenText(r.lt.token)
      && r.lt.end - r.lt.start == TokenLen(r.lt.token)
      && ValidToken(reg, r.lt.token) && !r.lt.token.Plus?)
    ensures r.Fail? ==> (r.err.original == text && j == r.err.span.start < r.err.span.end <= |text|)
    ensures r.Fail? ==> r.err.reason in {InvalidCharacters, UnknownTerm}
    ensures r.Fail? && r.err.reason == InvalidCharacters ==>
      (r.err.span.end == |text| && !IsWordChar(text[j]))
  {
    var e := WordEnd(text, j);
    if e == j then Fail(ParseError(text, Span(j, |text|), InvalidCharacters))
    else
      var w := WordAt(text, j);
      match Classify(reg, w)
      case None => Fail(ParseError(text, Span(j, e), UnknownTerm))
      case Some(t) =>
        ClassifiedValid(reg, w, t);
        PrefixOfSlice(text, j, e, TokenText(t));
        Emit(LexerToken(t, j, j + TokenLen(t)))
  }

  /** The word starting at `j`: the maximal run of word characters there. */
  function WordAt(text: string, j: nat): (w: string)
    requires j <= |text|
    ensures w == text[j..WordEnd(text, j)]
    ensures forall k :: 0 <= k < |w| ==> IsWordChar(w[k])
  {
    var w := text[j..WordEnd(text, j)];
    assert forall k :: 0 <= k < |w| ==> w[k] == text[j + k];
    w
  }

  /** What `next` does after the whitespace: a `+` right at the cursor is
      the plus token and one after whitespace is the separated-plus error
      over that whitespace; a parenthesis is its one-character token; any
      other character is read as a word. */
  lemma NextCases(reg: Registry, text: string, offset: nat)
    requires offset <= |text|
    ensures var j, r := SkipWhitespace(text, offset), Next(reg, text, offset);
      && (j == offset < |text| && text[j] == '+' ==> r == Emit(LexerToken(Plus, j, j + 1)))
      && (offset < j < |text| && text[j] == '+' ==> r == Fail(ParseError(text, Span(offset, j), SeparatedPlus)))
      && (j < |text| && text[j] == '(' ==> r == Emit(LexerToken(OpenParen, j, j + 1)))
      && (j < |text| && text[j] == ')' ==> r == Emit(LexerToken(CloseParen, j, j + 1)))
      && (j < |text| && text[j] !in {'+', '(', ')'} ==> r == LexWord(reg, text, j))
  {
  }

  /** What a word position yields: no word there is exactly the
      invalid-characters error to the end; otherwise the longest word is
      classified, an unknown word being the unknown-term error over it and a
      known one giving its token. */
  lemma LexWordCases(reg: Registry, text: string, j: nat)
    requires j < |text|
    ensures var w, r := WordAt(text, j), LexWord(reg, text, j);
      && (|w| == 0 <==> r.Fail? && r.err.reason == InvalidCharacters)
      && (|w| == 0 ==> r == Fail(ParseError(text, Span(j, |text|), InvalidCharacters)))
      && (|w| > 0 ==> (r.Fail? <==> Classify(reg, w).None?))
      && (|w| > 0 && Classify(reg, w).None? ==> r == Fail(ParseError(text, Span(j, j + |w|), UnknownTerm)))
      && (|w| > 0 && Classify(reg, w).Some? ==> r.Emit? && r.lt.token == Classify(reg, w).value)
  {
  }

  /** A classified word's token is one this lexer can produce. */
  lemma ClassifiedValid(reg: Registry, w: string, t: Token)
    requires |w| > 0 && forall k :: 0 <= k < |w| ==> IsWordChar(w[k])
    requires Classify(reg, w) == Some(t)
    ensures ValidToken(reg, t) && !t.Plus?
    ensures StartsWith(w, TokenText(t)) && TokenLen(t) == |TokenText(t)|
  {
  }

  /** A prefix of `text[j..e]` is the text from `j` on. */
  lemma PrefixOfSlice(text: string, j: nat, e: nat, tt: string)
    requires j <= e <= |text| && StartsWith(text[j..e], tt)
    ensures j + |tt| <= e && text[j..j + |tt|] == tt
  {
    assert text[j..e][..|tt|] == tt;
    assert text[j..j + |tt|] == text[j..e][..|tt|];
  }

  /** What lexing a whole text yields: its tokens in order, and the error
      that stopped it, if any. */
  datatype Lexed = Lexed(tokens: seq<LexerToken>, error: Option<ParseError>)

  /** A token this lexer can produce: identifiers come from the registry,
      and `AdditionRef-` is not recognised. */
  predicate ValidToken(reg: Registry, t: Token) {
    (t.License? ==> reg.HasLicense(t.id))
    && (t.Exception? ==> reg.HasException(t.exc))
    && !t.AdditionRef?
  }

  /** The tokens tile `text` from `offset` on: each one follows a run of
      whitespace and spells its own text at its position. */
  predicate Placed(reg: Registry, text: string, offset: nat, toks: seq<LexerToken>)
    requires offset <= |text|
    decreases |toks|
  {
    |toks| == 0 ||
    (offset <= toks[0].start < toks[0].end <= |text|
     && AllWhitespace(text, offset, toks[0].start)
     && text[toks[0].start..toks[0].end] == TokenText(toks[0].token)
     && ValidToken(reg, toks[0].token)
     && Placed(reg, text, toks[0].end, toks[1..]))
  }

  /** Where the last of `toks` ends (or `offset` if there are none). */
  function EndOf(offset: nat, toks: seq<LexerToken>): nat {
    if |toks| == 0 then offset else toks[|toks| - 1].end
  }

  /** Drives `Next` from `offset` until it yields nothing or an error. When
      no error stops it, the tokens and the whitespace between them make up
      the whole remaining text. */
  function LexFrom(reg: Registry, text: string, offset: nat): (r: Lexed)
    requires offset <= |text|
    ensures Placed(reg, text, offset, r.tokens)
    ensures r.error.None? ==> EndOf(offset, r.tokens) <= |text| && AllWhitespace(text, EndOf(offset, r.tokens), |text|)
    ensures r.error.Some? ==> r.error.value.original == text && r.error.value.span.end <= |text|
    ensures r.error.Some? ==> r.error.value.reason in {SeparatedPlus, InvalidCharacters, UnknownTerm}
    ensures r.tokens == [] && r.error.None? <==> AllWhitespace(text, offset, |text|)
    decreases |text| - offset
  {
    match Next(reg, text, offset)
    case Done => Lexed([], None)
    case Fail(e) => Lexed([], Some(e))
    case Emit(lt) =>
      var rest := LexFrom(reg, text, lt.end);
      assert ([lt] + rest.tokens)[1..] == rest.tokens;
      Lexed([lt] + rest.tokens, rest.error)
  }

  /** Placed tokens are ordered, disjoint, and each spells its own text. */
  lemma {:induction false} PlacedOrdered(reg: Registry, text: string, offset: nat, toks: seq<LexerToken>)
    requires offset <= |text| && Placed(reg, text, offset, toks)
    ensures forall i :: 0 <= i < |toks| ==>
      offset <= toks[i].start < toks[i].end <= |text|
      && text[toks[i].start..toks[i].end] == TokenText(toks[i].token)
      && ValidToken(reg, toks[i].token)
    ensures forall i, j :: 0 <= i < j < |toks| ==> toks[i].end <= toks[j].start
    decreases |toks|
  {
    if |toks| > 0 {
      PlacedOrdered(reg, text, toks[0].end, toks[1..]);
      forall i, j | 0 <= i < j < |toks|
        ensures toks[i].end <= toks[j].start
      {
        assert toks[j] == toks[1..][j - 1];
        if i > 0 {
          assert toks[i] == toks[1..][i - 1];
        }
      }
    }
  }

  function Lex(reg: Registry, text: string): Lexed {
    LexFrom(reg, text, 0)
  }

  /** A `/` is not part of any token: after `MIT` the rest of the input is
      reported as invalid characters (the `"MIT/Apache-2.0"` case). */
  lemma SlashIsInvalid(reg: Registry, id: LicenseId)
    requires LookupLicense(reg, "MIT") == Some(id)
    ensures var text := "MIT/Apache-2.0";
      Lex(reg, text) == Lexed([LexerToken(License(id), 0, 3)],
                             Some(ParseError(text, Span(3, 14), InvalidCharacters)))
  {
    var text := "MIT/Apache-2.0";
    SlashFirstWord(reg, id);
    SlashRest(reg);
    assert LexFrom(reg, text, 3) == Lexed([], Some(ParseError(text, Span(3, 14), InvalidCharacters)));
  }

  /** The first token of `"MIT/Apache-2.0"` is `MIT`, ending at the `/`. */
  lemma SlashFirstWord(reg: Registry, id: LicenseId)
    requires LookupLicense(reg, "MIT") == Some(id)
    ensures Next(reg, "MIT/Apache-2.0", 0) == Emit(LexerToken(License(id), 0, 3))
  {
    var text := "MIT/Apache-2.0";
    var mit := LicenseToken(reg, "MIT");
    assert SkipWhitespace(text, 0) == 0;
    assert WordEnd(text, 0) == 3 by {
      assert WordEnd(text, 3) == 3;
      assert WordEnd(text, 2) == 3;
      assert WordEnd(text, 1) == 3;
    }
    assert text[0..3] == "MIT";
  }

  /** At the `/` of `"MIT/Apache-2.0"` no word starts, so the rest is
      invalid characters. */
  lemma SlashRest(reg: Registry)
    ensures Next(reg, "MIT/Apache-2.0", 3) == Fail(ParseError("MIT/Apache-2.0", Span(3, 14), InvalidCharacters))
  {
    var text := "MIT/Apache-2.0";
    assert SkipWhitespace(text, 3) == 3;
    assert WordEnd(text, 3) == 3;
  }

  /** A non-empty run of word characters. */
  predicate IsWord(w: string) {
    |w| > 0 && forall k :: 0 <= k < |w| ==> IsWordChar(w[k])
  }

  /** A maximal run of word characters from `i` to `e` is the word at `i`. */
  lemma {:induction false} WordEndOfRun(text: string, i: nat, e: nat)
    requires i <= e <= |text|
    requires forall k :: i <= k < e ==> IsWordChar(text[k])
    requires e == |text| || !IsWordChar(text[e])
    ensures WordEnd(text, i) == e && WordAt(text, i) == text[i..e]
    decreases e - i
  {
    if i < e {
      WordEndOfRun(text, i + 1, e);
    }
  }

  /** When the first non-blank character from `offset` starts a word that
      classifies as `t`, `next` yields `t` at that position. */
  lemma NextWord(reg: Registry, text: string, offset: nat, i: nat, t: Token)
    requires offset <= i < |text| && SkipWhitespace(text, offset) == i
    requires |WordAt(text, i)| > 0 && Classify(reg, WordAt(text, i)) == Some(t)
    ensures Next(reg, text, offset) == Emit(LexerToken(t, i, i + TokenLen(t)))
  {
    assert IsWordChar(WordAt(text, i)[0]);
    NextCases(reg, text, offset);
    LexWordCases(reg, text, i);
  }

  /** A single word spelling its own token lexes to exactly that token,
      covering the whole text. */
  lemma NextOneWord(reg: Registry, a: string, ta: Token)
    requires IsWord(a) && Classify(reg, a) == Some(ta) && TokenText(ta) == a
    ensures Next(reg, a, 0) == Emit(LexerToken(ta, 0, |a|))
    ensures Next(reg, a, |a|) == Done
  {
    LayoutOne(a);
    NextWord(reg, a, 0, 0, ta);
    NextAtEnd(reg, a);
  }

  lemma LayoutOne(a: string)
    requires IsWord(a)
    ensures SkipWhitespace(a, 0) == 0 && WordAt(a, 0) == a
  {
    WordEndOfRun(a, 0, |a|);
    assert a[0..|a|] == a;
  }

  /** `a WITH b`, for words `a` and `b` that spell their own tokens, lexes
      to the three tokens in order, each at its own position, and then ends. */
  lemma NextWithWords(reg: Registry, a: string, b: string, ta: Token, tb: Token)
    requires IsWord(a) && Classify(reg, a) == Some(ta) && TokenText(ta) == a
    requires IsWord(b) && Classify(reg, b) == Some(tb) && TokenText(tb) == b
    ensures var text := a + " WITH " + b;
      var n := |a|;
      && Next(reg, text, 0) == Emit(LexerToken(ta, 0, n))
      && Next(reg, text, n) == Emit(LexerToken(With, n + 1, n + 5))
      && Next(reg, text, n + 5) == Emit(LexerToken(tb, n + 6, |text|))
      && Next(reg, text, |text|) == Done
  {
    WithLayout(a, b);
    WithHead(reg, a + " WITH " + b, |a|, ta);
    WithTail(reg, a + " WITH " + b, |a|, tb);
  }

  lemma WithHead(reg: Registry, text: string, n: nat, ta: Token)
    requires n + 6 <= |text| && TokenLen(ta) == n
    requires SkipWhitespace(text, 0) == 0 && WordAt(text, 0) == TokenText(ta) && n > 0
    requires Classify(reg, TokenText(ta)) == Some(ta)
    requires SkipWhitespace(text, n) == n + 1 && WordAt(text, n + 1) == "WITH"
    ensures Next(reg, text, 0) == Emit(LexerToken(ta, 0, n))
    ensures Next(reg, text, n) == Emit(LexerToken(With, n + 1, n + 5))
  {
    NextWord(reg, text, 0, 0, ta);
    WithWord(reg, text, n);
  }

  lemma WithWord(reg: Registry, text: string, n: nat)
    requires n + 6 <= |text|
    requires SkipWhitespace(text, n) == n + 1 && WordAt(text, n + 1) == "WITH"
    ensures Next(reg, text, n) == Emit(LexerToken(With, n + 1, n + 5))
  {
    NextWord(reg, text, n, n + 1, With);
  }

  lemma WithTail(reg: Registry, text: string, n: nat, tb: Token)
    requires n + 6 + TokenLen(tb) == |text| && TokenLen(tb) > 0
    requires SkipWhitespace(text, n + 5) == n + 6 && WordAt(text, n + 6) == TokenText(tb)
    requires Classify(reg, TokenText(tb)) == Some(tb)
    ensures Next(reg, text, n + 5) == Emit(LexerToken(tb, n + 6, |text|))
    ensures Next(reg, text, |text|) == Done
  {
    NextWord(reg, text, n + 5, n + 6, tb);
    NextAtEnd(reg, text);
  }

  /** At the end of the text there are no more tokens. */
  lemma NextAtEnd(reg: Registry, text: string)
    ensures Next(reg, text, |text|) == Done
  {
    assert AllWhitespace(text, |text|, |text|);
  }

  /** Where the words of `a WITH b` start and what they are. */
  lemma WithLayout(a: string, b: string)
    requires IsWord(a) && IsWord(b)
    ensures var text := a + " WITH " + b;
      var n := |a|;
      && SkipWhitespace(text, 0) == 0 && WordAt(text, 0) == a
      && SkipWhitespace(text, n) == n + 1 && WordAt(text, n + 1) == "WITH"
      && SkipWhitespace(text, n + 5) == n + 6 && WordAt(text, n + 6) == b
  {
    var text := a + " WITH " + b;
    var n := |a|;
    assert text[..n + 6] == a + " WITH ";
    LayoutFirst(text, a);
    WithChars(a, b);
    LayoutWith(text, n);
    assert text[n + 6..] == b;
    LayoutLast(text, n + 6, b);
  }

  lemma WithChars(a: string, b: string)
    ensures var text, n := a + " WITH " + b, |a|;
      && text[n] == ' ' && text[n + 1] == 'W' && text[n + 2] == 'I'
      && text[n + 3] == 'T' && text[n + 4] == 'H' && text[n + 5] == ' '
  {
    var text, n := a + " WITH " + b, |a|;
    assert forall k :: 0 <= k < 6 ==> text[n + k] == " WITH "[k];
  }

  lemma LayoutFirst(text: string, a: string)
    requires IsWord(a) && |a| < |text| && text[..|a|] == a && text[|a|] == ' '
    ensures SkipWhitespace(text, 0) == 0 && WordAt(text, 0) == a
  {
    assert forall k :: 0 <= k < |a| ==> text[k] == a[k];
    WordEndOfRun(text, 0, |a|);
    assert text[0..|a|] == a;
  }

  lemma LayoutWith(text: string, n: nat)
    requires n + 6 <= |text|
    requires text[n] == ' ' && text[n + 1] == 'W' && text[n + 2] == 'I'
    requires text[n + 3] == 'T' && text[n + 4] == 'H' && text[n + 5] == ' '
    ensures SkipWhitespace(text, n) == n + 1 && WordAt(text, n + 1) == "WITH"
  {
    WordEndOfRun(text, n + 1, n + 5);
    assert text[n + 1..n + 5] == "WITH";
    assert SkipWhitespace(text, n + 1) == n + 1;
  }

  lemma LayoutLast(text: string, i: nat, b: string)
    requires IsWord(b) && 0 < i <= |text| && text[i..] == b && text[i - 1] == ' '
    ensures SkipWhitespace(text, i - 1) == i && WordAt(text, i) == b
  {
    assert forall k :: i <= k < |text| ==> text[k] == b[k - i];
    WordEndOfRun(text, i, |text|);
    assert SkipWhitespace(text, i) == i;
  }

  /** A listed license whose name is a word other than an operator lexes
      to its own handle. */
  lemma ClassifyOwnLicense(reg: Registry, id: LicenseId)
    requires reg.Valid() && reg.HasLicense(id)
    requires IsWord(id.name) && id.name !in {"WITH", "AND", "OR"}
    ensures Classify(reg, id.name) == Some(License(id)) && TokenText(License(id)) == id.name
  {
    assert IsWordChar(id.name[|id.name| - 1]);
    assert TrimEndPlus(id.name) == id.name;
    LookupOwnName(reg, id);
  }

  /** A listed exception whose name is a word, neither an operator nor a
      license name, lexes to its own handle. */
  lemma ClassifyOwnException(reg: Registry, exc: ExceptionId)
    requires reg.Valid() && reg.HasException(exc)
    requires IsWord(exc.name) && exc.name !in {"WITH", "AND", "OR"} && LookupLicense(reg, exc.name).None?
    ensures Classify(reg, exc.name) == Some(Exception(exc)) && TokenText(Exception(exc)) == exc.name
  {
    LookupOwnException(reg, exc);
  }

  /** The token a known license identifier lexes to. */
  function LicenseToken(reg: Registry, w: string): (t: Token)
    requires |w| > 0 && (forall k :: 0 <= k < |w| ==> IsWordChar(w[k]))
    requires w !in {"WITH", "AND", "OR"} && LookupLicense(reg, w).Some?
    ensures Classify(reg, w) == Some(t) && t.License?
  {
    License(LookupLicense(reg, w).value)
  }

  /** Lower-case operator words are never operators. */
  lemma LowerCaseIsNotOperator(reg: Registry)
    ensures Classify(reg, "and") != Some(And) && Classify(reg, "or") != Some(Or)
    ensures Classify(reg, "with") != Some(With)
  {
  }
}

=== FILE: licensee.dfy ===
/** A licensee: the single license (with an optional addition) a user holds,
    and the check of whether it satisfies a requirement of an expression
    (src/licensee.rs). */
module Licensees {
  import opened Common
  import opened Registry
  import opened Items
  import opened Errors
  import opened Lexer
  import opened Parser

  /** `Licensee`: a requirement whose license is never "or later" when it is
      built by the parser. */
  datatype Licensee = Licensee(inner: LicenseReq)

  /** `Licensee::new`: the parts are kept as given. */
  function New(license: LicenseItem, addition: Option<AdditionItem>): (l: Licensee)
    ensures IntoReq(l) == LicenseReq(license, addition)
  {
    Licensee(LicenseReq(license, addition))
  }

  /** `Licensee::into_req`. */
  function IntoReq(l: Licensee): LicenseReq {
    l.inner
  }

  /** The license a first token names: an identifier without "or later", or
      a reference. */
  function ItemOf(t: Token): LicenseItem
    requires t.License? || t.LicenseRef?
  {
    if t.License? then Spdx(t.id, false) else Other(t.docRef, t.licRef)
  }

  /** The addition a token after `WITH` names. */
  function AdditionOf(t: Token): AdditionItem
    requires t.Exception? || t.AdditionRef?
  {
    if t.Exception? then AddSpdx(t.exc) else AddOther(t.addDocRef, t.addRef)
  }

  /** The license part: the first token must be an identifier (not a
      deprecated one unless the mode allows those) or a reference. */
  function FirstItem(original: string, mode: ParseMode, lt: LexerToken): (r: Result<LicenseItem, ParseError>)
    ensures r.Ok? <==> (lt.token.License? && (mode.allowDeprecated || !lt.token.id.IsDeprecated()))
                       || lt.token.LicenseRef?
    ensures r.Ok? ==> r.value == ItemOf(lt.token)
    ensures r.Err? ==> r.error.original == original && r.error.span == TokenSpan(lt)
    ensures r.Err? ==> r.error.reason == if lt.token.License? then DeprecatedLicenseId else Unexpected(["<license>"])
  {
    match lt.token
    case License(id) =>
      if !mode.allowDeprecated && id.IsDeprecated() then Err(ParseError(original, TokenSpan(lt), DeprecatedLicenseId))
      else Ok(Spdx(id, false))
    case LicenseRef(d, l) => Ok(Other(d, l))
    case _ => Err(ParseError(original, TokenSpan(lt), Unexpected(["<license>"])))
  }

  /** The addition part, read after a `WITH` token `w`: the next token must
      be an exception or an addition reference; the end of the input is
      reported as an empty expression at the `WITH`. */
  function AfterWith(reg: Registry, original: string, w: LexerToken): (r: Result<AdditionItem, ParseError>)
    requires w.end <= |original|
    ensures var s := Next(reg, original, w.end);
      && (s.Done? ==> r == Err(ParseError(original, TokenSpan(w), Empty)))
      && (s.Fail? ==> r == Err(s.err))
      && (s.Emit? ==> (r.Ok? <==> s.lt.token.Exception? || s.lt.token.AdditionRef?))
      && (s.Emit? && r.Ok? ==> r.value == AdditionOf(s.lt.token))
      && (s.Emit? && r.Err? ==> r.error == ParseError(original, TokenSpan(s.lt), Unexpected(["<addition>"])))
  {
    match Next(reg, original, w.end)
    case Done => Err(ParseError(original, TokenSpan(w), Empty))
    case Fail(e) => Err(e)
    case Emit(lt) =>
      match lt.token
      case Exception(exc) => Ok(AddSpdx(exc))
      case AdditionRef(d, a) => Ok(AddOther(d, a))
      case _ => Err(ParseError(original, TokenSpan(lt), Unexpected(["<addition>"])))
  }

  /** `Licensee::parse_mode`. Only the first three tokens are read: a
      license, then optionally `WITH` and an addition; whatever follows is
      not looked at. */
  function ParseLicensee(reg: Registry, original: string, mode: ParseMode): (r: Result<Licensee, ParseError>)
    ensures var s0 := Next(reg, original, 0);
      && (s0.Done? ==> r == Err(ParseError(original, Span(0, |original|), Empty)))
      && (s0.Fail? ==> r == Err(s0.err))
      && (s0.Emit? && FirstItem(original, mode, s0.lt).Err? ==> r == Err(FirstItem(original, mode, s0.lt).error))
      && (r.Ok? ==> s0.Emit? && (s0.lt.token.License? || s0.lt.token.LicenseRef?)
                    && r.value.inner.license == ItemOf(s0.lt.token))
    ensures r.Ok? && r.value.inner.license.Spdx? ==>
      !r.value.inner.license.orLater && (mode.allowDeprecated || !r.value.inner.license.id.IsDeprecated())
    ensures r.Ok? ==> var s0 := Next(reg, original, 0);
      var s1 := Next(reg, original, s0.lt.end);
      (r.value.inner.addition.Some? <==> s1.Emit?)
      && (s1.Emit? ==> s1.lt.token.With?)
    ensures var s0 := Next(reg, original, 0);
      s0.Emit? && FirstItem(original, mode, s0.lt).Ok? ==>
        var s1 := Next(reg, original, s0.lt.end);
        && (s1.Done? ==> r == Ok(Licensee(LicenseReq(ItemOf(s0.lt.token), None))))
        && (s1.Fail? ==> r == Err(s1.err))
        && (s1.Emit? && !s1.lt.token.With? ==> r == Err(ParseError(original, TokenSpan(s1.lt), Unexpected(["WITH"]))))
        && (s1.Emit? && s1.lt.token.With? ==>
              r == match AfterWith(reg, original, s1.lt)
                   case Err(e) => Err(e)
                   case Ok(a) => Ok(Licensee(LicenseReq(ItemOf(s0.lt.token), Some(a)))))
  {
    match Next(reg, original, 0)
    case Done => Err(ParseError(original, Span(0, |original|), Empty))
    case Fail(e) => Err(e)
    case Emit(lt) =>
      match FirstItem(original, mode, lt)
      case Err(e) => Err(e)
      case Ok(license) =>
        match Next(reg, original, lt.end)
        case Done => Ok(Licensee(LicenseReq(license, None)))
        case Fail(e) => Err(e)
        case Emit(w) =>
          if !w.token.With? then Err(ParseError(original, TokenSpan(w), Unexpected(["WITH"])))
          else
            match AfterWith(reg, original, w)
            case Err(e) => Err(e)
            case Ok(addition) => Ok(Licensee(LicenseReq(license, Some(addition))))
  }

  /** Round trip: the name of a listed license parses back to a licensee
      holding exactly that license, without "or later" and without an
      addition. */
  lemma ParseLicenseeOfName(reg: Registry, id: LicenseId, mode: ParseMode)
    requires reg.Valid() && reg.HasLicense(id)
    requires IsWord(id.name) && id.name !in {"WITH", "AND", "OR"}
    requires mode.allowDeprecated || !id.IsDeprecated()
    ensures ParseLicensee(reg, id.name, mode) == Ok(Licensee(LicenseReq(Spdx(id, false), None)))
  {
    ClassifyOwnLicense(reg, id);
    NextOneWord(reg, id.name, License(id));
  }

  /** Round trip: `<license> WITH <exception>` parses back to a licensee
      holding that license with that exception as its addition. */
  lemma ParseLicenseeOfNameWith(reg: Registry, id: LicenseId, exc: ExceptionId, mode: ParseMode)
    requires reg.Valid() && reg.HasLicense(id) && reg.HasException(exc)
    requires IsWord(id.name) && id.name !in {"WITH", "AND", "OR"}
    requires mode.allowDeprecated || !id.IsDeprecated()
    requires IsWord(exc.name) && exc.name !in {"WITH", "AND", "OR"} && LookupLicense(reg, exc.name).None?
    ensures ParseLicensee(reg, id.name + " WITH " + exc.name, mode)
      == Ok(Licensee(LicenseReq(Spdx(id, false), Some(AddSpdx(exc)))))
  {
    ClassifyOwnLicense(reg, id);
    ClassifyOwnException(reg, exc);
    NextWithWords(reg, id.name, exc.name, License(id), Exception(exc));
  }

  /** A component of a dotted version number: digits and dots only. */
  predicate VersionLike(s: string) {
    forall i :: 0 <= i < |s| ==> s[i] == '.' || ('0' <= s[i] <= '9')
  }

  /** A held component is acceptable for a required one: equal, or both
      version numbers with the held one greater (compared as text). */
  predicate ComponentOk(held: string, required: string) {
    held == required || (VersionLike(held) && VersionLike(required) && StrLess(required, held))
  }

  /** The loop of `satisfies` over the `-`-separated components of the two
      names: it walks them pairwise and succeeds when both run out together. */
  function LaterVersion(held: seq<string>, required: seq<string>): bool
    decreases |held|
  {
    if |held| == 0 || |required| == 0 then |held| == 0 && |required| == 0
    else if held[0] == required[0] then LaterVersion(held[1..], required[1..])
    else if VersionLike(held[0]) && VersionLike(required[0]) && StrLess(required[0], held[0]) then
      LaterVersion(held[1..], required[1..])
    else false
  }

  /** The walk accepts exactly the lists of equal length whose pairs are
      all acceptable. */
  lemma {:induction false} LaterVersionIff(held: seq<string>, required: seq<string>)
    ensures LaterVersion(held, required) <==>
      |held| == |required| && forall i :: 0 <= i < |held| ==> ComponentOk(held[i], required[i])
    decreases |held|
  {
    if |held| > 0 && |required| > 0 {
      LaterVersionIff(held[1..], required[1..]);
      if |held| == |required| && (forall i :: 0 <= i < |held| ==> ComponentOk(held[i], required[i])) {
        assert ComponentOk(held[0], required[0]);
        forall i | 0 <= i < |held| - 1
          ensures ComponentOk(held[1..][i], required[1..][i])
        {
          assert ComponentOk(held[i + 1], required[i + 1]);
        }
      }
      if LaterVersion(held, required) {
        forall i | 0 <= i < |held|
          ensures ComponentOk(held[i], required[i])
        {
          if i > 0 {
            assert ComponentOk(held[1..][i - 1], required[1..][i - 1]);
          }
        }
      }
    }
  }

  /** `Licensee::satisfies`. Identifiers match by table row, or, when the
      requirement allows later versions, by the component walk over the
      names; references match by both parts; the additions must then be
      equal. */
  predicate Satisfies(l: Licensee, req: LicenseReq) {
    match (l.inner.license, req.license)
    case (Spdx(a, _), Spdx(b, orLater)) =>
      (SameLicense(a, b) || (orLater && LaterVersion(Split(a.name, '-'), Split(b.name, '-'))))
      && OptAdditionEq(req.addition, l.inner.addition)
    case (Other(da, la), Other(db, lb)) => da == db && la == lb && OptAdditionEq(req.addition, l.inner.addition)
    case _ => false
  }

  /** Every licensee satisfies the requirement it was built from. */
  lemma SatisfiesOwnReq(l: Licensee)
    ensures Satisfies(l, IntoReq(l))
  {
  }

  /** Against a requirement without "or later", satisfaction is equality
      of license (by table row, or both reference parts) and addition. */
  lemma SatisfiesExactIff(l: Licensee, req: LicenseReq)
    requires !(req.license.Spdx? && req.license.orLater)
    ensures Satisfies(l, req) <==>
      && l.inner.license.Spdx? == req.license.Spdx?
      && (req.license.Spdx? ==> SameLicense(l.inner.license.id, req.license.id))
      && (req.license.Other? ==> l.inner.license.docRef == req.license.docRef
                                 && l.inner.license.licRef == req.license.licRef)
      && OptAdditionEq(l.inner.addition, req.addition)
  {
  }

  /** Allowing later versions only widens what satisfies a requirement. */
  lemma OrLaterWidens(l: Licensee, b: LicenseId, addition: Option<AdditionItem>)
    requires Satisfies(l, LicenseReq(Spdx(b, false), addition))
    ensures Satisfies(l, LicenseReq(Spdx(b, true), addition))
  {
  }

  /** A held identifier satisfies a different required one with "or later"
      exactly when the component walk accepts their names. */
  lemma OrLaterByComponents(l: Licensee, b: LicenseId)
    requires l.inner.license.Spdx? && !SameLicense(l.inner.license.id, b) && l.inner.addition.None?
    ensures Satisfies(l, LicenseReq(Spdx(b, true), None)) <==>
      var held, required := Split(l.inner.license.id.name, '-'), Split(b.name, '-');
      |held| == |required| && forall i :: 0 <= i < |held| ==> ComponentOk(held[i], required[i])
  {
    LaterVersionIff(Split(l.inner.license.id.name, '-'), Split(b.name, '-'));
  }

  /** `GPL-3.0` held satisfies `GPL-2.0+`: the first components agree and
      `3.0` is the greater version. */
  lemma LaterGplSatisfies(a: LicenseId, b: LicenseId)
    requires a.name == "GPL-3.0" && b.name == "GPL-2.0"
    ensures LaterVersion(Split(a.name, '-'), Split(b.name, '-'))
  {
    SplitPrefix("GPL", '-', "3.0");
    SplitPrefix("GPL", '-', "2.0");
    SplitNoSep("3.0", '-');
    SplitNoSep("2.0", '-');
    assert "GPL" + ['-'] + "3.0" == "GPL-3.0";
    assert "GPL" + ['-'] + "2.0" == "GPL-2.0";
    assert StrLess("2.0", "3.0");
  }

  /** Version components are compared as text, so `10.0` is not later than
      `9.0`: the first differing characters are `1` and `9`. */
  lemma VersionsCompareAsText()
    ensures !ComponentOk("10.0", "9.0")
    ensures ComponentOk("9.0", "10.0")
  {
    assert StrLess("10.0", "9.0");
    StrLessTrichotomy("10.0", "9.0");
  }
}

=== FILE: minimize.dfy ===
/** `Expression::minimized_requirements` (src/expression/minimize.rs): from
    the licensees a user accepts, in priority order, pick the first subset
    (by numeric mask) that makes an expression true. */
module Minimize {
  import opened Common
  import opened Items
  import opened Expression
  import opened Licensees

  datatype MinimizeError = TooManyRequirements(count: nat) | RequirementsUnmet

  /** The largest found set the search accepts. */
  const MaxFound: nat := 64

  /** `xs` is `ys` with some elements dropped, the rest kept in order. */
  predicate Subseq<T(==)>(xs: seq<T>, ys: seq<T>)
    decreases |ys|
  {
    |xs| == 0
    || (|ys| > 0
        && ((xs[|xs| - 1] == ys[|ys| - 1] && Subseq(xs[..|xs| - 1], ys[..|ys| - 1]))
            || Subseq(xs, ys[..|ys| - 1])))
  }

  lemma {:induction false} SubseqRefl<T>(xs: seq<T>)
    ensures Subseq(xs, xs)
    decreases |xs|
  {
    if |xs| > 0 {
      SubseqRefl(xs[..|xs| - 1]);
    }
  }

  /** Some requirement of the expression is satisfied by `lic`. */
  predicate Relevant(reqs: seq<ExpressionReq>, lic: Licensee) {
    exists i :: 0 <= i < |reqs| && Satisfies(lic, reqs[i].req)
  }

  /** `found_set.contains(lic)`, with the equality `Licensee` derives. */
  predicate Contains(found: seq<Licensee>, lic: Licensee) {
    exists j :: 0 <= j < |found| && ReqEq(found[j].inner, lic.inner)
  }

  /** The four facts `FoundSet` keeps: it is part of `accepted` in order,
      holds only relevant licensees, no two of them equal, and every relevant
      accepted licensee has an equal one in it. */
  predicate FoundInv(found: seq<Licensee>, accepted: seq<Licensee>, reqs: seq<ExpressionReq>) {
    && Subseq(found, accepted)
    && (forall j :: 0 <= j < |found| ==> Relevant(reqs, found[j]))
    && (forall j, k :: 0 <= j < k < |found| ==> !ReqEq(found[j].inner, found[k].inner))
    && (forall i :: 0 <= i < |accepted| && Relevant(reqs, accepted[i]) ==> Contains(found, accepted[i]))
  }

  /** The found set: the accepted licensees, in the order given, that
      satisfy some requirement, each kept only the first time it (or an
      equal one) appears. */
  function FoundSet(accepted: seq<Licensee>, reqs: seq<ExpressionReq>): (found: seq<Licensee>)
    ensures Subseq(found, accepted)
    ensures forall j :: 0 <= j < |found| ==> Relevant(reqs, found[j])
    ensures forall j, k :: 0 <= j < k < |found| ==> !ReqEq(found[j].inner, found[k].inner)
    ensures forall i :: 0 <= i < |accepted| && Relevant(reqs, accepted[i]) ==> Contains(found, accepted[i])
    decreases |accepted|
  {
    if |accepted| == 0 then []
    else
      var found := FoundSet(accepted[..|accepted| - 1], reqs);
      FoundSetStep(accepted, found, reqs);
      if !Contains(found, accepted[|accepted| - 1]) && Relevant(reqs, accepted[|accepted| - 1]) then
        found + [accepted[|accepted| - 1]]
      else
        found
  }

  /** One step of `FoundSet`: the last accepted licensee is kept exactly
      when it is relevant and not yet present. */
  lemma FoundSetStep(accepted: seq<Licensee>, found: seq<Licensee>, reqs: seq<ExpressionReq>)
    requires |accepted| > 0 && FoundInv(found, accepted[..|accepted| - 1], reqs)
    ensures var lic := accepted[|accepted| - 1];
      if !Contains(found, lic) && Relevant(reqs, lic) then FoundInv(found + [lic], accepted, reqs)
      else FoundInv(found, accepted, reqs)
  {
    var rest, lic := accepted[..|accepted| - 1], accepted[|accepted| - 1];
    assert accepted == rest + [lic];
    if !Contains(found, lic) && Relevant(reqs, lic) {
      FoundSetKeep(rest, lic, found, reqs);
    } else {
      FoundSetSkip(rest, lic, found, reqs);
    }
  }

  /** The step of `FoundSet` that keeps the last accepted licensee. */
  lemma FoundSetKeep(rest: seq<Licensee>, lic: Licensee, found: seq<Licensee>, reqs: seq<ExpressionReq>)
    requires FoundInv(found, rest, reqs) && !Contains(found, lic) && Relevant(reqs, lic)
    ensures FoundInv(found + [lic], rest + [lic], reqs)
  {
    var accepted, found' := rest + [lic], found + [lic];
    assert found'[..|found|] == found && accepted[..|rest|] == rest;
    forall i | 0 <= i < |accepted| && Relevant(reqs, accepted[i])
      ensures Contains(found', accepted[i])
    {
      if i < |rest| {
        assert accepted[i] == rest[i];
        var j :| 0 <= j < |found| && ReqEq(found[j].inner, rest[i].inner);
        assert found'[j] == found[j];
      } else {
        ReqEqEquivalence(lic.inner, lic.inner, lic.inner);
        assert found'[|found|] == lic;
      }
    }
    forall j, k | 0 <= j < k < |found'|
      ensures !ReqEq(found'[j].inner, found'[k].inner)
    {
      if k == |found| {
        assert found'[j] == found[j];
      }
    }
  }

  /** The step of `FoundSet` that skips the last accepted licensee. */
  lemma FoundSetSkip(rest: seq<Licensee>, lic: Licensee, found: seq<Licensee>, reqs: seq<ExpressionReq>)
    requires FoundInv(found, rest, reqs) && (Contains(found, lic) || !Relevant(reqs, lic))
    ensures FoundInv(found, rest + [lic], reqs)
  {
    var accepted := rest + [lic];
    assert accepted[..|rest|] == rest;
    forall i | 0 <= i < |accepted| && Relevant(reqs, accepted[i])
      ensures Contains(found, accepted[i])
    {
      if i < |rest| {
        assert accepted[i] == rest[i];
      }
    }
  }

  /** `2^n`. */
  function Pow2(n: nat): (r: nat)
    ensures r >= 1
  {
    if n == 0 then 1 else 2 * Pow2(n - 1)
  }

  /** Bit `i` of `mask` (`mask & (1 << i) != 0`). */
  function Bit(mask: nat, i: nat): bool {
    if i == 0 then mask % 2 == 1 else Bit(mask / 2, i - 1)
  }

  /** The mask with the low `n` bits set has every one of them set. */
  lemma {:induction false} AllOnesBits(n: nat, i: nat)
    requires i < n
    ensures Bit(Pow2(n) - 1, i)
    decreases i
  {
    var p := Pow2(n - 1);
    assert Pow2(n) - 1 == 2 * (p - 1) + 1;
    if i > 0 {
      assert (Pow2(n) - 1) / 2 == p - 1;
      AllOnesBits(n - 1, i - 1);
    }
  }

  /** The predicate each mask is tried with: some selected licensee
      satisfies the requirement. */
  function ByMask(found: seq<Licensee>, mask: nat): LicenseReq -> bool {
    (req: LicenseReq) => exists i :: 0 <= i < |found| && Bit(mask, i) && Satisfies(found[i], req)
  }

  /** The predicate of the sanity check: some found licensee satisfies the
      requirement. */
  function ByAny(found: seq<Licensee>): LicenseReq -> bool {
    (req: LicenseReq) => exists i :: 0 <= i < |found| && Satisfies(found[i], req)
  }

  /** The predicate a caller applies to the result: some returned
      requirement, held as a licensee, satisfies it. */
  function ByReqs(rs: seq<LicenseReq>): LicenseReq -> bool {
    (req: LicenseReq) => exists k :: 0 <= k < |rs| && Satisfies(Licensee(rs[k]), req)
  }

  /** AND and OR are monotone: making more requirements true never makes
      a tree false. */
  lemma {:induction false} ValueMonotone(t: Tree, f: LicenseReq -> bool, g: LicenseReq -> bool)
    requires forall x :: f(x) ==> g(x)
    ensures Value(t, f) ==> Value(t, g)
    decreases t
  {
    match t
    case Leaf(_) =>
    case Node(_, l, r) =>
      ValueMonotone(l, f, g);
      ValueMonotone(r, f, g);
  }

  /** Evaluation with two predicates that agree everywhere agrees. */
  lemma EvaluateSame(nodes: seq<ExprNode>, f: LicenseReq -> bool, g: LicenseReq -> bool)
    requires WellFormed(nodes)
    requires forall x :: f(x) == g(x)
    ensures Evaluate(nodes, f) == Evaluate(nodes, g)
  {
    ValueMonotone(TreeOf(nodes), f, g);
    ValueMonotone(TreeOf(nodes), g, f);
  }

  /** The requirements of the licensees a mask selects, in found-set order. */
  function Select(found: seq<Licensee>, mask: nat): (r: seq<LicenseReq>)
    ensures forall x :: x in r <==> exists i :: 0 <= i < |found| && Bit(mask, i) && IntoReq(found[i]) == x
    decreases |found|
  {
    if |found| == 0 then []
    else
      var init := found[..|found| - 1];
      var last := found[|found| - 1];
      var r := Select(init, mask) + (if Bit(mask, |found| - 1) then [IntoReq(last)] else []);
      assert forall i :: 0 <= i < |init| ==> init[i] == found[i];
      r
  }

  /** The requirements of all found licensees, in order. */
  function IntoReqs(found: seq<Licensee>): (r: seq<LicenseReq>)
    ensures |r| == |found|
    ensures forall i :: 0 <= i < |found| ==> r[i] == IntoReq(found[i])
    decreases |found|
  {
    if |found| == 0 then [] else IntoReqs(found[..|found| - 1]) + [IntoReq(found[|found| - 1])]
  }

  /** What a mask selects is a part of the found set, in its order. */
  lemma {:induction false} SelectSubseq(found: seq<Licensee>, mask: nat)
    ensures Subseq(Select(found, mask), IntoReqs(found))
    decreases |found|
  {
    if |found| > 0 {
      var init := found[..|found| - 1];
      SelectSubseq(init, mask);
      var s, all := Select(found, mask), IntoReqs(found);
      assert all[..|all| - 1] == IntoReqs(init);
      if Bit(mask, |found| - 1) {
        assert s[..|s| - 1] == Select(init, mask);
      } else {
        assert s == Select(init, mask);
      }
    }
  }

  /** Holding the selected requirements is holding the selected licensees. */
  lemma SelectMeansMask(found: seq<Licensee>, mask: nat)
    ensures forall x :: ByReqs(Select(found, mask))(x) == ByMask(found, mask)(x)
  {
    var s := Select(found, mask);
    forall x
      ensures ByReqs(s)(x) == ByMask(found, mask)(x)
    {
      if ByReqs(s)(x) {
        var k :| 0 <= k < |s| && Satisfies(Licensee(s[k]), x);
        assert s[k] in s;
        var i :| 0 <= i < |found| && Bit(mask, i) && IntoReq(found[i]) == s[k];
        assert Licensee(s[k]) == found[i];
      }
      if ByMask(found, mask)(x) {
        var i :| 0 <= i < |found| && Bit(mask, i) && Satisfies(found[i], x);
        assert IntoReq(found[i]) in s;
        var k :| 0 <= k < |s| && s[k] == IntoReq(found[i]);
        assert Licensee(s[k]) == found[i];
      }
    }
  }

  /** Holding all the found requirements is holding the found licensees. */
  lemma AllMeansAny(found: seq<Licensee>)
    ensures forall x :: ByReqs(IntoReqs(found))(x) == ByAny(found)(x)
  {
    var s := IntoReqs(found);
    forall x
      ensures ByReqs(s)(x) == ByAny(found)(x)
    {
      if ByAny(found)(x) {
        var i :| 0 <= i < |found| && Satisfies(found[i], x);
        assert Licensee(s[i]) == found[i];
      }
    }
  }

  /** The masks `lo..=hi` in increasing order: the first one whose
      selection makes the expression true. */
  function Search(nodes: seq<ExprNode>, found: seq<Licensee>, lo: nat, hi: nat): (r: Option<nat>)
    requires WellFormed(nodes)
    ensures r.Some? ==> lo <= r.value <= hi && Evaluate(nodes, ByMask(found, r.value))
    ensures r.Some? ==> forall m :: lo <= m < r.value ==> !Evaluate(nodes, ByMask(found, m))
    ensures r.None? ==> forall m :: lo <= m <= hi ==> !Evaluate(nodes, ByMask(found, m))
    decreases hi + 1 - lo
  {
    if lo > hi then None
    else if Evaluate(nodes, ByMask(found, lo)) then Some(lo)
    else Search(nodes, found, lo + 1, hi)
  }

  /** `minimized_requirements`. */
  function MinimizedRequirements(nodes: seq<ExprNode>, accepted: seq<Licensee>): (r: Result<seq<LicenseReq>, MinimizeError>)
    requires WellFormed(nodes)
    ensures var found := FoundSet(accepted, Requirements(nodes));
      && (r == Err(TooManyRequirements(|found|)) <==> |found| > MaxFound)
      && (r == Err(RequirementsUnmet) <==> |found| <= MaxFound && !Evaluate(nodes, ByAny(found)))
      && (r.Ok? ==> Subseq(r.value, IntoReqs(found)))
    ensures r.Ok? ==> Evaluate(nodes, ByReqs(r.value))
  {
    var found := FoundSet(accepted, Requirements(nodes));
    if |found| > MaxFound then Err(TooManyRequirements(|found|))
    else if !Evaluate(nodes, ByAny(found)) then Err(RequirementsUnmet)
    else
      match Search(nodes, found, 1, Pow2(|found|))
      case Some(mask) =>
        SelectSubseq(found, mask);
        SelectMeansMask(found, mask);
        EvaluateSame(nodes, ByReqs(Select(found, mask)), ByMask(found, mask));
        Ok(Select(found, mask))
      case None =>
        SubseqRefl(IntoReqs(found));
        AllMeansAny(found);
        EvaluateSame(nodes, ByReqs(IntoReqs(found)), ByAny(found));
        Ok(IntoReqs(found))
  }

  /** The mask with every found licensee selected is in the searched range
      and agrees with the sanity check, so once that check passes the search
      always succeeds and the fallback is never taken. */
  lemma FallbackUnreachable(nodes: seq<ExprNode>, found: seq<Licensee>)
    requires WellFormed(nodes) && Evaluate(nodes, ByAny(found))
    ensures Search(nodes, found, 1, Pow2(|found|)).Some?
  {
    var n := |found|;
    var all := if n == 0 then 1 else Pow2(n) - 1;
    forall i | 0 <= i < n
      ensures Bit(all, i)
    {
      AllOnesBits(n, i);
    }
    assert forall x :: ByMask(found, all)(x) == ByAny(found)(x);
    EvaluateSame(nodes, ByMask(found, all), ByAny(found));
  }

  /** `mask` is in the searched range, makes the expression true, and no
      numerically smaller mask does. */
  predicate FirstMask(nodes: seq<ExprNode>, found: seq<Licensee>, mask: nat)
    requires WellFormed(nodes)
  {
    && 1 <= mask <= Pow2(|found|)
    && Evaluate(nodes, ByMask(found, mask))
    && forall m :: 1 <= m < mask ==> !Evaluate(nodes, ByMask(found, m))
  }

  /** On success the result is the selection of the first mask that works:
      no numerically smaller mask makes the expression true. */
  lemma FirstWorkingMask(nodes: seq<ExprNode>, accepted: seq<Licensee>)
    requires WellFormed(nodes) && MinimizedRequirements(nodes, accepted).Ok?
    ensures var found := FoundSet(accepted, Requirements(nodes));
      var mask := Search(nodes, found, 1, Pow2(|found|));
      mask.Some? && FirstMask(nodes, found, mask.value)
      && MinimizedRequirements(nodes, accepted).value == Select(found, mask.value)
  {
    var found := FoundSet(accepted, Requirements(nodes));
    FallbackUnreachable(nodes, found);
    var mask := Search(nodes, found, 1, Pow2(|found|)).value;
    assert FirstMask(nodes, found, mask);
  }
}

=== FILE: ngram.dfy ===
/** The word n-gram multiset used to compare license texts
    (src/detection/ngram.rs): each gram of `n` consecutive space-separated
    words is counted, and `size` is the total count. */
module Ngram {
  import opened Common

  /** `NgramSet`: the counts per gram, the gram length (a `u8`), and the
      total count. */
  datatype NgramSet = NgramSet(grams: map<string, nat>, n: nat, size: nat)

  /** The largest gram length a `u8` holds. */
  const MaxN: nat := 255

  /** The sum of the counts of a map. */
  ghost function Total(m: map<string, nat>): nat
    decreases |m|
  {
    if m == map[] then 0
    else
      var k :| k in m;
      m[k] + Total(m - {k})
  }

  /** Any key can be taken out first: the sum does not depend on the order. */
  lemma {:induction false} TotalRemove(m: map<string, nat>, k: string)
    requires k in m
    ensures Total(m) == m[k] + Total(m - {k})
    decreases |m|
  {
    var j :| j in m && Total(m) == m[j] + Total(m - {j});
    if j != k {
      assert |m - {j}| < |m|;
      TotalRemove(m - {j}, k);
      assert |m - {k}| < |m|;
      TotalRemove(m - {k}, j);
      assert m - {j} - {k} == m - {k} - {j};
    }
  }

  /** The invariant of the type: `size` is the sum of the counts. */
  ghost predicate Valid(s: NgramSet) {
    s.size == Total(s.grams)
  }

  /** `NgramSet::new`. */
  function New(n: nat): (s: NgramSet)
    requires n <= MaxN
    ensures Valid(s) && Positive(s) && s.n == n && IsEmpty(s)
    ensures forall g :: Get(s, g) == 0
  {
    NgramSet(map[], n, 0)
  }

  /** No gram is stored with a zero count: a gram is present exactly when
      it has occurred. */
  predicate Positive(s: NgramSet) {
    forall g :: g in s.grams ==> s.grams[g] > 0
  }

  /** `NgramSet::get`: the count of a gram, zero when absent. */
  function Get(s: NgramSet, gram: string): nat {
    if gram in s.grams then s.grams[gram] else 0
  }

  /** `NgramSet::len`. */
  function Len(s: NgramSet): nat {
    s.size
  }

  /** `NgramSet::is_empty`. */
  predicate IsEmpty(s: NgramSet) {
    s.size == 0
  }

  /** On a valid set, empty means no gram has a count. */
  lemma {:induction false} EmptyMeansNoCounts(s: NgramSet, g: string)
    requires Valid(s) && IsEmpty(s)
    ensures Get(s, g) == 0
  {
    if g in s.grams {
      TotalRemove(s.grams, g);
    }
  }

  /** `add_gram`: one more occurrence of `gram`. */
  function AddGram(s: NgramSet, gram: string): (r: NgramSet)
    ensures Valid(s) ==> Valid(r)
    ensures Positive(s) ==> Positive(r)
    ensures r.n == s.n && Len(r) == Len(s) + 1
    ensures Get(r, gram) == Get(s, gram) + 1
    ensures forall g :: g != gram ==> Get(r, g) == Get(s, g)
  {
    TotalIncrement(s.grams, gram);
    NgramSet(s.grams[gram := Get(s, gram) + 1], s.n, s.size + 1)
  }

  /** Raising one count by one raises the sum by one. */
  lemma TotalIncrement(m: map<string, nat>, gram: string)
    ensures Total(m[gram := (if gram in m then m[gram] else 0) + 1]) == Total(m) + 1
  {
    var m' := m[gram := (if gram in m then m[gram] else 0) + 1];
    TotalRemove(m', gram);
    assert m' - {gram} == m - {gram};
    if gram in m {
      TotalRemove(m, gram);
    } else {
      assert m - {gram} == m;
    }
  }

  /** The grams added one after the other. */
  function AddAll(s: NgramSet, grams: seq<string>): (r: NgramSet)
    ensures Valid(s) ==> Valid(r)
    ensures Positive(s) ==> Positive(r)
    ensures r.n == s.n
    decreases |grams|
  {
    if |grams| == 0 then s else AddGram(AddAll(s, grams[..|grams| - 1]), grams[|grams| - 1])
  }

  lemma AddAllSnoc(s: NgramSet, grams: seq<string>, g: string)
    ensures AddAll(s, grams + [g]) == AddGram(AddAll(s, grams), g)
  {
    assert (grams + [g])[..|grams|] == grams;
  }

  /** Adding grams adds their number to the size and each one's number of
      occurrences to its count. */
  lemma {:induction false} AddAllCounts(s: NgramSet, grams: seq<string>, g: string)
    ensures Len(AddAll(s, grams)) == Len(s) + |grams|
    ensures Get(AddAll(s, grams), g) == Get(s, g) + multiset(grams)[g]
    decreases |grams|
  {
    if |grams| > 0 {
      var init := grams[..|grams| - 1];
      AddAllCounts(s, init, g);
      assert grams == init + [grams[|grams| - 1]];
    }
  }

  /** The grams of a word list: for each window of `n` consecutive words,
      the words joined by one space; none when `n` is zero. */
  function Windows(words: seq<string>, n: nat): seq<string>
    decreases |words|
  {
    if n == 0 || |words| < n then []
    else Windows(words[..|words| - 1], n) + [Join(words[|words| - n..], ' ')]
  }

  /** There are `k - n + 1` windows of `k` words when `1 <= n <= k`, and
      window `i` is words `i` to `i + n - 1`. */
  lemma {:induction false} WindowsShape(words: seq<string>, n: nat)
    requires n >= 1
    ensures |Windows(words, n)| == if |words| < n then 0 else |words| - n + 1
    ensures forall i :: 0 <= i < |Windows(words, n)| ==> Windows(words, n)[i] == Join(words[i..i + n], ' ')
    decreases |words|
  {
    if |words| >= n {
      var init := words[..|words| - 1];
      WindowsShape(init, n);
      var w := Windows(words, n);
      forall i | 0 <= i < |w|
        ensures w[i] == Join(words[i..i + n], ' ')
      {
        if i < |w| - 1 {
          assert w[i] == Windows(init, n)[i];
          assert init[i..i + n] == words[i..i + n];
        } else {
          assert words[i..i + n] == words[|words| - n..];
        }
      }
    }
  }

  /** One more word adds the window ending at it, once there are `n` words. */
  lemma WindowsStep(words: seq<string>, i: nat, n: nat)
    requires i < |words|
    ensures Windows(words[..i + 1], n)
      == Windows(words[..i], n) + (if n >= 1 && i + 1 >= n then [Join(words[i + 1 - n..i + 1], ' ')] else [])
  {
    var pre := words[..i + 1];
    assert pre[..|pre| - 1] == words[..i];
    if n >= 1 && i + 1 >= n {
      assert pre[|pre| - n..] == words[i + 1 - n..i + 1];
    }
  }

  /** The queue of `analyze` after `i` words: the last words not yet
      closing a window, fewer than `n` of them (all of them when `n` is zero). */
  predicate QueueInv(words: seq<string>, i: nat, n: nat, queue: seq<string>) {
    && i <= |words|
    && (n == 0 ==> queue == words[..i])
    && (n > 0 ==> |queue| == (if i < n then i else n - 1) && queue == words[i - |queue|..i])
  }

  /** Pushing word `i`: the queue is full exactly when a window ends at
      that word, it then holds that window, and after popping the front the
      queue is right for `i + 1` words. */
  lemma QueueStep(words: seq<string>, i: nat, n: nat, queue: seq<string>)
    requires i < |words| && QueueInv(words, i, n, queue)
    ensures var q := queue + [words[i]];
      && (|q| == n <==> n >= 1 && i + 1 >= n)
      && (|q| == n ==> q == words[i + 1 - n..i + 1] && QueueInv(words, i + 1, n, q[1..]))
      && (|q| != n ==> QueueInv(words, i + 1, n, q))
  {
  }

  /** One turn of the loop of `analyze`, on the set: when a window ends at
      word `i`, adding its gram keeps the set equal to the grams of the words
      seen so far; otherwise the set already is. */
  lemma AnalyzeStep(s: NgramSet, words: seq<string>, i: nat, n: nat, r: NgramSet)
    requires i < |words| && r == AddAll(s, Windows(words[..i], n))
    ensures n >= 1 && i + 1 >= n ==> AddGram(r, Join(words[i + 1 - n..i + 1], ' ')) == AddAll(s, Windows(words[..i + 1], n))
    ensures !(n >= 1 && i + 1 >= n) ==> r == AddAll(s, Windows(words[..i + 1], n))
  {
    WindowsStep(words, i, n);
    var before := Windows(words[..i], n);
    if n >= 1 && i + 1 >= n {
      AddAllSnoc(s, before, Join(words[i + 1 - n..i + 1], ' '));
    } else {
      assert before + [] == before;
    }
  }

  /** `NgramSet::analyze`: the text is split on single spaces, and a queue
      of the last words gives a gram each time it holds `n` of them. */
  method Analyze(s: NgramSet, text: string) returns (r: NgramSet)
    ensures Valid(s) ==> Valid(r)
    ensures r.n == s.n
    ensures r == AddAll(s, Windows(Split(text, ' '), s.n))
  {
    var words := Split(text, ' ');
    var queue: seq<string> := [];
    var i := 0;
    r := s;
    while i < |words|
      invariant QueueInv(words, i, s.n, queue)
      invariant r == AddAll(s, Windows(words[..i], s.n))
    {
      queue, r := AnalyzeTurn(s, words, i, queue, r);
      i := i + 1;
    }
    assert words[..i] == words;
  }

  /** One turn of the loop of `analyze`: word `i` is pushed on the queue,
      and when the queue then holds `n` words their gram is added and the
      front word dropped. The set then holds the grams of the first `i + 1`
      words. */
  method AnalyzeTurn(s: NgramSet, words: seq<string>, i: nat, queue: seq<string>, r: NgramSet)
    returns (queue': seq<string>, r': NgramSet)
    requires i < |words| && QueueInv(words, i, s.n, queue)
    requires r == AddAll(s, Windows(words[..i], s.n))
    ensures QueueInv(words, i + 1, s.n, queue')
    ensures r' == AddAll(s, Windows(words[..i + 1], s.n))
  {
    QueueStep(words, i, s.n, queue);
    AnalyzeStep(s, words, i, s.n, r);
    queue' := queue + [words[i]];
    r' := r;
    if |queue'| == s.n {
      r' := AddGram(r, Join(queue', ' '));
      queue' := queue'[1..];
    }
  }

  /** `NgramSet::from_str`. */
  method FromStr(text: string, n: nat) returns (r: NgramSet)
    requires n <= MaxN
    ensures Valid(r) && Positive(r) && r.n == n
    ensures r == AddAll(New(n), Windows(Split(text, ' '), n))
  {
    r := Analyze(New(n), text);
  }

  /** With `n >= 1`, analysing `k` words adds `max(0, k - n + 1)` grams; with
      `n == 0` it adds none. */
  lemma AnalyzeSize(s: NgramSet, text: string)
    ensures var k, n := |Split(text, ' ')|, s.n;
      Len(AddAll(s, Windows(Split(text, ' '), n)))
        == Len(s) + if n == 0 || k < n then 0 else k - n + 1
  {
    var words := Split(text, ' ');
    AddAllCounts(s, Windows(words, s.n), "");
    if s.n >= 1 {
      WindowsShape(words, s.n);
    }
  }

  /** The empty text is one empty word, so for `n >= 2` it has no gram. */
  lemma EmptyTextHasNoGrams(n: nat)
    requires 2 <= n <= MaxN
    ensures IsEmpty(AddAll(New(n), Windows(Split("", ' '), n)))
  {
    assert Split("", ' ') == [""];
  }

  /** `PartialEq for NgramSet`: equal gram length, size and counts. */
  predicate Equal(a: NgramSet, b: NgramSet) {
    a.n == b.n && a.size == b.size && a.grams == b.grams
  }

  /** On valid sets that store no zero counts, equality is exactly equal
      gram length and equal counts for every gram: the size and the stored
      keys follow from the counts. */
  lemma EqualIffSameCounts(a: NgramSet, b: NgramSet)
    requires Valid(a) && Valid(b) && Positive(a) && Positive(b)
    ensures Equal(a, b) <==> a.n == b.n && forall g :: Get(a, g) == Get(b, g)
  {
    if a.n == b.n && forall g :: Get(a, g) == Get(b, g) {
      forall g | g in a.grams
        ensures g in b.grams && a.grams[g] == b.grams[g]
      {
        assert Get(a, g) == Get(b, g);
      }
      forall g | g in b.grams
        ensures g in a.grams
      {
        assert Get(a, g) == Get(b, g);
      }
      assert a.grams == b.grams;
    }
  }
}

=== FILE: parse_cases.dfy ===
/** Worked inputs for the parsers: operator precedence and nesting, the
    positions of the error reports, and the GNU `+` rule in the two modes
    (tests/check.rs, tests/validation.rs). Identifiers are taken from the
    caller's registry, so the cases hold for every table that has them. */
module ParseCases {
  import opened Common
  import opened Registry
  import opened Items
  import opened Errors
  import opened Lexer
  import opened Expression
  import opened Parser
  import opened ParserFacts

  function Tok(t: Token, start: nat, end: nat): LexerToken {
    LexerToken(t, start, end)
  }

  /** Offsets below 2^32 survive the cast to `u32` unchanged. */
  lemma U32Below(n: nat)
    requires n < 0x1_0000_0000
    ensures U32(n) == n
  {
  }

  /** The requirement a plain, non-GNU identifier stands for. */
  function Plain(id: LicenseId, start: nat, end: nat): ExpressionReq {
    ExpressionReq(LicenseReq(Spdx(id, false), None), Span(start, end))
  }

  predicate PlainId(reg: Registry, id: LicenseId) {
    reg.HasLicense(id) && !id.IsGnu()
  }

  lemma PlainOperand(reg: Registry, d: Dialect, id: LicenseId)
    requires reg.Valid() && PlainId(reg, id)
    ensures OperandReq(reg, d, License(id)) == LicenseReq(Spdx(id, false), None)
  {
  }

  /** A plain identifier where an operand may start is queued as is. */
  lemma FeedPlain(reg: Registry, d: Dialect, o: string, st: State, id: LicenseId, s: nat, e: nat)
    requires reg.Valid() && PlainId(reg, id) && Inv(st) && OperandExpected(st.last)
    requires s <= e < 0x1_0000_0000
    ensures Feed(reg, d, o, st, Tok(License(id), s, e))
      == Ok(State(st.ops, st.queue + [Req(Plain(id, s, e))], Some(License(id))))
    ensures Inv(State(st.ops, st.queue + [Req(Plain(id, s, e))], Some(License(id))))
  {
    var lt := Tok(License(id), s, e);
    PlainOperand(reg, d, id);
    assert ReqSpan(lt) == Span(s, e);
    assert Feed(reg, d, o, st, lt) == Ok(PushReq(st, OperandReq(reg, d, lt.token), lt));
    FeedKeepsInv(reg, d, o, st, lt);
  }

  /** AND or OR after a complete operand. */
  lemma FeedBinop(reg: Registry, d: Dialect, o: string, st: State, lt: LexerToken)
    requires reg.Valid() && Inv(st) && OperandComplete(st.last) && (lt.token.And? || lt.token.Or?)
    ensures Feed(reg, d, o, st, lt) == Ok(PushBinop(st, if lt.token.And? then AndOp else OrOp, lt))
    ensures Inv(PushBinop(st, if lt.token.And? then AndOp else OrOp, lt))
  {
    FeedKeepsInv(reg, d, o, st, lt);
  }

  /** Feeding the rest of a stream after a successful first step. */
  lemma RunThen(reg: Registry, d: Dialect, o: string, st: State, toks: seq<LexerToken>, next: State)
    requires reg.Valid() && Inv(st) && AllKnown(reg, toks) && |toks| > 0
    requires Feed(reg, d, o, st, toks[0]) == Ok(next)
    ensures Inv(next) && AllKnown(reg, toks[1..])
    ensures Run(reg, d, o, st, toks) == Run(reg, d, o, next, toks[1..])
  {
    RunCons(reg, d, o, st, toks);
  }

  /** The end of a stream after a complete operand with no `(` pending:
      the stacked operators are popped, topmost first. */
  lemma FinishClosed(o: string, st: State)
    requires Inv(st) && OperandComplete(st.last) && TopOpen(st.ops).None?
    ensures Finish(o, st) == Ok(st.queue + Unwind(st.ops))
  {
  }

  /** A plain identifier where an operand may start, then the rest. */
  lemma RunPlain(reg: Registry, d: Dialect, o: string, st: State, id: LicenseId, s: nat, e: nat,
                 rest: seq<LexerToken>)
    requires reg.Valid() && PlainId(reg, id) && Inv(st) && OperandExpected(st.last) && AllKnown(reg, rest)
    requires s <= e < 0x1_0000_0000
    ensures var next := State(st.ops, st.queue + [Req(Plain(id, s, e))], Some(License(id)));
      && Inv(next) && AllKnown(reg, [Tok(License(id), s, e)] + rest)
      && Run(reg, d, o, st, [Tok(License(id), s, e)] + rest) == Run(reg, d, o, next, rest)
  {
    var toks := [Tok(License(id), s, e)] + rest;
    assert toks[1..] == rest;
    FeedPlain(reg, d, o, st, id, s, e);
    RunThen(reg, d, o, st, toks, State(st.ops, st.queue + [Req(Plain(id, s, e))], Some(License(id))));
  }

  /** AND or OR after a complete operand, then the rest. */
  lemma RunBinop(reg: Registry, d: Dialect, o: string, st: State, lt: LexerToken, rest: seq<LexerToken>)
    requires reg.Valid() && Inv(st) && OperandComplete(st.last) && (lt.token.And? || lt.token.Or?)
    requires AllKnown(reg, rest)
    ensures var next := PushBinop(st, if lt.token.And? then AndOp else OrOp, lt);
      && Inv(next) && AllKnown(reg, [lt] + rest)
      && Run(reg, d, o, st, [lt] + rest) == Run(reg, d, o, next, rest)
  {
    var toks := [lt] + rest;
    assert toks[1..] == rest;
    FeedBinop(reg, d, o, st, lt);
    RunThen(reg, d, o, st, toks, PushBinop(st, if lt.token.And? then AndOp else OrOp, lt));
  }

  /** The first two tokens of `A OR B AND C`: an operand, then OR. */
  lemma OrAndHead(reg: Registry, d: Dialect, o: string, a: LicenseId, rest: seq<LexerToken>)
    requires reg.Valid() && PlainId(reg, a) && AllKnown(reg, rest)
    ensures var s2 := State([PendingOp(OrOp, Span(2, 4))], [Req(Plain(a, 0, 1))], Some(Token.Or));
      && Inv(s2)
      && AllKnown(reg, [Tok(License(a), 0, 1), Tok(Token.Or, 2, 4)] + rest)
      && Run(reg, d, o, Start, [Tok(License(a), 0, 1), Tok(Token.Or, 2, 4)] + rest) == Run(reg, d, o, s2, rest)
  {
    var t1 := Tok(Token.Or, 2, 4);
    var ra := Req(Plain(a, 0, 1));
    var s1 := State([], [ra], Some(License(a)));
    var r0 := [t1] + rest;
    RunPlain(reg, d, o, Start, a, 0, 1, r0);
    assert [] + [ra] == [ra];
    RunBinop(reg, d, o, s1, t1, rest);
    assert PushBinop(s1, OrOp, t1) == State([PendingOp(OrOp, Span(2, 4))], [ra], Some(Token.Or));
    assert [Tok(License(a), 0, 1)] + r0 == [Tok(License(a), 0, 1), t1] + rest;
  }

  /** The first three tokens of `A OR B AND C`: two operands around OR. */
  lemma OrAndPrefix(reg: Registry, d: Dialect, o: string, a: LicenseId, b: LicenseId, rest: seq<LexerToken>)
    requires reg.Valid() && PlainId(reg, a) && PlainId(reg, b) && AllKnown(reg, rest)
    ensures var s3 := State([PendingOp(OrOp, Span(2, 4))], [Req(Plain(a, 0, 1)), Req(Plain(b, 5, 6))], Some(License(b)));
      && Inv(s3)
      && AllKnown(reg, [Tok(License(a), 0, 1), Tok(Token.Or, 2, 4), Tok(License(b), 5, 6)] + rest)
      && Run(reg, d, o, Start, [Tok(License(a), 0, 1), Tok(Token.Or, 2, 4), Tok(License(b), 5, 6)] + rest)
         == Run(reg, d, o, s3, rest)
  {
    var ra := Req(Plain(a, 0, 1));
    var s2 := State([PendingOp(OrOp, Span(2, 4))], [ra], Some(Token.Or));
    KnownCons(reg, Tok(License(b), 5, 6), rest);
    OrAndHead(reg, d, o, a, [Tok(License(b), 5, 6)] + rest);
    RunPlain(reg, d, o, s2, b, 5, 6, rest);
    ConsThree(Tok(License(a), 0, 1), Tok(Token.Or, 2, 4), Tok(License(b), 5, 6), rest);
    assert [ra] + [Req(Plain(b, 5, 6))] == [ra, Req(Plain(b, 5, 6))];
  }

  /** A known token in front of known tokens. */
  lemma KnownCons(reg: Registry, t: LexerToken, rest: seq<LexerToken>)
    requires Known(reg, t.token) && AllKnown(reg, rest)
    ensures AllKnown(reg, [t] + rest)
  {
    assert ([t] + rest)[1..] == rest;
  }

  /** Three leading elements: the last of them can be moved into the tail. */
  lemma ConsThree<T>(x: T, y: T, z: T, rest: seq<T>)
    ensures [x, y] + ([z] + rest) == [x, y, z] + rest
  {
  }

  /** The last two tokens of `A OR B AND C`: the AND is stacked above the
      OR, since AND binds tighter. */
  lemma OrAndSuffix(reg: Registry, d: Dialect, o: string, a: LicenseId, b: LicenseId, c: LicenseId)
    requires reg.Valid() && PlainId(reg, a) && PlainId(reg, b) && PlainId(reg, c)
    ensures var s3 := State([PendingOp(OrOp, Span(2, 4))], [Req(Plain(a, 0, 1)), Req(Plain(b, 5, 6))], Some(License(b)));
      && AllKnown(reg, [Tok(Token.And, 7, 10), Tok(License(c), 11, 12)])
      && (Inv(s3) ==>
          Run(reg, d, o, s3, [Tok(Token.And, 7, 10), Tok(License(c), 11, 12)])
          == Ok(State([PendingOp(OrOp, Span(2, 4)), PendingOp(AndOp, Span(7, 10))],
                      [Req(Plain(a, 0, 1)), Req(Plain(b, 5, 6)), Req(Plain(c, 11, 12))], Some(License(c)))))
  {
    var t3, t4 := Tok(Token.And, 7, 10), Tok(License(c), 11, 12);
    var ra, rb, rc := Req(Plain(a, 0, 1)), Req(Plain(b, 5, 6)), Req(Plain(c, 11, 12));
    var orOp, andOp := PendingOp(OrOp, Span(2, 4)), PendingOp(AndOp, Span(7, 10));
    var s3 := State([orOp], [ra, rb], Some(License(b)));
    var s4 := State([orOp, andOp], [ra, rb], Some(Token.And));
    var r4: seq<LexerToken> := [];
    assert AllKnown(reg, r4);
    assert [t4] + r4 == [t4];
    if Inv(s3) {
      OrAndPushAnd(reg, d, o, a, b, [t4]);
      RunPlain(reg, d, o, s4, c, 11, 12, r4);
      assert [ra, rb] + [rc] == [ra, rb, rc];
    } else {
      RunPlain(reg, d, o, State([], [], Some(Token.And)), c, 11, 12, r4);
    }
  }

  /** The AND of `A OR B AND C` goes on the stack above the OR. */
  lemma OrAndPushAnd(reg: Registry, d: Dialect, o: string, a: LicenseId, b: LicenseId, rest: seq<LexerToken>)
    requires reg.Valid() && AllKnown(reg, rest)
    requires Inv(State([PendingOp(OrOp, Span(2, 4))], [Req(Plain(a, 0, 1)), Req(Plain(b, 5, 6))], Some(License(b))))
    ensures var s3 := State([PendingOp(OrOp, Span(2, 4))], [Req(Plain(a, 0, 1)), Req(Plain(b, 5, 6))], Some(License(b)));
      var s4 := State([PendingOp(OrOp, Span(2, 4)), PendingOp(AndOp, Span(7, 10))],
                      [Req(Plain(a, 0, 1)), Req(Plain(b, 5, 6))], Some(Token.And));
      && Inv(s4) && AllKnown(reg, [Tok(Token.And, 7, 10)] + rest)
      && Run(reg, d, o, s3, [Tok(Token.And, 7, 10)] + rest) == Run(reg, d, o, s4, rest)
  {
    var t3 := Tok(Token.And, 7, 10);
    var orOp := PendingOp(OrOp, Span(2, 4));
    var s3 := State([orOp], [Req(Plain(a, 0, 1)), Req(Plain(b, 5, 6))], Some(License(b)));
    RunBinop(reg, d, o, s3, t3, rest);
    assert TighterStart([orOp], AndOp) == 1;
    assert PushBinop(s3, AndOp, t3) == State([orOp, PendingOp(AndOp, Span(7, 10))],
                                             [Req(Plain(a, 0, 1)), Req(Plain(b, 5, 6))], Some(Token.And));
  }

  /** `A OR B AND C` is fed without error: the OR waits on the stack
      below the AND. */
  lemma OrAndRun(reg: Registry, d: Dialect, o: string, a: LicenseId, b: LicenseId, c: LicenseId)
    requires reg.Valid() && PlainId(reg, a) && PlainId(reg, b) && PlainId(reg, c)
    ensures var toks := [Tok(License(a), 0, 1), Tok(Token.Or, 2, 4), Tok(License(b), 5, 6), Tok(Token.And, 7, 10),
                         Tok(License(c), 11, 12)];
      && AllKnown(reg, toks)
      && Run(reg, d, o, Start, toks)
         == Ok(State([PendingOp(OrOp, Span(2, 4)), PendingOp(AndOp, Span(7, 10))],
                     [Req(Plain(a, 0, 1)), Req(Plain(b, 5, 6)), Req(Plain(c, 11, 12))], Some(License(c))))
  {
    var rest := [Tok(Token.And, 7, 10), Tok(License(c), 11, 12)];
    OrAndSuffix(reg, d, o, a, b, c);
    OrAndPrefix(reg, d, o, a, b, rest);
    assert [Tok(License(a), 0, 1), Tok(Token.Or, 2, 4), Tok(License(b), 5, 6)] + rest
      == [Tok(License(a), 0, 1), Tok(Token.Or, 2, 4), Tok(License(b), 5, 6), Tok(Token.And, 7, 10), Tok(License(c), 11, 12)];
  }

  /** The tree of `A OR B AND C`: AND below OR. */
  function OrAndTree(a: LicenseId, b: LicenseId, c: LicenseId): Tree {
    Node(Operator.Or, Leaf(Plain(a, 0, 1)), Node(Operator.And, Leaf(Plain(b, 5, 6)), Leaf(Plain(c, 11, 12))))
  }

  /** The stacked operators of `A OR B AND C` are popped AND first. */
  lemma OrAndFinish(o: string, a: LicenseId, b: LicenseId, c: LicenseId)
    ensures var s5 := State([PendingOp(OrOp, Span(2, 4)), PendingOp(AndOp, Span(7, 10))],
                            [Req(Plain(a, 0, 1)), Req(Plain(b, 5, 6)), Req(Plain(c, 11, 12))], Some(License(c)));
      Inv(s5) ==> Finish(o, s5) == Ok(Postfix(OrAndTree(a, b, c)))
  {
    var ra, rb, rc := Req(Plain(a, 0, 1)), Req(Plain(b, 5, 6)), Req(Plain(c, 11, 12));
    var orOp, andOp := PendingOp(OrOp, Span(2, 4)), PendingOp(AndOp, Span(7, 10));
    var s5 := State([orOp, andOp], [ra, rb, rc], Some(License(c)));
    if Inv(s5) {
      assert TopOpen([orOp]) == None;
      assert TopOpen([orOp, andOp]) == None;
      FinishClosed(o, s5);
      assert Unwind([orOp, andOp]) == [Op(Operator.And), Op(Operator.Or)];
      OrAndPostfix(a, b, c);
    }
  }

  lemma OrAndPostfix(a: LicenseId, b: LicenseId, c: LicenseId)
    ensures Postfix(OrAndTree(a, b, c))
      == [Req(Plain(a, 0, 1)), Req(Plain(b, 5, 6)), Req(Plain(c, 11, 12))] + [Op(Operator.And), Op(Operator.Or)]
  {
    var ra, rb, rc := Req(Plain(a, 0, 1)), Req(Plain(b, 5, 6)), Req(Plain(c, 11, 12));
    var inner := Node(Operator.And, Leaf(Plain(b, 5, 6)), Leaf(Plain(c, 11, 12)));
    assert Postfix(inner) == [rb, rc, Op(Operator.And)];
  }

  /** `A OR B AND C`: AND binds tighter, so the postfix is `A B C AND OR`
      and the value is `A || (B && C)`. */
  lemma AndBindsTighterThanOr(reg: Registry, d: Dialect, o: string, a: LicenseId, b: LicenseId, c: LicenseId,
                              pred: LicenseReq -> bool)
    requires reg.Valid() && PlainId(reg, a) && PlainId(reg, b) && PlainId(reg, c)
    ensures var toks := [Tok(License(a), 0, 1), Tok(Token.Or, 2, 4), Tok(License(b), 5, 6), Tok(Token.And, 7, 10),
                         Tok(License(c), 11, 12)];
      && AllKnown(reg, toks)
      && ParseTokens(reg, d, o, toks, None) == Ok(Postfix(OrAndTree(a, b, c)))
      && Evaluate(Postfix(OrAndTree(a, b, c)), pred)
         == (pred(LicenseReq(Spdx(a, false), None))
             || (pred(LicenseReq(Spdx(b, false), None)) && pred(LicenseReq(Spdx(c, false), None))))
  {
    OrAndParse(reg, d, o, a, b, c);
    OrAndValue(a, b, c, pred);
  }

  /** The tokens of `A OR B AND C` parse to the postfix of the tree with
      AND below OR. */
  lemma OrAndParse(reg: Registry, d: Dialect, o: string, a: LicenseId, b: LicenseId, c: LicenseId)
    requires reg.Valid() && PlainId(reg, a) && PlainId(reg, b) && PlainId(reg, c)
    ensures var toks := [Tok(License(a), 0, 1), Tok(Token.Or, 2, 4), Tok(License(b), 5, 6), Tok(Token.And, 7, 10),
                         Tok(License(c), 11, 12)];
      && AllKnown(reg, toks)
      && ParseTokens(reg, d, o, toks, None) == Ok(Postfix(OrAndTree(a, b, c)))
  {
    OrAndRun(reg, d, o, a, b, c);
    OrAndFinish(o, a, b, c);
  }

  /** The value of that postfix is `A || (B && C)`. */
  lemma OrAndValue(a: LicenseId, b: LicenseId, c: LicenseId, pred: LicenseReq -> bool)
    ensures WellFormed(Postfix(OrAndTree(a, b, c)))
    ensures Evaluate(Postfix(OrAndTree(a, b, c)), pred)
      == (pred(LicenseReq(Spdx(a, false), None))
          || (pred(LicenseReq(Spdx(b, false), None)) && pred(LicenseReq(Spdx(c, false), None))))
  {
    var inner := Node(Operator.And, Leaf(Plain(b, 5, 6)), Leaf(Plain(c, 11, 12)));
    EvaluatePostfix(OrAndTree(a, b, c), pred);
    assert Value(inner, pred) == (pred(LicenseReq(Spdx(b, false), None)) && pred(LicenseReq(Spdx(c, false), None)));
  }

  /** `()`: the `)` comes where an operand or `(` was expected, and the
      report points at the `)` (tests/validation.rs). */
  lemma EmptyParens(reg: Registry, d: Dialect, o: string)
    requires reg.Valid()
    ensures var toks := [Tok(OpenParen, 0, 1), Tok(CloseParen, 1, 2)];
      && AllKnown(reg, toks)
      && ParseTokens(reg, d, o, toks, None) == Err(ParseError(o, Span(1, 2), Unexpected(["<license>", "("])))
  {
    var toks := [Tok(OpenParen, 0, 1), Tok(CloseParen, 1, 2)];
    var s1 := State([PendingOp(Open, Span(0, 1))], [], Some(OpenParen));
    assert toks[1..] == [Tok(CloseParen, 1, 2)];
    assert [] + [PendingOp(Open, Span(0, 1))] == [PendingOp(Open, Span(0, 1))];
    RunThen(reg, d, o, Start, toks, s1);
    assert Run(reg, d, o, s1, toks[1..]) == Err(Unexpect(o, s1.last, Span(1, 2)));
  }

  /** `AND` alone: an operator where an operand was expected. */
  lemma LoneOperator(reg: Registry, d: Dialect, o: string)
    requires reg.Valid()
    ensures && AllKnown(reg, [Tok(Token.And, 0, 3)])
      && ParseTokens(reg, d, o, [Tok(Token.And, 0, 3)], None)
         == Err(ParseError(o, Span(0, 3), Unexpected(["<license>", "("])))
  {
    assert [Tok(Token.And, 0, 3)][1..] == [];
  }

  /** `(Apache-2.0`: the operand is complete but the `(` is still open, so
      the report points at the `(`. */
  lemma UnclosedParen(reg: Registry, d: Dialect, o: string, a: LicenseId, n: nat)
    requires reg.Valid() && PlainId(reg, a) && 1 <= n < 0x1_0000_0000
    ensures var toks := [Tok(OpenParen, 0, 1), Tok(License(a), 1, n)];
      && AllKnown(reg, toks)
      && ParseTokens(reg, d, o, toks, None) == Err(ParseError(o, Span(0, 1), UnclosedParens))
  {
    var toks := [Tok(OpenParen, 0, 1), Tok(License(a), 1, n)];
    var s1 := State([PendingOp(Open, Span(0, 1))], [], Some(OpenParen));
    assert [] + [PendingOp(Open, Span(0, 1))] == [PendingOp(Open, Span(0, 1))];
    RunThen(reg, d, o, Start, toks, s1);
    RunPlain(reg, d, o, s1, a, 1, n, []);
    assert [Tok(License(a), 1, n)] + [] == toks[1..];
    var s2 := State(s1.ops, s1.queue + [Req(Plain(a, 1, n))], Some(License(a)));
    assert TopOpen(s2.ops) == Some(0);
  }

  /** `+` right after a license identifier. */
  lemma FeedPlusAfterLicense(reg: Registry, d: Dialect, o: string, st: State, lt: LexerToken)
    requires reg.Valid() && Inv(st) && st.last.Some? && st.last.value.License? && lt.token.Plus?
    ensures LastIsSpdx(st.queue) && Feed(reg, d, o, st, lt) == PlusStep(d, o, st, lt)
  {
  }

  /** The first step on a GNU identifier at `0..n` queues its requirement. */
  lemma FeedGnuFirst(reg: Registry, d: Dialect, o: string, g: LicenseId, n: nat)
    requires reg.Valid() && reg.HasLicense(g) && g.IsGnu() && 1 <= n < 0x1_0000_0000
    ensures var s1 := State([], [Req(ExpressionReq(OperandReq(reg, d, License(g)), Span(0, n)))], Some(License(g)));
      Feed(reg, d, o, Start, Tok(License(g), 0, n)) == Ok(s1) && Inv(s1)
  {
    var lt := Tok(License(g), 0, n);
    FeedLicense(reg, d, o, Start, lt);
    PushFirst(OperandReq(reg, d, License(g)), lt);
  }

  /** A license token where an operand may start queues its requirement. */
  lemma FeedLicense(reg: Registry, d: Dialect, o: string, st: State, lt: LexerToken)
    requires reg.Valid() && Known(reg, lt.token) && Inv(st) && lt.token.License? && OperandExpected(st.last)
    ensures Feed(reg, d, o, st, lt) == Ok(PushReq(st, OperandReq(reg, d, lt.token), lt))
    ensures Inv(PushReq(st, OperandReq(reg, d, lt.token), lt))
  {
    FeedKeepsInv(reg, d, o, st, lt);
  }

  /** The first requirement queued on an empty state, for a token inside
      the `u32` range. */
  lemma PushFirst(req: LicenseReq, lt: LexerToken)
    requires lt.start <= lt.end < 0x1_0000_0000
    ensures PushReq(Start, req, lt) == State([], [Req(ExpressionReq(req, Span(lt.start, lt.end)))], Some(lt.token))
  {
    U32Below(lt.start);
    U32Below(lt.end);
    assert [] + [Req(ExpressionReq(req, Span(lt.start, lt.end)))] == [Req(ExpressionReq(req, Span(lt.start, lt.end)))];
  }

  /** A GNU identifier with no version suffix and a trailing `+`
      (`GPL-2.0+`): the strict mode reports the `+`, the lax mode and the
      earlier parser set "or later" on the identifier (tests/check.rs). */
  lemma GnuPlusByMode(reg: Registry, o: string, g: LicenseId, n: nat)
    requires reg.Valid() && BareGnu(reg, g, n)
    ensures var toks := [Tok(License(g), 0, n), Tok(Plus, n, n + 1)];
      && AllKnown(reg, toks)
      && ParseTokens(reg, Current(Strict), o, toks, None) == Err(ParseError(o, Span(n, n + 1), GnuNoPlus))
      && ParseTokens(reg, Current(Lax), o, toks, None)
         == Ok([Req(ExpressionReq(LicenseReq(Spdx(g, true), None), Span(0, n)))])
      && ParseTokens(reg, Legacy, o, toks, None)
         == Ok([Req(ExpressionReq(LicenseReq(Spdx(g, true), None), Span(0, n)))])
  {
    GnuPlusRejected(reg, Current(Strict), o, g, n);
    GnuPlusAccepted(reg, Current(Lax), o, g, n);
    GnuPlusAccepted(reg, Legacy, o, g, n);
  }

  /** `g` is a GNU identifier of the table with no version suffix and no
      trailing `+` (such as `GPL-2.0`), written at `0..n`. */
  predicate BareGnu(reg: Registry, g: LicenseId, n: nat) {
    && reg.HasLicense(g) && g.IsGnu() && 1 <= n && n + 1 < 0x1_0000_0000
    && GnuRoot(g.name) == g.name && TrimEndPlus(g.name) == g.name
  }

  /** The state after a GNU identifier with no version suffix at `0..n`. */
  function GnuQueued(g: LicenseId, n: nat): State {
    State([], [Req(ExpressionReq(LicenseReq(Spdx(g, false), None), Span(0, n)))], Some(License(g)))
  }

  /** Parsing `g+` comes down to the `+` step on the queued identifier. */
  lemma GnuPlusSetup(reg: Registry, d: Dialect, o: string, g: LicenseId, n: nat)
    requires reg.Valid() && BareGnu(reg, g, n)
    ensures var toks := [Tok(License(g), 0, n), Tok(Plus, n, n + 1)];
      && AllKnown(reg, toks) && Inv(GnuQueued(g, n)) && LastIsSpdx(GnuQueued(g, n).queue)
      && ParseTokens(reg, d, o, toks, None)
         == match PlusStep(d, o, GnuQueued(g, n), Tok(Plus, n, n + 1))
            case Err(e) => Err(e)
            case Ok(s2) => Finish(o, s2)
  {
    GnuRunFirst(reg, d, o, g, n);
    GnuRunPlus(reg, d, o, g, n);
  }

  /** A bare GNU identifier stands for itself, without "or later", in every
      dialect. */
  lemma GnuOperand(reg: Registry, d: Dialect, g: LicenseId, n: nat)
    requires reg.Valid() && BareGnu(reg, g, n)
    ensures OperandReq(reg, d, License(g)) == LicenseReq(Spdx(g, false), None)
  {
    if d.Current? {
      LookupOwnName(reg, g);
    }
  }

  /** The identifier of `g+` is queued by the first step. */
  lemma GnuRunFirst(reg: Registry, d: Dialect, o: string, g: LicenseId, n: nat)
    requires reg.Valid() && BareGnu(reg, g, n)
    ensures var toks := [Tok(License(g), 0, n), Tok(Plus, n, n + 1)];
      && AllKnown(reg, toks) && Inv(GnuQueued(g, n))
      && Run(reg, d, o, Start, toks) == Run(reg, d, o, GnuQueued(g, n), [Tok(Plus, n, n + 1)])
  {
    var lt, tp := Tok(License(g), 0, n), Tok(Plus, n, n + 1);
    var toks := [lt, tp];
    GnuOperand(reg, d, g, n);
    FeedGnuFirst(reg, d, o, g, n);
    KnownCons(reg, tp, []);
    KnownCons(reg, lt, [tp]);
    assert [lt] + [tp] == toks;
    assert toks[1..] == [tp];
    RunThen(reg, d, o, Start, toks, GnuQueued(g, n));
  }

  /** The `+` of `g+` is the `+` step on the queued identifier. */
  lemma GnuRunPlus(reg: Registry, d: Dialect, o: string, g: LicenseId, n: nat)
    requires reg.Valid() && BareGnu(reg, g, n) && Inv(GnuQueued(g, n))
    ensures LastIsSpdx(GnuQueued(g, n).queue)
    ensures AllKnown(reg, [Tok(Plus, n, n + 1)])
    ensures Run(reg, d, o, GnuQueued(g, n), [Tok(Plus, n, n + 1)]) == PlusStep(d, o, GnuQueued(g, n), Tok(Plus, n, n + 1))
  {
    var tp := Tok(Plus, n, n + 1);
    var s1 := GnuQueued(g, n);
    KnownCons(reg, tp, []);
    assert [tp] + [] == [tp];
    FeedPlusAfterLicense(reg, d, o, s1, tp);
    RunCons(reg, d, o, s1, [tp]);
    assert [tp][1..] == [];
  }

  /** The `+` is refused where the mode forbids it on GNU identifiers. */
  lemma GnuPlusRejected(reg: Registry, d: Dialect, o: string, g: LicenseId, n: nat)
    requires reg.Valid() && BareGnu(reg, g, n)
    requires d.Current? && !d.mode.allowPostfixPlusOnGpl
    ensures var toks := [Tok(License(g), 0, n), Tok(Plus, n, n + 1)];
      && AllKnown(reg, toks)
      && ParseTokens(reg, d, o, toks, None) == Err(ParseError(o, Span(n, n + 1), GnuNoPlus))
  {
    GnuPlusSetup(reg, d, o, g, n);
    PlusRefused(d, o, g, n);
  }

  /** The `+` step itself, on a queued GNU identifier, where the mode
      forbids it. */
  lemma PlusRefused(d: Dialect, o: string, g: LicenseId, n: nat)
    requires g.IsGnu() && n + 1 < 0x1_0000_0000
    requires d.Current? && !d.mode.allowPostfixPlusOnGpl
    ensures LastIsSpdx(GnuQueued(g, n).queue)
    ensures PlusStep(d, o, GnuQueued(g, n), Tok(Plus, n, n + 1)) == Err(ParseError(o, Span(n, n + 1), GnuNoPlus))
  {
  }

  /** Elsewhere the `+` sets "or later" on the queued identifier. */
  lemma GnuPlusAccepted(reg: Registry, d: Dialect, o: string, g: LicenseId, n: nat)
    requires reg.Valid() && BareGnu(reg, g, n)
    requires !(d.Current? && !d.mode.allowPostfixPlusOnGpl)
    ensures var toks := [Tok(License(g), 0, n), Tok(Plus, n, n + 1)];
      && AllKnown(reg, toks)
      && ParseTokens(reg, d, o, toks, None) == Ok([Req(ExpressionReq(LicenseReq(Spdx(g, true), None), Span(0, n)))])
  {
    GnuPlusSetup(reg, d, o, g, n);
    var s1 := GnuQueued(g, n);
    var s2 := State([], [Req(ExpressionReq(LicenseReq(Spdx(g, true), None), Span(0, n)))], Some(Plus));
    assert Retop(s1.queue, LicenseReq(Spdx(g, true), None)) == s2.queue;
    assert PlusStep(d, o, s1, Tok(Plus, n, n + 1)) == Ok(s2);
    assert TopOpen(s2.ops) == None;
    FinishClosed(o, s2);
    assert s2.queue + Unwind([]) == s2.queue;
  }

  /** The parse fails as an empty expression exactly when the input is
      blank (the `""` and `" "` cases), and the report then spans the whole
      input. */
  lemma EmptyIffBlank(reg: Registry, d: Dialect, text: string)
    requires reg.Valid()
    ensures (Parse(reg, d, text).Err? && Parse(reg, d, text).error.reason == Empty) <==> AllWhitespace(text, 0, |text|)
    ensures AllWhitespace(text, 0, |text|) ==> Parse(reg, d, text) == Err(ParseError(text, Span(0, |text|), Empty))
  {
    var lexed := Lex(reg, text);
    LexedKnown(reg, text);
    if Parse(reg, d, text).Err? && Parse(reg, d, text).error.reason == Empty {
      var run := Run(reg, d, text, Start, lexed.tokens);
      assert run.Ok?;
      assert lexed.error.None?;
      assert run.value.last.None?;
      assert lexed.tokens == [];
    }
  }
}

=== FILE: parser.dfy ===
/** The shunting-yard parser that turns a token stream into postfix
    requirement and operator nodes (src/expression/parser.rs), and the
    earlier variant of it (src/parser.rs). Operators wait on a stack
    ordered AND < OR < `(`; requirements go straight to the output queue.
    The previous token alone decides which tokens may come next. */
module Parser {
  import opened Common
  import opened Registry
  import opened Items
  import opened Errors
  import opened Lexer
  import opened Expression

  /** The two switches of `ParseMode` the parsers and `Licensee` read. */
  datatype ParseMode = ParseMode(allowPostfixPlusOnGpl: bool, allowDeprecated: bool)

  const Strict := ParseMode(false, false)
  const Lax := ParseMode(true, true)

  /** Which parser runs: the current one in a mode, or the earlier one,
      which keeps identifiers as written and puts no restriction on `+`. */
  datatype Dialect = Current(mode: ParseMode) | Legacy

  /** A stacked operator; the derived order of the source is the order of
      the constructors. */
  datatype OpKind = AndOp | OrOp | Open

  function Rank(k: OpKind): nat {
    match k
    case AndOp => 0
    case OrOp => 1
    case Open => 2
  }

  datatype PendingOp = PendingOp(kind: OpKind, span: Span)

  /** The parser between two tokens: the operator stack, the output queue
      and the previous token. */
  datatype State = State(ops: seq<PendingOp>, queue: seq<ExprNode>, last: Option<Token>)

  const Start := State([], [], None)

  /** The `as u32` of a requirement's span offsets. */
  function U32(n: nat): nat {
    n % 0x1_0000_0000
  }

  function ReqSpan(lt: LexerToken): Span {
    Span(U32(lt.start), U32(lt.end))
  }

  function TokenSpan(lt: LexerToken): Span {
    Span(lt.start, lt.end)
  }

  /** The terms an error message lists as acceptable after `last`. */
  function Expected(last: Option<Token>): seq<string> {
    if last.None? then ["<license>", "("]
    else match last.value
      case And | Or | OpenParen => ["<license>", "("]
      case CloseParen => ["AND", "OR"]
      case Exception(_) | AdditionRef(_, _) => ["AND", "OR", ")"]
      case License(_) => ["AND", "OR", "WITH", ")", "+"]
      case LicenseRef(_, _) | Plus => ["AND", "OR", "WITH", ")"]
      case With => ["<exception>"]
  }

  /** An operand may start here: at the beginning, after AND, OR or `(`. */
  predicate OperandExpected(last: Option<Token>) {
    last.None? || last.value.And? || last.value.Or? || last.value.OpenParen?
  }

  /** An operand has just been completed. */
  predicate OperandComplete(last: Option<Token>) {
    last.Some? && (last.value.License? || last.value.LicenseRef? || last.value.CloseParen?
                   || last.value.Exception? || last.value.AdditionRef? || last.value.Plus?)
  }

  /** The adjacency grammar as a table: may `t` follow `last`? */
  predicate Follows(last: Option<Token>, t: Token) {
    match t
    case License(_) => OperandExpected(last)
    case LicenseRef(_, _) => OperandExpected(last)
    case OpenParen => OperandExpected(last)
    case Plus => last.Some? && last.value.License?
    case With => last.Some? && (last.value.License? || last.value.LicenseRef? || last.value.Plus?)
    case Exception(_) => last.Some? && last.value.With?
    case AdditionRef(_, _) => last.Some? && last.value.With?
    case And => OperandComplete(last)
    case Or => OperandComplete(last)
    case CloseParen => OperandComplete(last)
  }

  predicate IsBinop(p: PendingOp) {
    p.kind != Open
  }

  /** The number of AND/OR operators on the stack. */
  function Binops(ops: seq<PendingOp>): nat
    decreases |ops|
  {
    if |ops| == 0 then 0
    else Binops(ops[..|ops| - 1]) + (if IsBinop(ops[|ops| - 1]) then 1 else 0)
  }

  function OpNode(k: OpKind): ExprNode
    requires k != Open
  {
    Op(if k == AndOp then Operator.And else Operator.Or)
  }

  /** The nodes `apply_op` appends when the operators in `ops` are popped,
      topmost first. */
  function Unwind(ops: seq<PendingOp>): (r: seq<ExprNode>)
    requires forall i :: 0 <= i < |ops| ==> IsBinop(ops[i])
    ensures |r| == |ops|
    ensures forall i :: 0 <= i < |r| ==> IsBinop(ops[|ops| - 1 - i]) && r[i] == OpNode(ops[|ops| - 1 - i].kind)
    decreases |ops|
  {
    if |ops| == 0 then []
    else
      assert IsBinop(ops[|ops| - 1]);
      [OpNode(ops[|ops| - 1].kind)] + Unwind(ops[..|ops| - 1])
  }

  /** Where the popping before a new AND/OR stops: every operator above
      the returned position is strictly smaller than the new one and is not
      `(`; the one right below is `(` or not smaller. */
  function TighterStart(ops: seq<PendingOp>, k: OpKind): (j: nat)
    ensures j <= |ops|
    ensures forall i :: j <= i < |ops| ==> IsBinop(ops[i]) && Rank(ops[i].kind) < Rank(k)
    ensures j > 0 ==> !IsBinop(ops[j - 1]) || Rank(ops[j - 1].kind) >= Rank(k)
    decreases |ops|
  {
    if |ops| == 0 then 0
    else
      var top := ops[|ops| - 1];
      if top.kind == Open || Rank(top.kind) >= Rank(k) then |ops|
      else TighterStart(ops[..|ops| - 1], k)
  }

  /** The topmost `(` on the stack, if there is one. */
  function TopOpen(ops: seq<PendingOp>): (r: Option<nat>)
    ensures r.Some? ==> (r.value < |ops| && ops[r.value].kind == Open
                         && forall i :: r.value < i < |ops| ==> IsBinop(ops[i]))
    ensures r.None? ==> forall i :: 0 <= i < |ops| ==> IsBinop(ops[i])
    decreases |ops|
  {
    if |ops| == 0 then None
    else if ops[|ops| - 1].kind == Open then Some(|ops| - 1)
    else TopOpen(ops[..|ops| - 1])
  }

  /** The last queued node is a requirement. */
  predicate LastIsReq(q: seq<ExprNode>) {
    |q| > 0 && q[|q| - 1].Req?
  }

  /** The last queued node is a requirement on an SPDX identifier. */
  predicate LastIsSpdx(q: seq<ExprNode>) {
    LastIsReq(q) && q[|q| - 1].er.req.license.Spdx?
  }

  /** Replaces the requirement of the last queued node, keeping its span. */
  function Retop(q: seq<ExprNode>, req: LicenseReq): (r: seq<ExprNode>)
    requires LastIsReq(q)
    ensures |r| == |q| && r[..|r| - 1] == q[..|q| - 1]
    ensures r[|r| - 1] == Req(ExpressionReq(req, q[|q| - 1].er.span))
  {
    q[..|q| - 1] + [Req(ExpressionReq(req, q[|q| - 1].er.span))]
  }

  /** After these tokens the current requirement is the last queued node. */
  predicate LeavesReq(last: Option<Token>) {
    last.Some? && (last.value.License? || last.value.LicenseRef? || last.value.Plus? || last.value.With?)
  }

  /** What holds between tokens: the queue is a postfix prefix whose stack
      height is one per pending AND/OR, plus one once an operand is
      complete; a license, reference, `+` or WITH has its requirement last
      in the queue, and a license or `+` an SPDX one. */
  predicate Inv(st: State) {
    && PrefixesPositive(st.queue)
    && Depth(st.queue) == Binops(st.ops) + (if OperandExpected(st.last) then 0 else 1)
    && (LeavesReq(st.last) ==> LastIsReq(st.queue))
    && (st.last.Some? && (st.last.value.License? || st.last.value.Plus?) ==> LastIsSpdx(st.queue))
  }

  /** The tokens a parser can be given: license identifiers from the table. */
  predicate Known(reg: Registry, t: Token) {
    t.License? ==> reg.HasLicense(t.id)
  }

  /** Every token of the stream is one a parser can be given. */
  predicate AllKnown(reg: Registry, toks: seq<LexerToken>)
    decreases |toks|
  {
    |toks| == 0 || (Known(reg, toks[0].token) && AllKnown(reg, toks[1..]))
  }

  function Unexpect(original: string, last: Option<Token>, span: Span): ParseError {
    ParseError(original, span, Unexpected(Expected(last)))
  }

  /** The requirement a license or reference token stands for: the
      current parser rewrites GNU identifiers (`LicenseReq::from`), the
      earlier one keeps the identifier as written. */
  function OperandReq(reg: Registry, d: Dialect, t: Token): (r: LicenseReq)
    requires reg.Valid() && Known(reg, t) && (t.License? || t.LicenseRef?)
    ensures r.addition.None?
    ensures t.License? <==> r.license.Spdx?
    ensures t.LicenseRef? ==> r.license == Other(t.docRef, t.licRef)
  {
    if t.LicenseRef? then LicenseReq(Other(t.docRef, t.licRef), None)
    else if d.Legacy? then LicenseReq(Spdx(t.id, false), None)
    else ReqFromId(reg, t.id)
  }

  /** Queues a requirement for the token. */
  function PushReq(st: State, req: LicenseReq, lt: LexerToken): State {
    State(st.ops, st.queue + [Req(ExpressionReq(req, ReqSpan(lt)))], Some(lt.token))
  }

  /** AND/OR: pops the strictly smaller operators above the topmost `(`
      into the queue, then stacks the new one. */
  function PushBinop(st: State, k: OpKind, lt: LexerToken): State {
    var j := TighterStart(st.ops, k);
    State(st.ops[..j] + [PendingOp(k, TokenSpan(lt))], st.queue + Unwind(st.ops[j..]), Some(lt.token))
  }

  /** `+` after a license: sets "or later" on the queued requirement, unless
      the current parser rejects it on a GNU identifier. */
  function PlusStep(d: Dialect, original: string, st: State, lt: LexerToken): Result<State, ParseError>
    requires LastIsSpdx(st.queue)
  {
    var req := st.queue[|st.queue| - 1].er.req;
    if d.Current? && !d.mode.allowPostfixPlusOnGpl && req.license.id.IsGnu() then
      Err(ParseError(original, TokenSpan(lt), GnuNoPlus))
    else
      Ok(State(st.ops, Retop(st.queue, LicenseReq(Spdx(req.license.id, true), req.addition)), Some(lt.token)))
  }

  /** `)`: pops operators into the queue down to the topmost `(`, which is
      dropped; without one the parenthesis was never opened. */
  function CloseStep(original: string, st: State, lt: LexerToken): Result<State, ParseError> {
    match TopOpen(st.ops)
    case None => Err(ParseError(original, TokenSpan(lt), UnopenedParens))
    case Some(j) => Ok(State(st.ops[..j], st.queue + Unwind(st.ops[j + 1..]), Some(lt.token)))
  }

  /** An exception or addition after WITH attaches to the queued requirement. */
  function Attach(st: State, a: AdditionItem, lt: LexerToken): State
    requires LastIsReq(st.queue)
  {
    var req := st.queue[|st.queue| - 1].er.req;
    State(st.ops, Retop(st.queue, LicenseReq(req.license, Some(a))), Some(lt.token))
  }

  /** One iteration of the parsing loop, in the source's order of cases:
      the token decides the action, the previous token whether it is
      allowed. */
  function Feed(reg: Registry, d: Dialect, original: string, st: State, lt: LexerToken): (r: Result<State, ParseError>)
    requires reg.Valid() && Known(reg, lt.token) && Inv(st)
    ensures r.Ok? ==> r.value.last == Some(lt.token)
    ensures r.Err? ==> r.error.original == original
    ensures (r.Err? && r.error.reason.Unexpected?) <==> !Follows(st.last, lt.token)
    ensures !Follows(st.last, lt.token) ==> r == Err(Unexpect(original, st.last, TokenSpan(lt)))
    ensures (r.Err? && r.error.reason == GnuNoPlus) <==>
      (d.Current? && !d.mode.allowPostfixPlusOnGpl && lt.token.Plus? && Follows(st.last, lt.token)
       && st.queue[|st.queue| - 1].er.req.license.id.IsGnu())
    ensures (r.Err? && r.error.reason == UnopenedParens) <==>
      (lt.token.CloseParen? && Follows(st.last, lt.token) && TopOpen(st.ops).None?)
    ensures r.Err? ==> r.error.reason.Unexpected? || r.error.reason in {GnuNoPlus, UnopenedParens}
    ensures r.Err? && r.error.reason in {GnuNoPlus, UnopenedParens} ==> r.error.span == TokenSpan(lt)
  {
    var t := lt.token;
    var fail := Err(Unexpect(original, st.last, TokenSpan(lt)));
    match t
    case License(_) =>
      if OperandExpected(st.last) then Ok(PushReq(st, OperandReq(reg, d, t), lt)) else fail
    case LicenseRef(_, _) =>
      if OperandExpected(st.last) then Ok(PushReq(st, OperandReq(reg, d, t), lt)) else fail
    case Plus =>
      if st.last.Some? && st.last.value.License? then PlusStep(d, original, st, lt) else fail
    case With =>
      if st.last.Some? && (st.last.value.License? || st.last.value.LicenseRef? || st.last.value.Plus?) then
        Ok(State(st.ops, st.queue, Some(t)))
      else fail
    case And =>
      if OperandComplete(st.last) then Ok(PushBinop(st, AndOp, lt)) else fail
    case Or =>
      if OperandComplete(st.last) then Ok(PushBinop(st, OrOp, lt)) else fail
    case OpenParen =>
      if OperandExpected(st.last) then Ok(State(st.ops + [PendingOp(Open, TokenSpan(lt))], st.queue, Some(t)))
      else fail
    case CloseParen =>
      if OperandComplete(st.last) then CloseStep(original, st, lt) else fail
    case Exception(exc) =>
      if st.last.Some? && st.last.value.With? then Ok(Attach(st, AddSpdx(exc), lt)) else fail
    case AdditionRef(docRef, addRef) =>
      if st.last.Some? && st.last.value.With? then Ok(Attach(st, AddOther(docRef, addRef), lt)) else fail
  }
  lemma PushKeepsPositive(q: seq<ExprNode>, n: ExprNode)
    requires PrefixesPositive(q) && Depth(q) >= (if n.Req? then 0 else 2)
    ensures PrefixesPositive(q + [n])
    ensures Depth(q + [n]) == Depth(q) + (if n.Req? then 1 else -1)
  {
    assert (q + [n])[..|q|] == q;
  }

  lemma RetopKeepsPositive(q: seq<ExprNode>, req: LicenseReq)
    requires PrefixesPositive(q) && LastIsReq(q)
    ensures PrefixesPositive(Retop(q, req)) && Depth(Retop(q, req)) == Depth(q)
  {
    var r := Retop(q, req);
    assert r == q[..|q| - 1] + [r[|r| - 1]];
    PrefixesPositiveInit(q, |q| - 1);
    PushKeepsPositive(q[..|q| - 1], r[|r| - 1]);
  }

  /** Popping `ops` onto a queue with enough operands keeps every prefix
      positive and lowers the height by one per operator. */
  lemma {:induction false} UnwindKeepsPositive(q: seq<ExprNode>, ops: seq<PendingOp>)
    requires forall i :: 0 <= i < |ops| ==> IsBinop(ops[i])
    requires PrefixesPositive(q) && Depth(q) >= |ops| + 1
    ensures PrefixesPositive(q + Unwind(ops)) && Depth(q + Unwind(ops)) == Depth(q) - |ops|
    decreases |ops|
  {
    if |ops| > 0 {
      var init := ops[..|ops| - 1];
      var n := OpNode(ops[|ops| - 1].kind);
      assert Unwind(ops) == [n] + Unwind(init);
      assert q + Unwind(ops) == (q + [n]) + Unwind(init);
      PushKeepsPositive(q, n);
      UnwindKeepsPositive(q + [n], init);
    } else {
      assert q + Unwind(ops) == q;
    }
  }

  lemma {:induction false} BinopsAppend(a: seq<PendingOp>, b: seq<PendingOp>)
    ensures Binops(a + b) == Binops(a) + Binops(b)
    decreases |b|
  {
    if |b| == 0 {
      assert a + b == a;
    } else {
      assert (a + b)[..|a + b| - 1] == a + b[..|b| - 1];
      BinopsAppend(a, b[..|b| - 1]);
    }
  }

  lemma {:induction false} BinopsAll(ops: seq<PendingOp>)
    requires forall i :: 0 <= i < |ops| ==> IsBinop(ops[i])
    ensures Binops(ops) == |ops|
    decreases |ops|
  {
    if |ops| > 0 {
      BinopsAll(ops[..|ops| - 1]);
    }
  }

  /** Popping the operators above position `j` (none of them `(`) and
      pushing `pushed` keeps the invariant's height equation balanced. */
  lemma UnwindFrom(q: seq<PendingOp>, j: nat, pushed: seq<PendingOp>)
    requires j <= |q| && forall i :: j <= i < |q| ==> IsBinop(q[i])
    ensures Binops(q) == Binops(q[..j]) + |q[j..]|
    ensures Binops(q[..j] + pushed) == Binops(q[..j]) + Binops(pushed)
  {
    assert q == q[..j] + q[j..];
    BinopsAppend(q[..j], q[j..]);
    BinopsAll(q[j..]);
    BinopsAppend(q[..j], pushed);
  }

  lemma InvPushReq(st: State, req: LicenseReq, lt: LexerToken)
    requires Inv(st) && OperandExpected(st.last) && (lt.token.License? || lt.token.LicenseRef?)
    requires lt.token.License? ==> req.license.Spdx?
    ensures Inv(PushReq(st, req, lt))
  {
    PushKeepsPositive(st.queue, Req(ExpressionReq(req, ReqSpan(lt))));
  }

  lemma InvBinop(st: State, k: OpKind, j: nat, lt: LexerToken)
    requires Inv(st) && OperandComplete(st.last) && k != Open && (lt.token.And? || lt.token.Or?)
    requires j <= |st.ops| && forall i :: j <= i < |st.ops| ==> IsBinop(st.ops[i])
    ensures Inv(State(st.ops[..j] + [PendingOp(k, TokenSpan(lt))], st.queue + Unwind(st.ops[j..]), Some(lt.token)))
  {
    UnwindFrom(st.ops, j, [PendingOp(k, TokenSpan(lt))]);
    UnwindKeepsPositive(st.queue, st.ops[j..]);
  }

  lemma InvPushBinop(st: State, k: OpKind, lt: LexerToken)
    requires Inv(st) && OperandComplete(st.last) && k != Open && (lt.token.And? || lt.token.Or?)
    ensures Inv(PushBinop(st, k, lt))
  {
    InvBinop(st, k, TighterStart(st.ops, k), lt);
  }

  lemma InvPlusStep(d: Dialect, original: string, st: State, lt: LexerToken)
    requires Inv(st) && st.last.Some? && st.last.value.License? && lt.token.Plus?
    ensures PlusStep(d, original, st, lt).Ok? ==> Inv(PlusStep(d, original, st, lt).value)
  {
    var req := st.queue[|st.queue| - 1].er.req;
    var req' := LicenseReq(Spdx(req.license.id, true), req.addition);
    var q' := Retop(st.queue, req');
    if PlusStep(d, original, st, lt).Ok? {
      assert PlusStep(d, original, st, lt).value == State(st.ops, q', Some(Plus));
      RetopKeepsPositive(st.queue, req');
      assert LastIsSpdx(q');
    }
  }

  lemma InvAttach(st: State, a: AdditionItem, lt: LexerToken)
    requires Inv(st) && LastIsReq(st.queue) && st.last == Some(With)
    requires lt.token.Exception? || lt.token.AdditionRef?
    ensures Inv(Attach(st, a, lt))
  {
    var req := st.queue[|st.queue| - 1].er.req;
    var q' := Retop(st.queue, LicenseReq(req.license, Some(a)));
    assert Attach(st, a, lt) == State(st.ops, q', Some(lt.token));
    RetopKeepsPositive(st.queue, LicenseReq(req.license, Some(a)));
    assert !OperandExpected(Some(lt.token)) && !OperandExpected(st.last);
    assert !LeavesReq(Some(lt.token));
  }

  /** Counting the operators when the one at `j` is `(` and all above it
      are AND/OR. */
  lemma BinopsBelowOpen(ops: seq<PendingOp>, j: nat)
    requires j < |ops| && ops[j].kind == Open
    requires forall i :: j < i < |ops| ==> IsBinop(ops[i])
    ensures Binops(ops) == Binops(ops[..j]) + (|ops| - j - 1)
  {
    assert ops == ops[..j] + [ops[j]] + ops[j + 1..];
    BinopsAppend(ops[..j] + [ops[j]], ops[j + 1..]);
    BinopsAppend(ops[..j], [ops[j]]);
    BinopsAll(ops[j + 1..]);
  }

  lemma InvClose(st: State, j: nat)
    requires Inv(st) && OperandComplete(st.last)
    requires j < |st.ops| && st.ops[j].kind == Open
    requires forall i :: j < i < |st.ops| ==> IsBinop(st.ops[i])
    ensures Inv(State(st.ops[..j], st.queue + Unwind(st.ops[j + 1..]), Some(CloseParen)))
  {
    BinopsBelowOpen(st.ops, j);
    UnwindKeepsPositive(st.queue, st.ops[j + 1..]);
  }

  lemma InvCloseStep(original: string, st: State, lt: LexerToken)
    requires Inv(st) && OperandComplete(st.last) && lt.token.CloseParen?
    ensures CloseStep(original, st, lt).Ok? ==> Inv(CloseStep(original, st, lt).value)
  {
    if TopOpen(st.ops).Some? {
      InvClose(st, TopOpen(st.ops).value);
    }
  }

  /** Every step of the loop keeps the invariant. */
  lemma FeedKeepsInv(reg: Registry, d: Dialect, original: string, st: State, lt: LexerToken)
    requires reg.Valid() && Known(reg, lt.token) && Inv(st)
    ensures Feed(reg, d, original, st, lt).Ok? ==> Inv(Feed(reg, d, original, st, lt).value)
  {
    var t := lt.token;
    var r := Feed(reg, d, original, st, lt);
    if r.Ok? {
      match t
      case License(_) =>
        assert r.value == PushReq(st, OperandReq(reg, d, t), lt);
        InvPushReq(st, OperandReq(reg, d, t), lt);
      case LicenseRef(_, _) =>
        assert r.value == PushReq(st, OperandReq(reg, d, t), lt);
        InvPushReq(st, OperandReq(reg, d, t), lt);
      case Plus =>
        assert r == PlusStep(d, original, st, lt);
        InvPlusStep(d, original, st, lt);
      case With =>
      case And =>
        assert r.value == PushBinop(st, AndOp, lt);
        InvPushBinop(st, AndOp, lt);
      case Or =>
        assert r.value == PushBinop(st, OrOp, lt);
        InvPushBinop(st, OrOp, lt);
      case OpenParen =>
        BinopsAppend(st.ops, [PendingOp(Open, TokenSpan(lt))]);
      case CloseParen =>
        assert r == CloseStep(original, st, lt);
        InvCloseStep(original, st, lt);
      case Exception(exc) =>
        assert r.value == Attach(st, AddSpdx(exc), lt);
        InvAttach(st, AddSpdx(exc), lt);
      case AdditionRef(docRef, addRef) =>
        assert r.value == Attach(st, AddOther(docRef, addRef), lt);
        InvAttach(st, AddOther(docRef, addRef), lt);
    }
  }

  /** Feeds the tokens in order, stopping at the first error. */
  function Run(reg: Registry, d: Dialect, original: string, st: State, toks: seq<LexerToken>): (r: Result<State, ParseError>)
    requires reg.Valid() && Inv(st) && AllKnown(reg, toks)
    ensures r.Ok? ==> Inv(r.value)
    ensures r.Ok? ==> r.value.last == if |toks| == 0 then st.last else Some(toks[|toks| - 1].token)
    ensures r.Err? ==> r.error.original == original
    ensures r.Err? ==> r.error.reason.Unexpected? || r.error.reason in {GnuNoPlus, UnopenedParens}
    decreases |toks|
  {
    if |toks| == 0 then Ok(st)
    else
      FeedKeepsInv(reg, d, original, st, toks[0]);
      match Feed(reg, d, original, st, toks[0])
      case Err(e) => Err(e)
      case Ok(st') => Run(reg, d, original, st', toks[1..])
  }

  lemma {:induction false} OpsHaveNoRequirements(s: seq<ExprNode>)
    requires forall i :: 0 <= i < |s| ==> s[i].Op?
    ensures Requirements(s) == []
    decreases |s|
  {
    if |s| > 0 {
      OpsHaveNoRequirements(s[..|s| - 1]);
    }
  }

  /** Popping operators into the queue adds no requirement. */
  lemma UnwindKeepsRequirements(q: seq<ExprNode>, ops: seq<PendingOp>)
    requires forall i :: 0 <= i < |ops| ==> IsBinop(ops[i])
    ensures Requirements(q + Unwind(ops)) == Requirements(q)
  {
    RequirementsAppend(q, Unwind(ops));
    OpsHaveNoRequirements(Unwind(ops));
    assert Requirements(q) + [] == Requirements(q);
  }

  /** The end of input: the last token must complete an operand (no token
      at all is an empty expression); the remaining operators are popped,
      and a `(` among them was never closed. */
  function Finish(original: string, st: State): (r: Result<seq<ExprNode>, ParseError>)
    requires Inv(st)
    ensures r.Ok? ==> WellFormed(r.value) && Requirements(r.value) == Requirements(st.queue)
    ensures st.last.None? ==> r == Err(ParseError(original, Span(0, |original|), Empty))
    ensures st.last.Some? && !OperandComplete(st.last) ==>
      r == Err(Unexpect(original, st.last, Span(|original|, |original|)))
    ensures OperandComplete(st.last) ==> (r.Err? <==> TopOpen(st.ops).Some?)
    ensures OperandComplete(st.last) && TopOpen(st.ops).Some? ==>
      r == Err(ParseError(original, st.ops[TopOpen(st.ops).value].span, UnclosedParens))
  {
    if st.last.None? then Err(ParseError(original, Span(0, |original|), Empty))
    else if !OperandComplete(st.last) then Err(Unexpect(original, st.last, Span(|original|, |original|)))
    else match TopOpen(st.ops)
      case Some(j) => Err(ParseError(original, st.ops[j].span, UnclosedParens))
      case None =>
        BinopsAll(st.ops);
        UnwindKeepsPositive(st.queue, st.ops);
        UnwindKeepsRequirements(st.queue, st.ops);
        Ok(st.queue + Unwind(st.ops))
  }

  /** Every token the lexer yields can be fed to the parser. */
  lemma {:induction false} PlacedKnown(reg: Registry, text: string, offset: nat, toks: seq<LexerToken>)
    requires offset <= |text| && Placed(reg, text, offset, toks)
    ensures AllKnown(reg, toks)
    decreases |toks|
  {
    if |toks| > 0 {
      PlacedKnown(reg, text, toks[0].end, toks[1..]);
    }
  }

  lemma LexedKnown(reg: Registry, text: string)
    ensures AllKnown(reg, Lex(reg, text).tokens)
  {
    PlacedKnown(reg, text, 0, Lex(reg, text).tokens);
  }

  /** The parser after the lexer: the tokens before any lexer error are fed
      first, so an earlier parse error wins over the lexer's. */
  function ParseTokens(reg: Registry, d: Dialect, original: string, toks: seq<LexerToken>, lexError: Option<ParseError>): (r: Result<seq<ExprNode>, ParseError>)
    requires reg.Valid() && AllKnown(reg, toks)
    ensures r.Ok? ==> WellFormed(r.value) && lexError.None?
  {
    match Run(reg, d, original, Start, toks)
    case Err(e) => Err(e)
    case Ok(st) =>
      if lexError.Some? then Err(lexError.value) else Finish(original, st)
  }

  /** `Expression::parse_mode` for `Current`, `ValidExpression::parse` for
      `Legacy`. A successful parse keeps the original text and holds
      well-formed postfix, so evaluating it never pops an empty stack. */
  function Parse(reg: Registry, d: Dialect, original: string): (r: Result<Expression, ParseError>)
    requires reg.Valid()
    ensures r.Ok? ==> WellFormed(r.value.nodes) && r.value.original == original
    ensures r.Ok? ==> Lex(reg, original).error.None?
    ensures Lex(reg, original) == Lexed([], None) ==> r == Err(ParseError(original, Span(0, |original|), Empty))
  {
    var lexed := Lex(reg, original);
    LexedKnown(reg, original);
    match ParseTokens(reg, d, original, lexed.tokens, lexed.error)
    case Err(e) => Err(e)
    case Ok(nodes) => Ok(Expression(nodes, original))
  }
}

=== FILE: parser_facts.dfy ===
/** What the parser's output says about its input: every license and
    reference token becomes exactly one requirement, in token order; the
    current and the earlier parser agree wherever no GNU identifier is
    involved; and the worked examples of the operator precedence and of the
    error positions (src/expression/parser.rs, src/parser.rs). */
module ParserFacts {
  import opened Common
  import opened Registry
  import opened Items
  import opened Errors
  import opened Lexer
  import opened Expression
  import opened Parser

  /** The spans of the requirements, in order. */
  function SpansOf(ers: seq<ExpressionReq>): (r: seq<Span>)
    ensures |r| == |ers|
    decreases |ers|
  {
    if |ers| == 0 then [] else SpansOf(ers[..|ers| - 1]) + [ers[|ers| - 1].span]
  }

  /** The requirement span a token calls for: one for a license or a
      reference, none for anything else. */
  function TokenSpans(lt: LexerToken): seq<Span> {
    if lt.token.License? || lt.token.LicenseRef? then [ReqSpan(lt)] else []
  }

  /** The requirement spans of a token stream, in order. */
  function OperandSpans(toks: seq<LexerToken>): seq<Span>
    decreases |toks|
  {
    if |toks| == 0 then [] else TokenSpans(toks[0]) + OperandSpans(toks[1..])
  }

  function QueueSpans(st: State): seq<Span> {
    SpansOf(Requirements(st.queue))
  }

  lemma {:induction false} SpansOfAppend(a: seq<ExpressionReq>, b: seq<ExpressionReq>)
    ensures SpansOf(a + b) == SpansOf(a) + SpansOf(b)
    decreases |b|
  {
    if |b| == 0 {
      assert a + b == a;
    } else {
      assert (a + b)[..|a + b| - 1] == a + b[..|b| - 1];
      SpansOfAppend(a, b[..|b| - 1]);
    }
  }

  lemma RequirementsSnoc(q: seq<ExprNode>, er: ExpressionReq)
    ensures Requirements(q + [Req(er)]) == Requirements(q) + [er]
  {
    assert (q + [Req(er)])[..|q|] == q;
  }

  /** Replacing the last requirement keeps every span. */
  lemma RetopKeepsSpans(q: seq<ExprNode>, req: LicenseReq)
    requires LastIsReq(q)
    ensures SpansOf(Requirements(Retop(q, req))) == SpansOf(Requirements(q))
  {
    var init := q[..|q| - 1];
    var er := q[|q| - 1].er;
    assert q == init + [Req(er)];
    assert Retop(q, req) == init + [Req(ExpressionReq(req, er.span))];
    RequirementsSnoc(init, er);
    RequirementsSnoc(init, ExpressionReq(req, er.span));
    SpansOfAppend(Requirements(init), [er]);
    SpansOfAppend(Requirements(init), [ExpressionReq(req, er.span)]);
  }

  lemma PushReqSpans(st: State, req: LicenseReq, lt: LexerToken)
    ensures QueueSpans(PushReq(st, req, lt)) == QueueSpans(st) + [ReqSpan(lt)]
  {
    RequirementsSnoc(st.queue, ExpressionReq(req, ReqSpan(lt)));
    SpansOfAppend(Requirements(st.queue), [ExpressionReq(req, ReqSpan(lt))]);
  }

  lemma PushBinopSpans(st: State, k: OpKind, lt: LexerToken)
    ensures QueueSpans(PushBinop(st, k, lt)) == QueueSpans(st)
  {
    var j := TighterStart(st.ops, k);
    UnwindKeepsRequirements(st.queue, st.ops[j..]);
  }

  lemma CloseStepSpans(original: string, st: State, lt: LexerToken)
    ensures CloseStep(original, st, lt).Ok? ==> QueueSpans(CloseStep(original, st, lt).value) == QueueSpans(st)
  {
    if TopOpen(st.ops).Some? {
      UnwindKeepsRequirements(st.queue, st.ops[TopOpen(st.ops).value + 1..]);
    }
  }

  lemma PlusStepSpans(d: Dialect, original: string, st: State, lt: LexerToken)
    requires LastIsSpdx(st.queue)
    ensures PlusStep(d, original, st, lt).Ok? ==> QueueSpans(PlusStep(d, original, st, lt).value) == QueueSpans(st)
  {
    var req := st.queue[|st.queue| - 1].er.req;
    RetopKeepsSpans(st.queue, LicenseReq(Spdx(req.license.id, true), req.addition));
  }

  lemma AttachSpans(st: State, a: AdditionItem, lt: LexerToken)
    requires LastIsReq(st.queue)
    ensures QueueSpans(Attach(st, a, lt)) == QueueSpans(st)
  {
    var req := st.queue[|st.queue| - 1].er.req;
    RetopKeepsSpans(st.queue, LicenseReq(req.license, Some(a)));
  }

  /** One step adds the span of a license or reference token and keeps the
      spans already queued. */
  lemma FeedSpans(reg: Registry, d: Dialect, original: string, st: State, lt: LexerToken)
    requires reg.Valid() && Known(reg, lt.token) && Inv(st)
    ensures var r := Feed(reg, d, original, st, lt);
      r.Ok? ==> QueueSpans(r.value) == QueueSpans(st) + TokenSpans(lt)
  {
    var t := lt.token;
    var r := Feed(reg, d, original, st, lt);
    if r.Ok? {
      match t
      case License(_) =>
        assert r.value == PushReq(st, OperandReq(reg, d, t), lt);
        PushReqSpans(st, OperandReq(reg, d, t), lt);
      case LicenseRef(_, _) =>
        assert r.value == PushReq(st, OperandReq(reg, d, t), lt);
        PushReqSpans(st, OperandReq(reg, d, t), lt);
      case Plus =>
        assert r == PlusStep(d, original, st, lt);
        PlusStepSpans(d, original, st, lt);
      case With =>
      case And =>
        assert r.value == PushBinop(st, AndOp, lt);
        PushBinopSpans(st, AndOp, lt);
      case Or =>
        assert r.value == PushBinop(st, OrOp, lt);
        PushBinopSpans(st, OrOp, lt);
      case OpenParen =>
      case CloseParen =>
        assert r == CloseStep(original, st, lt);
        CloseStepSpans(original, st, lt);
      case Exception(exc) =>
        assert r.value == Attach(st, AddSpdx(exc), lt);
        AttachSpans(st, AddSpdx(exc), lt);
      case AdditionRef(docRef, addRef) =>
        assert r.value == Attach(st, AddOther(docRef, addRef), lt);
        AttachSpans(st, AddOther(docRef, addRef), lt);
    }
  }

  lemma RunCons(reg: Registry, d: Dialect, original: string, st: State, toks: seq<LexerToken>)
    requires reg.Valid() && Inv(st) && AllKnown(reg, toks) && |toks| > 0
    ensures Feed(reg, d, original, st, toks[0]).Ok? ==> Inv(Feed(reg, d, original, st, toks[0]).value)
    ensures var f := Feed(reg, d, original, st, toks[0]);
      Run(reg, d, original, st, toks) == if f.Err? then Err(f.error) else Run(reg, d, original, f.value, toks[1..])
  {
    FeedKeepsInv(reg, d, original, st, toks[0]);
  }

  lemma SeqAssoc<T>(a: seq<T>, b: seq<T>, c: seq<T>)
    ensures (a + b) + c == a + (b + c)
  {
  }

  lemma SpansChain(s0: seq<Span>, s1: seq<Span>, s2: seq<Span>, toks: seq<LexerToken>)
    requires |toks| > 0
    requires s1 == s0 + TokenSpans(toks[0]) && s2 == s1 + OperandSpans(toks[1..])
    ensures s2 == s0 + OperandSpans(toks)
  {
    var h, rest := TokenSpans(toks[0]), OperandSpans(toks[1..]);
    assert OperandSpans(toks) == h + rest;
    SeqAssoc(s0, h, rest);
  }

  /** Running a stream appends one span per license or reference token. */
  lemma {:induction false} RunSpans(reg: Registry, d: Dialect, original: string, st: State, toks: seq<LexerToken>)
    requires reg.Valid() && Inv(st) && AllKnown(reg, toks)
    ensures var r := Run(reg, d, original, st, toks);
      r.Ok? ==> QueueSpans(r.value) == QueueSpans(st) + OperandSpans(toks)
    decreases |toks|
  {
    if |toks| == 0 {
      assert QueueSpans(st) + [] == QueueSpans(st);
    } else {
      var f := Feed(reg, d, original, st, toks[0]);
      RunCons(reg, d, original, st, toks);
      if f.Ok? {
        FeedSpans(reg, d, original, st, toks[0]);
        RunSpans(reg, d, original, f.value, toks[1..]);
        var r := Run(reg, d, original, f.value, toks[1..]);
        if r.Ok? {
          SpansChain(QueueSpans(st), QueueSpans(f.value), QueueSpans(r.value), toks);
        }
      }
    }
  }

  /** A successful parse holds one requirement per license or reference
      token of the input, in the order of the tokens, each spanning its
      token. */
  lemma ParseKeepsOperandOrder(reg: Registry, d: Dialect, original: string)
    requires reg.Valid()
    ensures var r := Parse(reg, d, original);
      r.Ok? ==> SpansOf(Requirements(r.value.nodes)) == OperandSpans(Lex(reg, original).tokens)
  {
    var lexed := Lex(reg, original);
    LexedKnown(reg, original);
    RunSpans(reg, d, original, Start, lexed.tokens);
    var run := Run(reg, d, original, Start, lexed.tokens);
    if run.Ok? && lexed.error.None? {
      var fin := Finish(original, run.value);
      if fin.Ok? {
        assert Parse(reg, d, original) == Ok(Expression(fin.value, original));
      }
    }
  }

  /** A token that is not a GNU license identifier. */
  predicate NotGnuLicense(t: Token) {
    !(t.License? && t.id.IsGnu())
  }

  /** A stream without GNU license identifiers. */
  predicate GnuFreeTokens(toks: seq<LexerToken>)
    decreases |toks|
  {
    |toks| == 0 || (NotGnuLicense(toks[0].token) && GnuFreeTokens(toks[1..]))
  }

  predicate NodeGnuFree(n: ExprNode) {
    n.Req? && n.er.req.license.Spdx? ==> !n.er.req.license.id.IsGnu()
  }

  /** No queued requirement names a GNU identifier. */
  predicate GnuFreeQueue(q: seq<ExprNode>)
    decreases |q|
  {
    |q| == 0 || (GnuFreeQueue(q[..|q| - 1]) && NodeGnuFree(q[|q| - 1]))
  }

  lemma GnuFreeSnoc(q: seq<ExprNode>, n: ExprNode)
    requires GnuFreeQueue(q) && NodeGnuFree(n)
    ensures GnuFreeQueue(q + [n])
  {
    assert (q + [n])[..|q|] == q;
  }

  lemma {:induction false} GnuFreeAppend(a: seq<ExprNode>, b: seq<ExprNode>)
    requires GnuFreeQueue(a) && GnuFreeQueue(b)
    ensures GnuFreeQueue(a + b)
    decreases |b|
  {
    if |b| == 0 {
      assert a + b == a;
    } else {
      var init := b[..|b| - 1];
      GnuFreeAppend(a, init);
      assert a + b == (a + init) + [b[|b| - 1]];
      GnuFreeSnoc(a + init, b[|b| - 1]);
    }
  }

  lemma {:induction false} GnuFreeOps(s: seq<ExprNode>)
    requires forall i :: 0 <= i < |s| ==> s[i].Op?
    ensures GnuFreeQueue(s)
    decreases |s|
  {
    if |s| > 0 {
      GnuFreeOps(s[..|s| - 1]);
    }
  }

  lemma GnuFreeUnwind(q: seq<ExprNode>, ops: seq<PendingOp>)
    requires GnuFreeQueue(q) && forall i :: 0 <= i < |ops| ==> IsBinop(ops[i])
    ensures GnuFreeQueue(q + Unwind(ops))
  {
    GnuFreeOps(Unwind(ops));
    GnuFreeAppend(q, Unwind(ops));
  }

  lemma GnuFreeRetop(q: seq<ExprNode>, req: LicenseReq)
    requires GnuFreeQueue(q) && LastIsReq(q)
    requires req.license.Spdx? ==> !req.license.id.IsGnu()
    ensures GnuFreeQueue(Retop(q, req))
  {
    GnuFreeSnoc(q[..|q| - 1], Req(ExpressionReq(req, q[|q| - 1].er.span)));
  }

  lemma PushReqGnuFree(st: State, req: LicenseReq, lt: LexerToken)
    requires GnuFreeQueue(st.queue) && (req.license.Spdx? ==> !req.license.id.IsGnu())
    ensures GnuFreeQueue(PushReq(st, req, lt).queue)
  {
    GnuFreeSnoc(st.queue, Req(ExpressionReq(req, ReqSpan(lt))));
  }

  lemma PlusStepGnuFree(original: string, st: State, lt: LexerToken)
    requires GnuFreeQueue(st.queue) && LastIsSpdx(st.queue)
    ensures PlusStep(Legacy, original, st, lt).Ok? ==> GnuFreeQueue(PlusStep(Legacy, original, st, lt).value.queue)
  {
    var req := st.queue[|st.queue| - 1].er.req;
    GnuFreeRetop(st.queue, LicenseReq(Spdx(req.license.id, true), req.addition));
  }

  lemma AttachGnuFree(st: State, a: AdditionItem, lt: LexerToken)
    requires GnuFreeQueue(st.queue) && LastIsReq(st.queue)
    ensures GnuFreeQueue(Attach(st, a, lt).queue)
  {
    var req := st.queue[|st.queue| - 1].er.req;
    GnuFreeRetop(st.queue, LicenseReq(req.license, Some(a)));
  }

  lemma PushBinopGnuFree(st: State, k: OpKind, lt: LexerToken)
    requires GnuFreeQueue(st.queue)
    ensures GnuFreeQueue(PushBinop(st, k, lt).queue)
  {
    GnuFreeUnwind(st.queue, st.ops[TighterStart(st.ops, k)..]);
  }

  lemma CloseStepGnuFree(original: string, st: State, lt: LexerToken)
    requires GnuFreeQueue(st.queue)
    ensures CloseStep(original, st, lt).Ok? ==> GnuFreeQueue(CloseStep(original, st, lt).value.queue)
  {
    if TopOpen(st.ops).Some? {
      GnuFreeUnwind(st.queue, st.ops[TopOpen(st.ops).value + 1..]);
    }
  }

  /** Only license identifiers and `+` depend on the dialect. */
  lemma FeedIgnoresDialect(reg: Registry, d: Dialect, d': Dialect, original: string, st: State, lt: LexerToken)
    requires reg.Valid() && Known(reg, lt.token) && Inv(st)
    requires !lt.token.License? && !lt.token.Plus?
    ensures Feed(reg, d, original, st, lt) == Feed(reg, d', original, st, lt)
  {
  }

  lemma LicenseAgree(reg: Registry, m: ParseMode, original: string, st: State, lt: LexerToken)
    requires reg.Valid() && Known(reg, lt.token) && Inv(st)
    requires lt.token.License? && !lt.token.id.IsGnu()
    ensures Feed(reg, Legacy, original, st, lt) == Feed(reg, Current(m), original, st, lt)
  {
    assert OperandReq(reg, Legacy, lt.token) == OperandReq(reg, Current(m), lt.token);
  }

  lemma PlusAgree(reg: Registry, m: ParseMode, original: string, st: State, lt: LexerToken)
    requires reg.Valid() && Inv(st) && GnuFreeQueue(st.queue) && lt.token.Plus?
    ensures Feed(reg, Legacy, original, st, lt) == Feed(reg, Current(m), original, st, lt)
  {
    if Follows(st.last, lt.token) {
      assert !st.queue[|st.queue| - 1].er.req.license.id.IsGnu();
      assert PlusStep(Legacy, original, st, lt) == PlusStep(Current(m), original, st, lt);
    }
  }

  /** The earlier parser lets no GNU identifier into the queue when none is
      fed to it. */
  lemma FeedKeepsGnuFree(reg: Registry, original: string, st: State, lt: LexerToken)
    requires reg.Valid() && Known(reg, lt.token) && Inv(st)
    requires GnuFreeQueue(st.queue) && NotGnuLicense(lt.token)
    ensures Feed(reg, Legacy, original, st, lt).Ok? ==> GnuFreeQueue(Feed(reg, Legacy, original, st, lt).value.queue)
  {
    var t := lt.token;
    var r := Feed(reg, Legacy, original, st, lt);
    if r.Ok? {
      match t
      case License(_) =>
        assert r.value == PushReq(st, OperandReq(reg, Legacy, t), lt);
        PushReqGnuFree(st, OperandReq(reg, Legacy, t), lt);
      case LicenseRef(_, _) =>
        assert r.value == PushReq(st, OperandReq(reg, Legacy, t), lt);
        PushReqGnuFree(st, OperandReq(reg, Legacy, t), lt);
      case Plus =>
        assert r == PlusStep(Legacy, original, st, lt);
        PlusStepGnuFree(original, st, lt);
      case With =>
      case And =>
        assert r.value == PushBinop(st, AndOp, lt);
        PushBinopGnuFree(st, AndOp, lt);
      case Or =>
        assert r.value == PushBinop(st, OrOp, lt);
        PushBinopGnuFree(st, OrOp, lt);
      case OpenParen =>
      case CloseParen =>
        assert r == CloseStep(original, st, lt);
        CloseStepGnuFree(original, st, lt);
      case Exception(exc) =>
        assert r.value == Attach(st, AddSpdx(exc), lt);
        AttachGnuFree(st, AddSpdx(exc), lt);
      case AdditionRef(docRef, addRef) =>
        assert r.value == Attach(st, AddOther(docRef, addRef), lt);
        AttachGnuFree(st, AddOther(docRef, addRef), lt);
    }
  }

  /** Without GNU identifiers in sight the earlier parser takes the same
      step as the current one in any mode. */
  lemma FeedAgree(reg: Registry, m: ParseMode, original: string, st: State, lt: LexerToken)
    requires reg.Valid() && Known(reg, lt.token) && Inv(st)
    requires GnuFreeQueue(st.queue) && NotGnuLicense(lt.token)
    ensures Feed(reg, Legacy, original, st, lt) == Feed(reg, Current(m), original, st, lt)
  {
    if lt.token.License? {
      LicenseAgree(reg, m, original, st, lt);
    } else if lt.token.Plus? {
      PlusAgree(reg, m, original, st, lt);
    } else {
      FeedIgnoresDialect(reg, Legacy, Current(m), original, st, lt);
    }
  }

  lemma {:induction false} RunAgree(reg: Registry, m: ParseMode, original: string, st: State, toks: seq<LexerToken>)
    requires reg.Valid() && Inv(st) && AllKnown(reg, toks)
    requires GnuFreeQueue(st.queue) && GnuFreeTokens(toks)
    ensures Run(reg, Legacy, original, st, toks) == Run(reg, Current(m), original, st, toks)
    decreases |toks|
  {
    if |toks| > 0 {
      FeedAgree(reg, m, original, st, toks[0]);
      FeedKeepsGnuFree(reg, original, st, toks[0]);
      RunCons(reg, Legacy, original, st, toks);
      RunCons(reg, Current(m), original, st, toks);
      var f := Feed(reg, Legacy, original, st, toks[0]);
      if f.Ok? {
        RunAgree(reg, m, original, f.value, toks[1..]);
      }
    }
  }

  /** On an input naming no GNU license, the earlier parser and the current
      one, in either mode, give the same result. */
  lemma ParseAgree(reg: Registry, m: ParseMode, original: string)
    requires reg.Valid() && GnuFreeTokens(Lex(reg, original).tokens)
    ensures Parse(reg, Legacy, original) == Parse(reg, Current(m), original)
  {
    LexedKnown(reg, original);
    RunAgree(reg, m, original, Start, Lex(reg, original).tokens);
  }
}

=== FILE: registry.dfy ===
/** The identifier registry: the generated tables of SPDX license and
    exception short identifiers with their flag bytes, and the lookups the
    library offers over them (src/lib.rs). The tables themselves are data and
    are taken as a parameter; all that is assumed of them is `Valid`. */
module Registry {
  import opened Common

  const IS_FSF_LIBRE: bv8 := 0x1
  const IS_OSI_APPROVED: bv8 := 0x2
  const IS_DEPRECATED: bv8 := 0x4
  const IS_COPYLEFT: bv8 := 0x8

  /** One row of a generated table: a short identifier and its flags. */
  datatype Entry = Entry(name: string, flags: bv8)

  /** A pair of the imprecise-name table: a loose spelling and the
      identifier it stands for. */
  datatype Imprecise = Imprecise(prefix: string, correct: string)

  datatype Registry = Registry(licenses: seq<Entry>, exceptions: seq<Entry>, imprecise: seq<Imprecise>)
  {
    /** Both tables are sorted strictly ascending by name (the precondition
        of the binary searches), and every GNU identifier's root, the name
        without `-or-later`/`-only`, is itself listed (`LicenseReq::from`
        relies on it with `expect`). */
    predicate Valid() {
      && StrictlySorted(Names(licenses))
      && StrictlySorted(Names(exceptions))
      && forall i :: 0 <= i < |licenses| && IsGnuName(licenses[i].name) ==>
           LookupLicense(this, GnuRoot(licenses[i].name)).Some?
    }

    /** `id` denotes row `id.index` of the license table. */
    predicate HasLicense(id: LicenseId) {
      id.index < |licenses| && licenses[id.index] == Entry(id.name, id.flags)
    }

    predicate HasException(id: ExceptionId) {
      id.index < |exceptions| && exceptions[id.index] == Entry(id.name, id.flags)
    }
  }

  /** Handle to a license: its short identifier, its row in the table and its
      flags. The source compares handles by row only (`SameLicense`). */
  datatype LicenseId = LicenseId(name: string, index: nat, flags: bv8)
  {
    predicate IsFsfFreeLibre() { flags & IS_FSF_LIBRE != 0 }
    predicate IsOsiApproved() { flags & IS_OSI_APPROVED != 0 }
    predicate IsDeprecated() { flags & IS_DEPRECATED != 0 }
    predicate IsCopyleft() { flags & IS_COPYLEFT != 0 }
    /** GNU family membership, decided by the name prefix rule the table
        generator uses to set the GNU flag. */
    predicate IsGnu() { IsGnuName(name) }
  }

  datatype ExceptionId = ExceptionId(name: string, index: nat, flags: bv8)
  {
    predicate IsDeprecated() { flags & IS_DEPRECATED != 0 }
  }

  /** `PartialEq` of `LicenseId`: by table index alone. */
  predicate SameLicense(a: LicenseId, b: LicenseId) { a.index == b.index }

  predicate SameException(a: ExceptionId, b: ExceptionId) { a.index == b.index }

  /** `PartialOrd` of `LicenseId`: the order of the table indices. */
  function LicenseCmp(a: LicenseId, b: LicenseId): Ordering {
    if a.index < b.index then Less else if a.index == b.index then Equal else Greater
  }

  predicate IsGnuName(name: string) {
    StartsWith(name, "AGPL-") || StartsWith(name, "GFDL-") || StartsWith(name, "GPL-") || StartsWith(name, "LGPL-")
  }

  /** The name of a GNU identifier with its `-or-later` or `-only` suffix removed. */
  function GnuRoot(name: string): string {
    if EndsWith(name, "-or-later") then name[..|name| - 9]
    else if EndsWith(name, "-only") then name[..|name| - 5]
    else name
  }

  function Names(t: seq<Entry>): (r: seq<string>)
    ensures |r| == |t|
    ensures forall i :: 0 <= i < |t| ==> r[i] == t[i].name
  {
    if |t| == 0 then [] else [t[0].name] + Names(t[1..])
  }

  predicate StrictlySorted(names: seq<string>) {
    forall i, j :: 0 <= i < j < |names| ==> StrLess(names[i], names[j])
  }

  /** Position of the first occurrence of `key`, the reference the binary
      search is measured against. */
  function IndexOf(names: seq<string>, key: string): (r: Option<nat>)
    ensures r.Some? ==> r.value < |names| && names[r.value] == key
    ensures r.Some? ==> forall j :: 0 <= j < r.value ==> names[j] != key
    ensures r.None? <==> key !in names
  {
    if |names| == 0 then None
    else if names[0] == key then Some(0)
    else match IndexOf(names[1..], key)
      case None => None
      case Some(i) => Some(i + 1)
  }

  /** `name.trim_end_matches('+')`. */
  function TrimEndPlus(s: string): (r: string)
    ensures StartsWith(s, r)
    ensures |r| == 0 || r[|r| - 1] != '+'
    ensures forall i :: |r| <= i < |s| ==> s[i] == '+'
  {
    if |s| > 0 && s[|s| - 1] == '+' then TrimEndPlus(s[..|s| - 1]) else s
  }

  /** `license_id`: trailing `+` signs are ignored, then the name must match
      a table entry exactly (case-sensitively). */
  function LookupLicense(reg: Registry, name: string): (r: Option<LicenseId>)
    ensures r.Some? ==> reg.HasLicense(r.value) && r.value.name == TrimEndPlus(name)
    ensures r.None? <==> forall i :: 0 <= i < |reg.licenses| ==> reg.licenses[i].name != TrimEndPlus(name)
  {
    var key := TrimEndPlus(name);
    match IndexOf(Names(reg.licenses), key)
    case None => None
    case Some(i) => Some(LicenseId(key, i, reg.licenses[i].flags))
  }

  /** `exception_id`: exact, case-sensitive match, no trimming. */
  function LookupException(reg: Registry, name: string): (r: Option<ExceptionId>)
    ensures r.Some? ==> reg.HasException(r.value) && r.value.name == name
    ensures r.None? <==> forall i :: 0 <= i < |reg.exceptions| ==> reg.exceptions[i].name != name
  {
    match IndexOf(Names(reg.exceptions), name)
    case None => None
    case Some(i) => Some(ExceptionId(name, i, reg.exceptions[i].flags))
  }

  /** The binary search of `license_id`/`exception_id` over a strictly
      ascending table finds exactly the entry a linear scan finds. */
  method BinarySearch(names: seq<string>, key: string) returns (r: Option<nat>)
    requires StrictlySorted(names)
    ensures r == IndexOf(names, key)
  {
    var lo, hi := 0, |names|;
    while lo < hi
      invariant 0 <= lo <= hi <= |names|
      invariant forall i :: 0 <= i < lo ==> StrLess(names[i], key)
      invariant forall i :: hi <= i < |names| ==> StrLess(key, names[i])
      decreases hi - lo
    {
      var mid := (lo + hi) / 2;
      var c := StrCmp(names[mid], key);
      if c == Less {
        forall i | 0 <= i <= mid
          ensures StrLess(names[i], key)
        {
          if i < mid { StrLessTransitive(names[i], names[mid], key); }
        }
        lo := mid + 1;
      } else if c == Greater {
        forall i | mid <= i < |names|
          ensures StrLess(key, names[i])
        {
          if i > mid { StrLessTransitive(key, names[mid], names[i]); }
        }
        hi := mid;
      } else {
        forall j | 0 <= j < mid
          ensures names[j] != key
        {
          StrLessTrichotomy(names[j], names[mid]);
        }
        IndexOfUnique(names, key, mid);
        return Some(mid);
      }
    }
    forall i | 0 <= i < |names|
      ensures names[i] != key
    {
      StrLessTrichotomy(names[i], key);
    }
    return None;
  }

  lemma IndexOfUnique(names: seq<string>, key: string, k: nat)
    requires k < |names| && names[k] == key
    requires forall j :: 0 <= j < k ==> names[j] != key
    ensures IndexOf(names, key) == Some(k)
  {
    var r := IndexOf(names, key);
    assert r.Some?;
    if r.value < k {
    } else if r.value > k {
    }
  }

  /** In a valid registry, looking up a handle's own name (when it has no
      trailing `+`) finds that handle. */
  lemma LookupOwnName(reg: Registry, id: LicenseId)
    requires reg.Valid() && reg.HasLicense(id) && TrimEndPlus(id.name) == id.name
    ensures LookupLicense(reg, id.name) == Some(id)
  {
    var names := Names(reg.licenses);
    forall j | 0 <= j < id.index
      ensures names[j] != id.name
    {
      assert StrLess(names[j], names[id.index]);
      var _ := StrCmp(id.name, id.name);
    }
    IndexOfUnique(names, id.name, id.index);
  }

  /** In a valid registry, looking up an exception handle's own name finds
      that handle. */
  lemma LookupOwnException(reg: Registry, exc: ExceptionId)
    requires reg.Valid() && reg.HasException(exc)
    ensures LookupException(reg, exc.name) == Some(exc)
  {
    var names := Names(reg.exceptions);
    forall j | 0 <= j < exc.index
      ensures names[j] != exc.name
    {
      assert StrLess(names[j], names[exc.index]);
      var _ := StrCmp(exc.name, exc.name);
    }
    IndexOfUnique(names, exc.name, exc.index);
  }

  /** `license_id` implemented as the source does it, by binary search. */
  method FindLicense(reg: Registry, name: string) returns (r: Option<LicenseId>)
    requires reg.Valid()
    ensures r == LookupLicense(reg, name)
  {
    var key := TrimEndPlus(name);
    var i := BinarySearch(Names(reg.licenses), key);
    match i
    case None => r := None;
    case Some(k) => r := Some(LicenseId(key, k, reg.licenses[k].flags));
  }

  /** `exception_id` implemented by binary search. */
  method FindException(reg: Registry, name: string) returns (r: Option<ExceptionId>)
    requires reg.Valid()
    ensures r == LookupException(reg, name)
  {
    var i := BinarySearch(Names(reg.exceptions), name);
    match i
    case None => r := None;
    case Some(k) => r := Some(ExceptionId(name, k, reg.exceptions[k].flags));
  }

  /** In a valid registry, a handle is determined by its row: index equality
      (the source's `==` on handles) is the same as equality of the handles. */
  lemma SameLicenseIsEquality(reg: Registry, a: LicenseId, b: LicenseId)
    requires reg.HasLicense(a) && reg.HasLicense(b)
    ensures SameLicense(a, b) <==> a == b
  {
  }

  /** Row order of a valid registry is name order, so comparing handles by
      index agrees with comparing their names. */
  lemma LicenseCmpIsNameOrder(reg: Registry, a: LicenseId, b: LicenseId)
    requires reg.Valid() && reg.HasLicense(a) && reg.HasLicense(b)
    ensures LicenseCmp(a, b) == StrCmp(a.name, b.name)
  {
    var names := Names(reg.licenses);
    assert names[a.index] == a.name && names[b.index] == b.name;
    if a.index < b.index {
      assert StrLess(a.name, b.name);
    } else if a.index > b.index {
      assert StrLess(b.name, a.name);
    }
  }

  /** ASCII lower-casing of one character (`u8::to_ascii_lowercase`). */
  function AsciiLower(c: char): char {
    if 'A' <= c <= 'Z' then (c as int + 32) as char else c
  }

  predicate EqIgnoreAsciiCase(a: string, b: string) {
    |a| == |b| && forall i :: 0 <= i < |a| ==> AsciiLower(a[i]) == AsciiLower(b[i])
  }

  /** Entry `prefix` of the imprecise table matches the start of `name`. */
  predicate ImpreciseMatch(p: Imprecise, name: string) {
    |p.prefix| <= |name| && EqIgnoreAsciiCase(p.prefix, name[..|p.prefix|])
  }

  /** Bytes consumed for a matching imprecise entry: the prefix, and one more
      if a `+` follows it. */
  function ImpreciseLen(p: Imprecise, name: string): nat
    requires ImpreciseMatch(p, name)
  {
    if |p.prefix| < |name| && name[|p.prefix|] == '+' then |p.prefix| + 1 else |p.prefix|
  }

  /** The first entry from `k` on whose prefix matches `name`. */
  function FirstImprecise(ps: seq<Imprecise>, name: string, k: nat): (r: Option<nat>)
    requires k <= |ps|
    ensures r.Some? ==> (k <= r.value < |ps| && ImpreciseMatch(ps[r.value], name)
      && forall j :: k <= j < r.value ==> !ImpreciseMatch(ps[j], name))
    ensures r.None? ==> forall j :: k <= j < |ps| ==> !ImpreciseMatch(ps[j], name)
    decreases |ps| - k
  {
    if k == |ps| then None
    else if ImpreciseMatch(ps[k], name) then Some(k)
    else FirstImprecise(ps, name, k + 1)
  }

  /** `imprecise_license_id`, scanning the table from entry `k` on. Only the
      first matching entry counts: its paired identifier is looked up and,
      if absent, the answer is `None` without trying later entries. */
  function ImpreciseFrom(reg: Registry, name: string, k: nat): (r: Option<(LicenseId, nat)>)
    requires k <= |reg.imprecise|
    ensures var f := FirstImprecise(reg.imprecise, name, k);
      r.Some? <==> f.Some? && LookupLicense(reg, reg.imprecise[f.value].correct).Some?
    ensures var f := FirstImprecise(reg.imprecise, name, k);
      r.Some? ==> (Some(r.value.0) == LookupLicense(reg, reg.imprecise[f.value].correct)
        && r.value.1 == ImpreciseLen(reg.imprecise[f.value], name))
    decreases |reg.imprecise| - k
  {
    if k == |reg.imprecise| then None
    else
      var p := reg.imprecise[k];
      if ImpreciseMatch(p, name) then
        match LookupLicense(reg, p.correct)
        case None => None
        case Some(id) => Some((id, ImpreciseLen(p, name)))
      else ImpreciseFrom(reg, name, k + 1)
  }

  function ImpreciseLicenseId(reg: Registry, name: string): Option<(LicenseId, nat)> {
    ImpreciseFrom(reg, name, 0)
  }
}
